=== FILE: README.md ===
# SlidingDrawer: a verified model of the drag-and-fling controller

The repository ships three revisions of an Android `SlidingDrawer` widget: a
handle that the user drags, taps or flings to slide a content panel open or
closed along one of four orientations (top-down, bottom-up, left-to-right,
right-to-left). This project models the controller of each revision as a
Dafny class whose fields are the widget's own fields, and proves what the
controller promises about them.

* `AospDrawer` (`aosp_drawer.dfy`) models the AOSP-derived revision: touch
  interception and dragging, `moveHandle` with its two sentinel positions
  (`EXPANDED_FULL_OPEN`, `COLLAPSED_FULL_CLOSED`) and the collapsed/expanded
  offsets, `prepareTracking`, `performFling`, the tick-by-tick animation
  (`doAnimation`, `incrementAnimation`), the public `open`/`close`/`toggle`
  family and the listener callbacks.
* `GestureDrawer` (`gesture_drawer.dfy`) models the later revision in `src/`:
  no offsets, a second "content lock", and a gesture filter that forwards a
  horizontal scroll over the open content to the touch handler at most once.
* `AnimatorDrawer` (`animator_drawer.dfy`) models the animator-based rewrite:
  the drawer is moved by a translation, a drag follows the finger exactly,
  and a release either bounces back or switches state, handing the motion to
  an animator that can be restarted.

Shared modules: `DrawerCommon` (orientation constants, listener events, the
Java `(int)` cast and `/ 4`, the clamping of a dragged position, the
constructor's id checks), `OrientationBits` (the `Integer.toBinaryString` /
`split("0")` orientation check), `VelocityEstimator` (`computeVelocity`) and
`Kinematics` (uniformly accelerated motion and the fling decision table).

Each class keeps a ghost `events` log of the listener callbacks it has made,
and packs its fields into a `State` value with `S()`. Every method is proved
equal to a pure transition function over `State` (`S() == Opened(cfg,
old(S()))`), and the properties are proved about those functions: the
sentinel positions agree with `onLayout`, drags stay inside the bounds, open
and close are idempotent and notify once in the AOSP-derived revision (in the
`src/` revision close notifies every time and a vertical open moves the
handle again), the animation follows the
closed-form equation of motion however the ticks fall, a release heads
toward the state the fling table chooses, and the quirks of each revision
below.

## Model

| member | source | states |
|---|---|---|
| DrawerCommon.Trunc | src/me/wtao/widget/SlidingDrawer.java:686 | The Java `(int)` cast of a float: the result lies within one unit of the input, toward zero |
| DrawerCommon.Quarter | eclipse/v1-AospImpl/src/me/wtao/widget/SlidingDrawer.java:1090-1091 | Java integer `/ 4`, truncating toward zero for negative extents as well |
| DrawerCommon.DragTarget | eclipse/v1-AospImpl/src/me/wtao/widget/SlidingDrawer.java:1310-1326 | A dragged position below zero snaps to the low bound, one beyond the high edge is clamped to it, and anything between is kept; with a non-negative high edge the result stays in range |
| DrawerCommon.CheckIds | eclipse/v2-AnimatorImpl/src/android/support/widget/SlidingDrawer.java:153-166 | The constructor rejects a missing handle id, then a missing content id, then equal ids, and accepts exactly when both are present and distinct |
| OrientationBits.ToBinaryStringDenotes | eclipse/v1-AospImpl/src/me/wtao/widget/SlidingDrawer.java:1593 | The digits `Integer.toBinaryString` prints form a binary numeral with no leading zero that denotes the value, a negative value as its 32-bit two's complement |
| OrientationBits.SplitRejoins | eclipse/v1-AospImpl/src/me/wtao/widget/SlidingDrawer.java:1598 | The pieces `split` on `'0'` yields before trailing empty pieces are dropped contain no `'0'`, and joined back with `'0'` they give the digits again |
| OrientationBits.DropTrailingEmpty | eclipse/v1-AospImpl/src/me/wtao/widget/SlidingDrawer.java:1598 | `String.split` drops exactly the trailing empty pieces: the result is a prefix of the pieces, every piece after it is empty, and it does not end with an empty piece |
| OrientationBits.FlagRunValues | eclipse/v1-AospImpl/src/me/wtao/widget/SlidingDrawer.java:1592-1605 | The orientation check accepts exactly 1, 2, 3, 4, 6, 7, 8, 12, 14 and 15 (binary at most four digits and no interior zero), so each named orientation passes and 5, 9, 10, 11, 13 and 0 are refused |
| VelocityEstimator.ClampedMinor | eclipse/v1-AospImpl/src/me/wtao/widget/SlidingDrawer.java:949-987 | The minor-axis velocity is clamped to the maximum minor velocity and is otherwise its absolute value |
| VelocityEstimator.ComputeVelocity | eclipse/v1-AospImpl/src/me/wtao/widget/SlidingDrawer.java:949-987 | The release velocity has the sign of the major-axis velocity and the hypotenuse's magnitude, which lies between the major speed and the major speed plus the maximum minor velocity |
| Kinematics.Seconds | eclipse/v1-AospImpl/src/me/wtao/widget/SlidingDrawer.java:1543-1552 | Elapsed time in seconds between two clock readings is non-negative when the clock does not run backward |
| Kinematics.Advance | eclipse/v1-AospImpl/src/me/wtao/widget/SlidingDrawer.java:1543-1552 | One animation step keeps the acceleration |
| Kinematics.AdvanceMonotone | eclipse/v1-AospImpl/src/me/wtao/widget/SlidingDrawer.java:1543-1552 | Once velocity and acceleration agree in sign they keep agreeing, and the position moves monotonically in the direction of the acceleration |
| Kinematics.AdvanceCompose | eclipse/v1-AospImpl/src/me/wtao/widget/SlidingDrawer.java:1543-1552 | Two steps of t1 and t2 seconds land exactly where one step of t1 + t2 seconds lands |
| Kinematics.RunIsClosedForm | eclipse/v1-AospImpl/src/me/wtao/widget/SlidingDrawer.java:1495-1552 | Any sequence of ticks leaves the animation where the closed-form equation of motion puts it at the last tick |
| Kinematics.WillOnFling | eclipse/v1-AospImpl/src/me/wtao/widget/SlidingDrawer.java:1120-1127 | A release counts as a fling exactly when it is faster than the maximum major velocity in the direction of the opposite state |
| Kinematics.WillRollback | eclipse/v1-AospImpl/src/me/wtao/widget/SlidingDrawer.java:1120-1127 | The handle rolls back exactly when it has not reached the critical point on its way to the opposite state |
| Kinematics.Heading | eclipse/v1-AospImpl/src/me/wtao/widget/SlidingDrawer.java:1129-1156 | The chosen direction is always one of the two along the axis |
| Kinematics.FlingTable | eclipse/v1-AospImpl/src/me/wtao/widget/SlidingDrawer.java:1129-1216 | The acceleration is the full maximum toward the opposite state when the fling commits and back otherwise; the release velocity is kept unless it points against that acceleration, when the animation starts from rest, so velocity and acceleration then agree |
| AospDrawer.Validate | eclipse/v1-AospImpl/src/me/wtao/widget/SlidingDrawer.java:309-375 | Construction succeeds exactly when the orientation passes the check, both offsets are non-negative and the handle and content ids are present and distinct; each failure is reported in the source's order |
| AospDrawer.LayoutEdge | eclipse/v1-AospImpl/src/me/wtao/widget/SlidingDrawer.java:879-947 | Layout places the handle at the open bound when expanded and at the closed bound when collapsed, for each orientation and its offsets |
| AospDrawer.LaidOut | eclipse/v1-AospImpl/src/me/wtao/widget/SlidingDrawer.java:879-947 | Layout records the new frame size, leaves a tracked handle where it is and otherwise puts it at the edge of the current state; it keeps the invariant |
| AospDrawer.Moved | eclipse/v1-AospImpl/src/me/wtao/widget/SlidingDrawer.java:1284-1414 | The sentinels move the handle to the open or closed edge; any other position is clamped into the bounds and the touch delta records the distance moved; nothing else changes |
| AospDrawer.Opened | eclipse/v1-AospImpl/src/me/wtao/widget/SlidingDrawer.java:1569-1582 | Opening moves the handle to the open edge, sets expanded, and notifies the open listener only if the drawer was closed |
| AospDrawer.Closed | eclipse/v1-AospImpl/src/me/wtao/widget/SlidingDrawer.java:1554-1567 | Closing moves the handle to the closed edge, clears expanded, and notifies the close listener only if the drawer was open |
| AospDrawer.Toggled | eclipse/v1-AospImpl/src/me/wtao/widget/SlidingDrawer.java:386-394 | Toggling flips the expanded state and puts the handle at the edge of the new state, keeping the invariant |
| AospDrawer.ContentPrepared | eclipse/v1-AospImpl/src/me/wtao/widget/SlidingDrawer.java:1416-1479 | Preparing the content changes no field; it reports the pre-scroll callback exactly when no animation is running and a scroll listener is set |
| AospDrawer.TrackingStopped | eclipse/v1-AospImpl/src/me/wtao/widget/SlidingDrawer.java:1481-1493 | Stopping tracking clears the tracking flag and reports the scroll end to a registered scroll listener |
| AospDrawer.CollapsedMotion | eclipse/v1-AospImpl/src/me/wtao/widget/SlidingDrawer.java:1235-1261 | From the collapsed state the animation starts at the maximum major velocity from the closed position of each orientation; top-down keeps its position and takes the negated collapsed offset as its acceleration |
| AospDrawer.TrackingPrepared | eclipse/v1-AospImpl/src/me/wtao/widget/SlidingDrawer.java:1232-1282 | Tracking starts with a zero touch delta, animates exactly when collapsed, cancels a pending tick, and keeps the expanded state, the log, the lock and the listeners; a collapsed drawer takes the collapsed motion, moves the handle to its truncated position and restarts the animation clock at the press |
| AospDrawer.RollbackPoint | eclipse/v1-AospImpl/src/me/wtao/widget/SlidingDrawer.java:1090-1179 | The critical point lies a quarter of the frame's extent (Java's truncating division) inside the closed edge when collapsed, and the expanded offset plus that quarter inside the open edge when expanded |
| AospDrawer.FlingMotion | eclipse/v1-AospImpl/src/me/wtao/widget/SlidingDrawer.java:1085-1230 | A fling starts at the release position with the full maximum acceleration in the heading the decision table gives, keeping or zeroing the release velocity so that the two agree |
| AospDrawer.Flung | eclipse/v1-AospImpl/src/me/wtao/widget/SlidingDrawer.java:1085-1230 | A fling sets up the motion `FlingMotion` chooses, queues its first tick one frame later, ends the drag and reports the scroll end; nothing else changes |
| AospDrawer.AnimatedOpenAt | eclipse/v1-AospImpl/src/me/wtao/widget/SlidingDrawer.java:1055-1075 | Starting the opening animation leaves an axis orientation animating, untracked, with a tick queued, and reports the scroll end; the motion starts at the given position with full acceleration toward the state opposite the current one, at full speed toward the open side when the drawer is not already open, and from rest when it is; an unknown orientation changes no events |
| AospDrawer.AnimatedCloseAt | eclipse/v1-AospImpl/src/me/wtao/widget/SlidingDrawer.java:1033-1053 | Starting the closing animation leaves an axis orientation animating, untracked, with a tick queued, and reports the scroll end; the motion starts at the given position with full acceleration toward the state opposite the current one, at full speed toward the closed side when the drawer is not already closed, and from rest when it is; an unknown orientation changes no events |
| AospDrawer.IsSingleTap | eclipse/v1-AospImpl/src/me/wtao/widget/SlidingDrawer.java:989-1026 | A release counts as a tap only for the four named orientations; except for an expanded top-down drawer, exactly when the handle is no more than the tap threshold from the rest place of the current state, measured toward the other state |
| AospDrawer.Released | eclipse/v1-AospImpl/src/me/wtao/widget/SlidingDrawer.java:705-733 | A release ends the drag, reports the scroll end once and leaves an animation running with its tick queued, starting at the handle's place with the clock restarted at the release; a release that is not a slow single tap is `performFling`'s non-automatic motion with the release velocity, and a tap starts at full speed and full acceleration toward the other state; the expanded state, the lock and the listeners are kept |
| AospDrawer.AnimateOpened | eclipse/v1-AospImpl/src/me/wtao/widget/SlidingDrawer.java:473-487 | The public animated open keeps the invariant and the expanded flag; for an axis orientation it starts an animation from the handle's place with full acceleration toward the state opposite the current one, from rest when the drawer is already open, otherwise from full speed toward the open side |
| AospDrawer.AnimateClosed | eclipse/v1-AospImpl/src/me/wtao/widget/SlidingDrawer.java:450-462 | The public animated close keeps the invariant and the expanded flag; for an axis orientation it starts an animation from the handle's place with full acceleration toward the state opposite the current one, from rest when the drawer is already closed, otherwise from full speed toward the closed side |
| AospDrawer.AnimateToggled | eclipse/v1-AospImpl/src/me/wtao/widget/SlidingDrawer.java:405-411 | The public animated toggle keeps the invariant and the expanded flag; for an axis orientation it starts an animation from the handle's place with full acceleration toward the state opposite the current one, from full speed |
| AospDrawer.Intercepted | eclipse/v1-AospImpl/src/me/wtao/widget/SlidingDrawer.java:602-653 | A touch is intercepted exactly when the drawer is unlocked and the handle is already tracked or the press hits it; an event that is not intercepted, or not a press, changes nothing |
| AospDrawer.DragBegun | eclipse/v1-AospImpl/src/me/wtao/widget/SlidingDrawer.java:626-649 | A press on the handle starts tracking, records the finger's offset from the handle and reports pre-scroll (when idle) and scroll start to a registered scroll listener |
| AospDrawer.Touched | eclipse/v1-AospImpl/src/me/wtao/widget/SlidingDrawer.java:683-739 | A locked drawer consumes every touch unchanged; an untracked one changes nothing and reports the event handled when animating or when the view handled it; during a drag a move takes the handle to the finger less the grab offset and reports the scroll with its direction change, a release or cancel is `Released`, and a press or any other action changes nothing; a drag in progress always reports the event handled |
| AospDrawer.Clicked | eclipse/v1-AospImpl/src/me/wtao/widget/SlidingDrawer.java:1608-1626 | A click changes nothing while locked or when clicks do not animate (no click listener is installed then); otherwise it is the animated toggle; the invariant is kept |
| AospDrawer.Incremented | eclipse/v1-AospImpl/src/me/wtao/widget/SlidingDrawer.java:1543-1552 | One animation step advances the motion by the elapsed time and records the clock |
| AospDrawer.WillOpen | eclipse/v1-AospImpl/src/me/wtao/widget/SlidingDrawer.java:1501-1525 | The open test holds only for the named orientations: past the open rest place when opening toward the near end, and at the open rest place plus the handle's extent less one when opening toward the far end |
| AospDrawer.WillClose | eclipse/v1-AospImpl/src/me/wtao/widget/SlidingDrawer.java:1501-1525 | The close test holds only for the named orientations: past the closed rest place toward the near end, and at the closed rest place plus the handle's extent less one toward the far end |
| AospDrawer.Ticked | eclipse/v1-AospImpl/src/me/wtao/widget/SlidingDrawer.java:1495-1541 | A tick advances the motion; past the open limit the drawer snaps to the open edge, stops animating and notifies the open listener if it was closed; past the closed limit it snaps closed and notifies the close listener if it was open; otherwise the handle moves to the new position and the next tick is queued one frame later; the invariant is kept |
| AospDrawer.SentinelsMatchLayout | eclipse/v1-AospImpl/src/me/wtao/widget/SlidingDrawer.java:1296-1309 | Moving to either sentinel puts the handle exactly where `onLayout` puts it for that state |
| AospDrawer.DragWithinBounds | eclipse/v1-AospImpl/src/me/wtao/widget/SlidingDrawer.java:1310-1326 | A drag never puts the handle past the high edge, and a position already in range is taken as is |
| AospDrawer.DragPastExpandedOffset | eclipse/v1-AospImpl/src/me/wtao/widget/SlidingDrawer.java:1310-1326 | For bottom-up and right-to-left, a drag to any position between 0 and the expanded offset moves the handle there, beyond the open edge, since the guard is against 0 and not the offset |
| AospDrawer.TopDownExpandedTaps | eclipse/v1-AospImpl/src/me/wtao/widget/SlidingDrawer.java:996-998 | Because the top-down test measures `getTop() - getBottom()`, an expanded top-down drawer counts every release with the handle inside the frame as a tap |
| AospDrawer.RestingHandleTaps | eclipse/v1-AospImpl/src/me/wtao/widget/SlidingDrawer.java:989-1026 | A handle at the rest place of its state always counts as a tap |
| AospDrawer.ArrivalTestsExclusive | eclipse/v1-AospImpl/src/me/wtao/widget/SlidingDrawer.java:1501-1525 | The open and close tests never hold together while the expanded offset is less than the frame's extent plus the collapsed offset |
| AospDrawer.OpenIdempotent | eclipse/v1-AospImpl/src/me/wtao/widget/SlidingDrawer.java:1569-1582 | Opening twice is opening once, and the open listener hears exactly one notification when the drawer was closed and none otherwise |
| AospDrawer.CloseIdempotent | eclipse/v1-AospImpl/src/me/wtao/widget/SlidingDrawer.java:1554-1567 | Closing twice is closing once, and the close listener hears exactly one notification when the drawer was open and none otherwise |
| AospDrawer.ToggleTwice | eclipse/v1-AospImpl/src/me/wtao/widget/SlidingDrawer.java:386-394 | Toggling twice restores the expanded state and puts the handle at that state's edge |
| AospDrawer.AnimateEventsInOrder | eclipse/v1-AospImpl/src/me/wtao/widget/SlidingDrawer.java:405-487 | From any state, the public animated open and the animated close each report pre-scroll (unless an animation runs), scroll start, then scroll end twice to a registered scroll listener, and nothing without one |
| AospDrawer.AnimateHeadsOpposite | eclipse/v1-AospImpl/src/me/wtao/widget/SlidingDrawer.java:473-487 | The public animated open of an open drawer starts from rest toward the closed side, and the animated close of a closed drawer starts from rest toward the open side |
| AospDrawer.AnimateEndsScrollTwice | eclipse/v1-AospImpl/src/me/wtao/widget/SlidingDrawer.java:450-487 | From any state, the public animated open and the animated close each report the scroll end twice |
| AospDrawer.TopDownPrepareQuirk | eclipse/v1-AospImpl/src/me/wtao/widget/SlidingDrawer.java:1243-1245 | Pressing a collapsed top-down drawer sets the acceleration to the negated collapsed offset and leaves the animation position where it was |
| AospDrawer.CollapsedPrepareSnaps | eclipse/v1-AospImpl/src/me/wtao/widget/SlidingDrawer.java:1247-1262 | Pressing a collapsed drawer in the other three orientations snaps the handle and the animation to the closed edge |
| AospDrawer.SentinelOffsetSnapsOpen | eclipse/v1-AospImpl/src/me/wtao/widget/SlidingDrawer.java:1243-1262 | A closed left-to-right drawer with collapsed offset 10001 rests at the fully-open sentinel, so a press throws its handle to the open edge |
| AospDrawer.ReleaseHeading | eclipse/v1-AospImpl/src/me/wtao/widget/SlidingDrawer.java:705-733 | A release always hands over to the animation, untracked, with a tick queued, the scroll end reported once and the expanded state unchanged, accelerating toward the opposite state exactly when it was a single tap or the fling commits |
| AospDrawer.TicksFollowClosedForm | eclipse/v1-AospImpl/src/me/wtao/widget/SlidingDrawer.java:1495-1552 | While the animation runs, any sequence of ticks leaves it where the closed-form equation of motion puts it |
| AospDrawer.SlidingDrawer.constructor | eclipse/v1-AospImpl/src/me/wtao/widget/SlidingDrawer.java:309-375 | A valid configuration yields the initial state: collapsed, unlocked, idle, no listeners |
| AospDrawer.SlidingDrawer.SetOnDrawerOpenListener | eclipse/v1-AospImpl/src/me/wtao/widget/SlidingDrawer.java:515-518 | Only the open listener registration changes |
| AospDrawer.SlidingDrawer.SetOnDrawerCloseListener | eclipse/v1-AospImpl/src/me/wtao/widget/SlidingDrawer.java:527-530 | Only the close listener registration changes |
| AospDrawer.SlidingDrawer.SetOnDrawerScrollListener | eclipse/v1-AospImpl/src/me/wtao/widget/SlidingDrawer.java:540-543 | Only the scroll listener registration changes |
| AospDrawer.SlidingDrawer.Lock | eclipse/v1-AospImpl/src/me/wtao/widget/SlidingDrawer.java:579-581 | Only the lock is set |
| AospDrawer.SlidingDrawer.Unlock | eclipse/v1-AospImpl/src/me/wtao/widget/SlidingDrawer.java:570-572 | Only the lock is cleared |
| AospDrawer.SlidingDrawer.MoveHandle | eclipse/v1-AospImpl/src/me/wtao/widget/SlidingDrawer.java:1284-1414 | The new state is `Moved` and the returned flag says whether the handle moved back |
| AospDrawer.SlidingDrawer.OpenDrawer | eclipse/v1-AospImpl/src/me/wtao/widget/SlidingDrawer.java:1569-1582 | The new state is `Opened` of the old one |
| AospDrawer.SlidingDrawer.CloseDrawer | eclipse/v1-AospImpl/src/me/wtao/widget/SlidingDrawer.java:1554-1567 | The new state is `Closed` of the old one |
| AospDrawer.SlidingDrawer.Toggle | eclipse/v1-AospImpl/src/me/wtao/widget/SlidingDrawer.java:386-394 | The new state is `Toggled` of the old one and the class invariant holds |
| AospDrawer.SlidingDrawer.Open | eclipse/v1-AospImpl/src/me/wtao/widget/SlidingDrawer.java:420-426 | The new state is `Opened` of the old one and the class invariant holds |
| AospDrawer.SlidingDrawer.Close | eclipse/v1-AospImpl/src/me/wtao/widget/SlidingDrawer.java:435-439 | The new state is `Closed` of the old one and the class invariant holds |
| AospDrawer.SlidingDrawer.PrepareContent | eclipse/v1-AospImpl/src/me/wtao/widget/SlidingDrawer.java:1416-1479 | The new state is `ContentPrepared` of the old one |
| AospDrawer.SlidingDrawer.StopTracking | eclipse/v1-AospImpl/src/me/wtao/widget/SlidingDrawer.java:1481-1493 | The new state is `TrackingStopped` of the old one |
| AospDrawer.SlidingDrawer.ResetFrameTime | eclipse/v1-AospImpl/src/me/wtao/widget/SlidingDrawer.java:1264-1269 | The animation clock restarts at `now`, the next frame is one frame later, and the drawer animates |
| AospDrawer.SlidingDrawer.PrepareTracking | eclipse/v1-AospImpl/src/me/wtao/widget/SlidingDrawer.java:1232-1282 | The new state is `TrackingPrepared` of the old one |
| AospDrawer.SlidingDrawer.PerformFling | eclipse/v1-AospImpl/src/me/wtao/widget/SlidingDrawer.java:1085-1230 | The new state is `Flung` of the old one |
| AospDrawer.SlidingDrawer.AnimateOpenAt | eclipse/v1-AospImpl/src/me/wtao/widget/SlidingDrawer.java:1055-1075 | The new state is `AnimatedOpenAt` of the old one |
| AospDrawer.SlidingDrawer.AnimateCloseAt | eclipse/v1-AospImpl/src/me/wtao/widget/SlidingDrawer.java:1033-1053 | The new state is `AnimatedCloseAt` of the old one |
| AospDrawer.SlidingDrawer.AnimateOpen | eclipse/v1-AospImpl/src/me/wtao/widget/SlidingDrawer.java:473-487 | The new state is `AnimateOpened` of the old one and the class invariant holds |
| AospDrawer.SlidingDrawer.AnimateClose | eclipse/v1-AospImpl/src/me/wtao/widget/SlidingDrawer.java:450-462 | The new state is `AnimateClosed` of the old one and the class invariant holds |
| AospDrawer.SlidingDrawer.AnimateToggle | eclipse/v1-AospImpl/src/me/wtao/widget/SlidingDrawer.java:405-411 | The new state is `AnimateToggled` of the old one and the class invariant holds |
| AospDrawer.SlidingDrawer.OnLayout | eclipse/v1-AospImpl/src/me/wtao/widget/SlidingDrawer.java:879-947 | The new state is `LaidOut` of the old one and the class invariant holds |
| AospDrawer.SlidingDrawer.OnInterceptTouchEvent | eclipse/v1-AospImpl/src/me/wtao/widget/SlidingDrawer.java:602-653 | The answer and the new state are `Intercepted` of the old one |
| AospDrawer.SlidingDrawer.BeginDrag | eclipse/v1-AospImpl/src/me/wtao/widget/SlidingDrawer.java:626-649 | The new state is `DragBegun` of the old one |
| AospDrawer.SlidingDrawer.OnTouchEvent | eclipse/v1-AospImpl/src/me/wtao/widget/SlidingDrawer.java:683-739 | The answer and the new state are `Touched` of the old one, with the velocity `computeVelocity` gives |
| AospDrawer.SlidingDrawer.OnHandleClick | eclipse/v1-AospImpl/src/me/wtao/widget/SlidingDrawer.java:1608-1626 | The new state is `Clicked` of the old one and the class invariant holds |
| AospDrawer.SlidingDrawer.IncrementAnimation | eclipse/v1-AospImpl/src/me/wtao/widget/SlidingDrawer.java:1543-1552 | The new state is `Incremented` of the old one |
| AospDrawer.SlidingDrawer.HandleAnimationMessage | eclipse/v1-AospImpl/src/me/wtao/widget/SlidingDrawer.java:1630-1636 | A queued tick at or after its due time makes the new state `Ticked` of the old one, keeping the class invariant |
| GestureDrawer.Validate | src/me/wtao/widget/SlidingDrawer.java:295-347 | Construction succeeds exactly when the orientation is not top-down (the only value this revision's check refuses) and the ids are present and distinct |
| GestureDrawer.LayoutEdge | src/me/wtao/widget/SlidingDrawer.java:575-631 | Layout puts the handle at 0 or at the extent minus the handle, by orientation and state, and at 0 for any other orientation |
| GestureDrawer.LaidOut | src/me/wtao/widget/SlidingDrawer.java:575-631 | Layout records the new frame size, leaves a tracked handle where it is and otherwise puts it at the edge of the current state; it keeps the invariant |
| GestureDrawer.HandleTarget | src/me/wtao/widget/SlidingDrawer.java:1020-1109 | The closed sentinel goes to the closed edge, the open sentinel to the open edge horizontally but to twice the handle's top vertically, and a drag is clamped into the frame |
| GestureDrawer.Moved | src/me/wtao/widget/SlidingDrawer.java:1020-1109 | Moving the handle changes only its position, to the `HandleTarget` of the requested one; unlike the AOSP-derived revision no step is recorded |
| GestureDrawer.Opened | src/me/wtao/widget/SlidingDrawer.java:1388-1401 | Opening moves the handle to the open target, sets expanded, and notifies the open listener only if the drawer was closed |
| GestureDrawer.Closed | src/me/wtao/widget/SlidingDrawer.java:1373-1386 | Closing moves the handle to the closed edge, clears expanded and always notifies the close listener |
| GestureDrawer.Toggled | src/me/wtao/widget/SlidingDrawer.java:1238-1246 | Toggling flips the expanded state and puts a drawer that was open at the closed edge, keeping the invariant |
| GestureDrawer.TrackingStopped | src/me/wtao/widget/SlidingDrawer.java:1164-1176 | Stopping tracking clears the tracking flag and reports the scroll end to a registered scroll listener |
| GestureDrawer.CollapsedMotion | src/me/wtao/widget/SlidingDrawer.java:978-1018 | From the collapsed state the animation starts at the maximum major velocity and acceleration from the closed position of each named orientation |
| GestureDrawer.TrackingPrepared | src/me/wtao/widget/SlidingDrawer.java:978-1018 | Tracking starts, animates exactly when collapsed, cancels a pending tick, and keeps the expanded state, the log, the locks, the listeners and the touch delta; an expanded drawer moves the handle to the given position, a collapsed one takes the collapsed motion, moves the handle to its position and restarts the animation clock |
| GestureDrawer.RollbackPoint | src/me/wtao/widget/SlidingDrawer.java:848-925 | The critical point lies a quarter of the frame's extent (Java's truncating division) inside the edge the handle rests at: the near end when expanded and the far end when collapsed, the other way round for left-to-right |
| GestureDrawer.FlingMotion | src/me/wtao/widget/SlidingDrawer.java:848-976 | A fling starts at the release position with the full maximum acceleration in the heading the decision table gives, keeping or zeroing the release velocity so that the two agree |
| GestureDrawer.Flung | src/me/wtao/widget/SlidingDrawer.java:848-976 | A fling sets up the motion `FlingMotion` chooses, queues its first tick one frame later, ends the drag and reports the scroll end; nothing else changes |
| GestureDrawer.AnimatedOpenAt | src/me/wtao/widget/SlidingDrawer.java:821-837 | Starting the opening animation leaves a named orientation animating, untracked, with a tick queued, and reports the scroll end; the motion starts at the given position with full acceleration toward the state opposite the current one, at full speed toward the open side when the drawer is not already open, and from rest when it is; any other orientation stays tracked with no callback |
| GestureDrawer.AnimatedCloseAt | src/me/wtao/widget/SlidingDrawer.java:803-819 | Starting the closing animation leaves a named orientation animating, untracked, with a tick queued, and reports the scroll end; the motion starts at the given position with full acceleration toward the state opposite the current one, at full speed toward the closed side when the drawer is not already closed, and from rest when it is; any other orientation stays tracked with no callback |
| GestureDrawer.AnimateOpened | src/me/wtao/widget/SlidingDrawer.java:1331-1346 | The public animated open keeps the invariant and the expanded flag; for a named orientation it starts an animation from the handle's place with full acceleration toward the state opposite the current one, from rest when the drawer is already open, otherwise from full speed toward the open side |
| GestureDrawer.AnimateClosed | src/me/wtao/widget/SlidingDrawer.java:1307-1320 | The public animated close keeps the invariant and the expanded flag; for a named orientation it starts an animation from the handle's place with full acceleration toward the state opposite the current one, from rest when the drawer is already closed, otherwise from full speed toward the closed side |
| GestureDrawer.AnimateToggled | src/me/wtao/widget/SlidingDrawer.java:1257-1263 | The public animated toggle keeps the invariant and the expanded flag; for a named orientation it starts an animation from the handle's place with full acceleration toward the state opposite the current one, from full speed |
| GestureDrawer.IsSingleTap | src/me/wtao/widget/SlidingDrawer.java:778-801 | A release counts as a tap only for the three named orientations; for bottom-up and left-to-right, exactly when the handle is less than the tap threshold from the rest place of the current state, measured toward the other state |
| GestureDrawer.Released | src/me/wtao/widget/SlidingDrawer.java:703-727 | A release ends the drag, reports the scroll end once and leaves an animation running with its tick queued, starting at the handle's place with the clock restarted at the release; a release that is not a slow single tap is `performFling`'s non-automatic motion with the release velocity, and a tap starts at full speed and full acceleration toward the other state; the expanded state, both locks, the listeners and the gesture filter are kept |
| GestureDrawer.StartEvents | src/me/wtao/widget/SlidingDrawer.java:673-684 | A press reports pre-scroll exactly when a close listener is registered and scroll start exactly when a scroll listener is, pre-scroll first |
| GestureDrawer.Pressed | src/me/wtao/widget/SlidingDrawer.java:669-693 | A press throws exactly when a close listener is set without a scroll listener, leaving only the tracking flag set; otherwise it tracks, reports pre-scroll (with a close listener) and scroll start, records the finger's offset from the handle and prepares tracking |
| GestureDrawer.Finished | src/me/wtao/widget/SlidingDrawer.java:730-735 | An event outside a drag is consumed unchanged exactly when the handle is tracked, animating, or open with the content unlocked; otherwise the drawer is closed and the event is not consumed |
| GestureDrawer.Touched | src/me/wtao/widget/SlidingDrawer.java:650-736 | A locked drawer consumes every touch unchanged; a press is refused unchanged exactly when no drag is in progress, it misses the handle, and the content is locked or the drawer closed; a press that is not refused throws exactly as `Pressed` says, and otherwise starts the drag as `Pressed` does and is consumed; an event outside a drag is `Finished`; during a drag a move takes the handle to the finger less the grab offset, a release or cancel is `Released`, any other event changes nothing, and the event is consumed; the invariant holds unless it threw |
| GestureDrawer.FilterStep | src/me/wtao/widget/SlidingDrawer.java:1488-1511 | A scroll is forwarded exactly when it is horizontal, from right to left (a positive `distanceX`), and the filter has neither started nor been filtered; a vertical scroll leaves the filter alone; the two flags, once set, stay set |
| GestureDrawer.Forwarded | src/me/wtao/widget/SlidingDrawer.java:1496-1507 | Forwarding a scroll to the touch handler keeps the gesture filter and the invariant unless it threw |
| GestureDrawer.Scrolled | src/me/wtao/widget/SlidingDrawer.java:1488-1511 | A scroll the filter does not pass only updates the filter and is not consumed; the filter is always updated by `FilterStep` |
| GestureDrawer.Intercepted | src/me/wtao/widget/SlidingDrawer.java:634-647 | A locked or closed drawer intercepts nothing; a press over the open content resets the filter; a scroll is consumed only when the filter passes it |
| GestureDrawer.Clicked | src/me/wtao/widget/SlidingDrawer.java:1427-1440 | The click listener is attached only when clicks animate (src/me/wtao/widget/SlidingDrawer.java:462-464), so without that, or while locked, a click changes nothing; otherwise it is the animated toggle; the invariant is kept |
| GestureDrawer.Incremented | src/me/wtao/widget/SlidingDrawer.java:1218-1227 | One animation step advances the motion by the elapsed time and records the clock |
| GestureDrawer.WillOpen | src/me/wtao/widget/SlidingDrawer.java:1185-1200 | The open test holds only for the named orientations: past the open rest place (0) for bottom-up and right-to-left, and at the open rest place plus the handle's width less one for left-to-right |
| GestureDrawer.WillClose | src/me/wtao/widget/SlidingDrawer.java:1185-1200 | The close test holds only for the named orientations: past the closed rest place (0) for left-to-right, and at the closed rest place plus the handle's extent less one otherwise |
| GestureDrawer.Ticked | src/me/wtao/widget/SlidingDrawer.java:1178-1216 | A tick advances the motion; past the open limit the drawer takes the open sentinel's handle position, stops animating and notifies the open listener if it was closed; past the closed limit it snaps closed and notifies; otherwise the handle moves to the new position and the next tick is queued one frame later; the invariant is kept |
| GestureDrawer.SentinelsMatchLayout | src/me/wtao/widget/SlidingDrawer.java:1020-1109 | The closed sentinel puts the handle where `onLayout` does; the open sentinel does so for horizontal orientations |
| GestureDrawer.VerticalOpenDoublesTop | src/me/wtao/widget/SlidingDrawer.java:1023-1024 | In a bottom-up drawer the open sentinel reaches the open edge only when the handle is at the top already; from the closed edge it lands at twice the closed edge |
| GestureDrawer.DragWithinBounds | src/me/wtao/widget/SlidingDrawer.java:1020-1109 | A drag keeps the handle between 0 and the high edge, and a position already in range is taken as is |
| GestureDrawer.OpenIdempotent | src/me/wtao/widget/SlidingDrawer.java:1388-1401 | Horizontally, opening twice is opening once, and the open listener hears exactly one notification when the drawer was closed |
| GestureDrawer.CloseAlwaysNotifies | src/me/wtao/widget/SlidingDrawer.java:1373-1386 | Closing twice leaves the handle where closing once does, but notifies the close listener twice |
| GestureDrawer.PressWithoutScrollListenerThrows | src/me/wtao/widget/SlidingDrawer.java:673-675 | A press with a close listener and no scroll listener throws, and leaves the tracking flag set, which breaks the invariant when a tick was pending |
| GestureDrawer.IdleTouchCloses | src/me/wtao/widget/SlidingDrawer.java:730-735 | An idle non-press touch on a closed or content-locked drawer is not consumed and closes the drawer, notifying the close listener once more |
| GestureDrawer.ReleaseHeading | src/me/wtao/widget/SlidingDrawer.java:703-727 | A release always hands over to the animation, untracked, with a tick queued, the scroll end reported once and the expanded state unchanged, accelerating toward the opposite state exactly when it was a single tap or the fling commits |
| GestureDrawer.CollapsedPrepareSnaps | src/me/wtao/widget/SlidingDrawer.java:978-1018 | Pressing a collapsed drawer snaps the handle and the animation position to the closed edge |
| GestureDrawer.RightToLeftTapQuirk | src/me/wtao/widget/SlidingDrawer.java:793-797 | The right-to-left tap test compares the wrong edges, so a handle dragged all the way to the other state's rest place still counts as a tap |
| GestureDrawer.AnimateEventsInOrder | src/me/wtao/widget/SlidingDrawer.java:1307-1346 | From any state, the public animated open and the animated close each report scroll start, the fling's scroll end (for the named orientations) and their own scroll end to a registered scroll listener, with no pre-scroll call, and nothing without one |
| GestureDrawer.AnimateHeadsOpposite | src/me/wtao/widget/SlidingDrawer.java:1331-1346 | The public animated open of an open drawer starts from rest toward the closed side, and the animated close of a closed drawer starts from rest toward the open side |
| GestureDrawer.AnimateEndsScrollTwice | src/me/wtao/widget/SlidingDrawer.java:1307-1346 | For the named orientations, the public animated open and the animated close each report the scroll end twice, from any state |
| GestureDrawer.ArrivalTestsExclusive | src/me/wtao/widget/SlidingDrawer.java:1185-1200 | The open and close tests never hold together once the frame's extent is at least one |
| GestureDrawer.SettledFilterForwardsNothing | src/me/wtao/widget/SlidingDrawer.java:1496-1503 | Once the filter has started or been filtered, no later scroll is forwarded |
| GestureDrawer.ForwardedAtMostOnce | src/me/wtao/widget/SlidingDrawer.java:1488-1511 | Within one gesture at most one scroll is forwarded, and exactly one is when the first horizontal scroll goes from right to left |
| GestureDrawer.SlidingDrawer.constructor | src/me/wtao/widget/SlidingDrawer.java:295-347 | A valid configuration yields the initial state: collapsed, unlocked, idle, no listeners |
| GestureDrawer.SlidingDrawer.SetOnDrawerOpenListener | src/me/wtao/widget/SlidingDrawer.java:356-359 | Only the open listener registration changes |
| GestureDrawer.SlidingDrawer.SetOnDrawerCloseListener | src/me/wtao/widget/SlidingDrawer.java:368-371 | Only the close listener registration changes |
| GestureDrawer.SlidingDrawer.SetOnDrawerScrollListener | src/me/wtao/widget/SlidingDrawer.java:381-384 | Only the scroll listener registration changes |
| GestureDrawer.SlidingDrawer.Unlock | src/me/wtao/widget/SlidingDrawer.java:415-417 | Only the lock is cleared |
| GestureDrawer.SlidingDrawer.Lock | src/me/wtao/widget/SlidingDrawer.java:424-426 | Only the lock is set |
| GestureDrawer.SlidingDrawer.LockContent | src/me/wtao/widget/SlidingDrawer.java:428-430 | Only the content lock is set |
| GestureDrawer.SlidingDrawer.UnlockContent | src/me/wtao/widget/SlidingDrawer.java:432-434 | Only the content lock is cleared |
| GestureDrawer.SlidingDrawer.MoveHandle | src/me/wtao/widget/SlidingDrawer.java:1020-1109 | The new state is `Moved` of the old one |
| GestureDrawer.SlidingDrawer.CloseDrawer | src/me/wtao/widget/SlidingDrawer.java:1373-1386 | The new state is `Closed` of the old one |
| GestureDrawer.SlidingDrawer.OpenDrawer | src/me/wtao/widget/SlidingDrawer.java:1388-1401 | The new state is `Opened` of the old one |
| GestureDrawer.SlidingDrawer.Toggle | src/me/wtao/widget/SlidingDrawer.java:1238-1246 | The new state is `Toggled` of the old one and the class invariant holds |
| GestureDrawer.SlidingDrawer.Open | src/me/wtao/widget/SlidingDrawer.java:1272-1278 | The new state is `Opened` of the old one and the class invariant holds |
| GestureDrawer.SlidingDrawer.Close | src/me/wtao/widget/SlidingDrawer.java:1287-1291 | The new state is `Closed` of the old one and the class invariant holds |
| GestureDrawer.SlidingDrawer.StopTracking | src/me/wtao/widget/SlidingDrawer.java:1164-1176 | The new state is `TrackingStopped` of the old one |
| GestureDrawer.SlidingDrawer.ResetFrameTime | src/me/wtao/widget/SlidingDrawer.java:968-971 | The animation clock restarts at `now`, the next frame is one frame later, and the drawer animates |
| GestureDrawer.SlidingDrawer.PrepareTracking | src/me/wtao/widget/SlidingDrawer.java:978-1018 | The new state is `TrackingPrepared` of the old one |
| GestureDrawer.SlidingDrawer.PerformFling | src/me/wtao/widget/SlidingDrawer.java:848-976 | The new state is `Flung` of the old one |
| GestureDrawer.SlidingDrawer.AnimateCloseAt | src/me/wtao/widget/SlidingDrawer.java:803-819 | The new state is `AnimatedCloseAt` of the old one |
| GestureDrawer.SlidingDrawer.AnimateOpenAt | src/me/wtao/widget/SlidingDrawer.java:821-837 | The new state is `AnimatedOpenAt` of the old one |
| GestureDrawer.SlidingDrawer.AnimateClose | src/me/wtao/widget/SlidingDrawer.java:1307-1320 | The new state is `AnimateClosed` of the old one and the class invariant holds |
| GestureDrawer.SlidingDrawer.AnimateOpen | src/me/wtao/widget/SlidingDrawer.java:1331-1346 | The new state is `AnimateOpened` of the old one and the class invariant holds |
| GestureDrawer.SlidingDrawer.AnimateToggle | src/me/wtao/widget/SlidingDrawer.java:1257-1263 | The new state is `AnimateToggled` of the old one and the class invariant holds |
| GestureDrawer.SlidingDrawer.OnLayout | src/me/wtao/widget/SlidingDrawer.java:575-631 | The new state is `LaidOut` of the old one and the class invariant holds |
| GestureDrawer.SlidingDrawer.Grab | src/me/wtao/widget/SlidingDrawer.java:669-690 | Grabbing throws exactly when a close listener is set without a scroll listener, leaving only the tracking flag set; otherwise it reports the start callbacks and records the finger's offset |
| GestureDrawer.SlidingDrawer.Press | src/me/wtao/widget/SlidingDrawer.java:669-693 | The outcome and the new state are `Pressed` of the old one |
| GestureDrawer.SlidingDrawer.Finish | src/me/wtao/widget/SlidingDrawer.java:730-735 | The answer and the new state are `Finished` of the old one |
| GestureDrawer.SlidingDrawer.OnTouchEvent | src/me/wtao/widget/SlidingDrawer.java:650-736 | The outcome and the new state are `Touched` of the old one with the velocity `computeVelocity` gives; the class invariant holds unless it threw |
| GestureDrawer.SlidingDrawer.OnDown | src/me/wtao/widget/SlidingDrawer.java:1473-1477 | A press resets both filter flags, changes nothing else and is not consumed |
| GestureDrawer.SlidingDrawer.OnScroll | src/me/wtao/widget/SlidingDrawer.java:1488-1511 | The outcome and the new state are `Scrolled` of the old one |
| GestureDrawer.SlidingDrawer.OnInterceptTouchEvent | src/me/wtao/widget/SlidingDrawer.java:634-647 | The outcome and the new state are `Intercepted` of the old one |
| GestureDrawer.SlidingDrawer.OnHandleClick | src/me/wtao/widget/SlidingDrawer.java:1427-1440 | The new state is `Clicked` of the old one and the class invariant holds |
| GestureDrawer.SlidingDrawer.IncrementAnimation | src/me/wtao/widget/SlidingDrawer.java:1218-1227 | The new state is `Incremented` of the old one |
| GestureDrawer.SlidingDrawer.HandleAnimationMessage | src/me/wtao/widget/SlidingDrawer.java:1444-1450 | A queued tick at or after its due time makes the new state `Ticked` of the old one, keeping the class invariant |
| AnimatorDrawer.OnlyLastRunsIsOneRunning | eclipse/v2-AnimatorImpl/src/android/support/widget/SlidingDrawer.java:365-373 | When only the latest animator may run, at most one animator runs |
| AnimatorDrawer.ClosedTarget | eclipse/v2-AnimatorImpl/src/android/support/widget/SlidingDrawer.java:331-363 | The closed translation is the frame's extent minus the handle's, positive for bottom-up and right-to-left and negative for the other two |
| AnimatorDrawer.AxisValue | eclipse/v2-AnimatorImpl/src/android/support/widget/SlidingDrawer.java:465-467 | The touch coordinate is the truncated raw x for horizontal orientations and the truncated raw y otherwise |
| AnimatorDrawer.TransPositionSet | eclipse/v2-AnimatorImpl/src/android/support/widget/SlidingDrawer.java:415-437 | Setting the translation stores the position truncated toward zero, within one pixel of the request |
| AnimatorDrawer.AnimatorStarted | eclipse/v2-AnimatorImpl/src/android/support/widget/SlidingDrawer.java:365-373 | Starting an animator cancels the previous one, records the new target as the only running animator, and keeps the earlier targets, the translation, the state and the drag base |
| AnimatorDrawer.OpenSet | eclipse/v2-AnimatorImpl/src/android/support/widget/SlidingDrawer.java:317-329 | Opening sets expanded and either starts an animator toward translation 0 or moves there at once |
| AnimatorDrawer.ClosedSet | eclipse/v2-AnimatorImpl/src/android/support/widget/SlidingDrawer.java:331-363 | Closing clears expanded and either starts an animator toward the closed translation or moves there at once |
| AnimatorDrawer.Triggered | eclipse/v2-AnimatorImpl/src/android/support/widget/SlidingDrawer.java:309-315 | Triggering flips the expanded state and heads for the new state's translation, animated or at once |
| AnimatorDrawer.ScrollStartedAt | eclipse/v2-AnimatorImpl/src/android/support/widget/SlidingDrawer.java:402-405 | A press records the finger coordinate and the current translation as the drag base |
| AnimatorDrawer.ScrolledTo | eclipse/v2-AnimatorImpl/src/android/support/widget/SlidingDrawer.java:439-441 | A move sets the translation to the base translation plus the finger's travel |
| AnimatorDrawer.ScrollEndedAt | eclipse/v2-AnimatorImpl/src/android/support/widget/SlidingDrawer.java:443-463 | A release travelling less than a quarter of the frame keeps the state, a longer one flips it, and either way an animator heads for the resulting state's translation |
| AnimatorDrawer.Touched | eclipse/v2-AnimatorImpl/src/android/support/widget/SlidingDrawer.java:383-400 | A touch is never consumed; a press, move, release or cancel dispatches to the matching handler and anything else changes nothing |
| AnimatorDrawer.AnimationEnded | eclipse/v2-AnimatorImpl/src/android/support/widget/SlidingDrawer.java:475-489 | When an animation ends the drawer is expanded exactly when its translation is 0, and nothing else changes |
| AnimatorDrawer.AnimationFinished | eclipse/v2-AnimatorImpl/src/android/support/widget/SlidingDrawer.java:365-373 | A running animator that completes leaves the translation at its target; without one, nothing changes |
| AnimatorDrawer.LaidOut | eclipse/v2-AnimatorImpl/src/android/support/widget/SlidingDrawer.java:281-284 | Layout records the frame and closes the drawer at once at the closed translation, leaving the animators alone |
| AnimatorDrawer.Clicked | eclipse/v2-AnimatorImpl/src/android/support/widget/SlidingDrawer.java:180-188 | A click triggers the drawer, animated as configured, only when single taps are allowed |
| AnimatorDrawer.Initial | eclipse/v2-AnimatorImpl/src/android/support/widget/SlidingDrawer.java:134-171 | The initial state is collapsed, with no animator, and satisfies the invariant |
| AnimatorDrawer.AxisClassification | eclipse/v2-AnimatorImpl/src/android/support/widget/SlidingDrawer.java:266-272 | Each named orientation is exactly one of horizontal and vertical; any other value is neither |
| AnimatorDrawer.AnimatedAndImmediateAgree | eclipse/v2-AnimatorImpl/src/android/support/widget/SlidingDrawer.java:317-363 | The animated and the immediate forms of open and close reach the same state, the animator aiming at the translation the immediate form sets |
| AnimatorDrawer.ToggleTwice | eclipse/v2-AnimatorImpl/src/android/support/widget/SlidingDrawer.java:309-315 | Triggering twice restores the expanded state |
| AnimatorDrawer.DragFollowsFinger | eclipse/v2-AnimatorImpl/src/android/support/widget/SlidingDrawer.java:402-441 | After a press, the translation moves by exactly the finger's travel |
| AnimatorDrawer.DragIsAbsolute | eclipse/v2-AnimatorImpl/src/android/support/widget/SlidingDrawer.java:439-441 | A move depends only on the latest coordinate, not on earlier moves |
| AnimatorDrawer.StillReleaseBouncesBack | eclipse/v2-AnimatorImpl/src/android/support/widget/SlidingDrawer.java:443-463 | A release where the press happened keeps the state when the frame is at least four pixels long |
| AnimatorDrawer.LongReleaseSwitches | eclipse/v2-AnimatorImpl/src/android/support/widget/SlidingDrawer.java:443-463 | A release at least a quarter of the frame from the press, in either direction, flips the state |
| AnimatorDrawer.SettlesWhereRequested | eclipse/v2-AnimatorImpl/src/android/support/widget/SlidingDrawer.java:475-489 | An animated open settles expanded, and an animated close settles collapsed unless the closed translation is 0 |
| AnimatorDrawer.FullHandleReopens | eclipse/v2-AnimatorImpl/src/android/support/widget/SlidingDrawer.java:475-489 | When the handle fills the frame, an animated close settles expanded again |
| AnimatorDrawer.SlidingDrawer.constructor | eclipse/v2-AnimatorImpl/src/android/support/widget/SlidingDrawer.java:134-171 | Distinct handle and content ids yield the initial state |
| AnimatorDrawer.SlidingDrawer.SetTransPosition | eclipse/v2-AnimatorImpl/src/android/support/widget/SlidingDrawer.java:415-426 | The new state is `TransPositionSet` of the old one |
| AnimatorDrawer.SlidingDrawer.StartTransAnimator | eclipse/v2-AnimatorImpl/src/android/support/widget/SlidingDrawer.java:365-373 | The new state is `AnimatorStarted` of the old one |
| AnimatorDrawer.SlidingDrawer.SetDrawerOpen | eclipse/v2-AnimatorImpl/src/android/support/widget/SlidingDrawer.java:317-329 | The new state is `OpenSet` of the old one |
| AnimatorDrawer.SlidingDrawer.SetDrawerClosed | eclipse/v2-AnimatorImpl/src/android/support/widget/SlidingDrawer.java:331-363 | The new state is `ClosedSet` of the old one |
| AnimatorDrawer.SlidingDrawer.TriggerDrawer | eclipse/v2-AnimatorImpl/src/android/support/widget/SlidingDrawer.java:309-315 | The new state is `Triggered` of the old one |
| AnimatorDrawer.SlidingDrawer.OnDrawerScrollStarted | eclipse/v2-AnimatorImpl/src/android/support/widget/SlidingDrawer.java:402-405 | The new state is `ScrollStartedAt` of the old one |
| AnimatorDrawer.SlidingDrawer.OnDrawerScroll | eclipse/v2-AnimatorImpl/src/android/support/widget/SlidingDrawer.java:439-441 | The new state is `ScrolledTo` of the old one |
| AnimatorDrawer.SlidingDrawer.OnDrawerScrollEnded | eclipse/v2-AnimatorImpl/src/android/support/widget/SlidingDrawer.java:443-459 | The new state is `ScrollEndedAt` of the old one |
| AnimatorDrawer.SlidingDrawer.OnTouch | eclipse/v2-AnimatorImpl/src/android/support/widget/SlidingDrawer.java:383-400 | The answer and the new state are `Touched` of the old one |
| AnimatorDrawer.SlidingDrawer.OnAnimationEnd | eclipse/v2-AnimatorImpl/src/android/support/widget/SlidingDrawer.java:475-481 | The new state is `AnimationEnded` of the old one |
| AnimatorDrawer.SlidingDrawer.FinishAnimation | eclipse/v2-AnimatorImpl/src/android/support/widget/SlidingDrawer.java:365-373 | The new state is `AnimationFinished` of the old one |
| AnimatorDrawer.SlidingDrawer.OnLayout | eclipse/v2-AnimatorImpl/src/android/support/widget/SlidingDrawer.java:281-284 | The new state is `LaidOut` of the old one |
| AnimatorDrawer.SlidingDrawer.OnHandleClick | eclipse/v2-AnimatorImpl/src/android/support/widget/SlidingDrawer.java:184-186 | The new state is `Clicked` of the old one |

## Left out

- Drawing: `dispatchDraw`, `invalidate`, `requestLayout`, the drawing cache and `onMeasure` are rendering and do not change the controller's state.
- `prepareContent`'s measuring and laying out of the content view is left out; only its effect on the callbacks is modelled.
- The velocity tracker's estimate is not modelled: the x and y velocities are parameters.
- `Math.hypot` is a parameter constrained by `IsHypot` (its square equals the sum of squares), because a square root is not a Dafny function.
- Floating point is modelled as exact reals: no float rounding.
- 32-bit overflow of the `int` positions and times is not modelled; positions stay far from the limits.
- The Android `GestureDetector` is not modelled: the press or scroll it reports is a `Gesture` parameter.
- The message handler is modelled by the `tickPending` flag and the due time `currentAnimTime`; `SystemClock.uptimeMillis()` is the `now` parameter.
- The handle's hit test is the boolean `hit` carried by each touch.
- `onFinishInflate` (finding the handle and content views, throwing when one is missing) is not modelled; that it installs the click listener only when clicks animate is modelled by `Clicked` changing nothing otherwise.
- The constructors' attribute reading and density scaling are not modelled: the configuration carries the scaled thresholds.
- `mPadding` in the `src/` revision is always 0, so the subtraction in its `onLayout` is left out.
- `setPressed`, sound effects, accessibility events and logging have no effect on the controller's state.
- AospDrawer.SlidingDrawer.IsOpened: no ensures; it returns the expanded field.
- AospDrawer.SlidingDrawer.IsMoving: no ensures; it returns tracking or animating.
- GestureDrawer.SlidingDrawer.IsOpened: no ensures; it returns the expanded field.
- GestureDrawer.SlidingDrawer.IsMoving: no ensures; it returns tracking or animating.
- AospDrawer.LaidOut, GestureDrawer.LaidOut: the frame is updated even while the handle is tracked, because Android records the frame before calling `onLayout`.
- The animator revision's interpolated frames (the `OvershootInterpolator` and the 300 ms duration) are not modelled: an animator jumps to its target when it finishes.
- The animator revision's `TensionView`, `adjustLayoutMargin`, `onAttachedToWindow` and `onMeasure` are layout and drawing, and are not modelled.
- The animator revision's translation is kept as an integer, since `adjustTransPos1pxErr` truncates every position set.

## Quirks reproduced

The model follows the code where it departs from the evident design.

- AOSP-derived revision, `prepareTracking` (eclipse/v1-AospImpl/src/me/wtao/widget/SlidingDrawer.java:1243-1245): a top-down press on a collapsed drawer sets the acceleration to the negated collapsed offset and leaves the animation position unchanged (`TopDownPrepareQuirk`).
- AOSP-derived revision, `isSingleTap` (eclipse/v1-AospImpl/src/me/wtao/widget/SlidingDrawer.java:996-998): the top-down case measures `getTop() - getBottom()`, so an expanded top-down drawer counts any release inside the frame as a tap (`TopDownExpandedTaps`).
- AOSP-derived revision: `animateOpen`/`animateClose` report the scroll end twice, once from the private overload's `stopTracking` and once themselves (`AospDrawer.AnimateEndsScrollTwice`).
- AOSP-derived and `src/` revisions, `animateOpen`/`animateClose` (eclipse/v1-AospImpl/src/me/wtao/widget/SlidingDrawer.java:1129-1136, src/me/wtao/widget/SlidingDrawer.java:882-889): the automatic fling always heads for the state opposite the current one, so `animateOpen` on an open drawer animates it closed, and `animateClose` on a closed drawer opens it (`AnimateHeadsOpposite`).
- AOSP-derived revision, `prepareTracking`/`moveHandle` (eclipse/v1-AospImpl/src/me/wtao/widget/SlidingDrawer.java:1243-1262): a left-to-right collapsed place of -10001 is the fully-open sentinel, so a press on the closed drawer throws the handle to the open edge (`SentinelOffsetSnapsOpen`).
- AOSP-derived revision, `moveHandle`: the lower guard is 0, not the expanded offset, so a drag can pass the open edge (`DragPastExpandedOffset`).
- `src/` revision, `moveHandle` (src/me/wtao/widget/SlidingDrawer.java:1023-1024): a vertical open adds the handle's top to itself (`VerticalOpenDoublesTop`).
- `src/` revision, `onTouchEvent` (src/me/wtao/widget/SlidingDrawer.java:673-675): a close listener without a scroll listener makes a press dereference null (`PressWithoutScrollListenerThrows`).
- `src/` revision, `closeDrawer`: it notifies the close listener even when the drawer was already closed (`CloseAlwaysNotifies`), and idle touches outside a drag call it (`IdleTouchCloses`).
- `src/` revision, `animateOpen(int)`/`animateClose(int)`: an orientation outside the three named ones leaves the handle tracked.
- `src/` revision, `animateOpen`/`animateClose` (src/me/wtao/widget/SlidingDrawer.java:1307-1346): the scroll end is reported twice, as in the AOSP-derived revision (`GestureDrawer.AnimateEndsScrollTwice`).
- `src/` revision, `isSingleTap` (src/me/wtao/widget/SlidingDrawer.java:793-797): the right-to-left case compares the handle's right edge with the threshold when expanded and its left edge with the far end less the threshold when collapsed, so a release far from the rest place still counts as a tap (`RightToLeftTapQuirk`).
- Animator revision: the drawer never registers itself as its animators' listener, so `onAnimationEnd` is modelled as a separate entry point; with a handle as large as the frame, a finished close settles expanded (`FullHandleReopens`).
- Animator revision: the constructor does not check the orientation.

=== FILE: animator_drawer.dfy ===
/**
 * The property-animator revision of the drawer (eclipse/v2-AnimatorImpl).
 * The whole container is translated along its axis: a drag sets the
 * translation from the finger's travel since the press, a release decides
 * between bouncing back and switching state by a quarter-extent rule, and
 * open/close either set the translation at once or start an animator toward
 * the target translation, cancelling the one that was running.
 *
 * The animator itself (ObjectAnimator with an overshoot interpolator) is
 * library code: the model keeps its target and whether it still runs, and
 * one environment step, FinishAnimation, for the animator writing its final
 * value.  A ghost history of every animator started records the
 * single-animator rule.
 */
module AnimatorDrawer {
  import opened DrawerCommon

  /** The XML attributes the drawer keeps. No orientation check is made in this revision. */
  datatype Config = Config(orientation: Int32, allowSingleTap: bool, animateOnClick: bool)

  /** isHorizontal: the two horizontal orientation constants. */
  predicate IsHorizontal(o: int) {
    o == RIGHT_TO_LEFT || o == LEFT_TO_RIGHT
  }

  /** isVertical: the two vertical orientation constants. */
  predicate IsVertical(o: int) {
    o == BOTTOM_UP || o == TOP_DOWN
  }

  /** An animator of the translation: its end value, and whether it still runs. */
  datatype Animation = Animation(target: int, running: bool)

  datatype State = State(
    layout: Layout,
    expanded: bool,
    // the translation along the axis (X when horizontal, Y otherwise)
    translation: int,
    // the axis coordinate and the translation captured when the press began
    baseAxisValue: int,
    baseTransPosition: int,
    transAnimator: Option<Animation>,
    // every animator started so far, oldest first, in its current status
    history: seq<Animation>)

  /** Only the most recently started animator can still be running. */
  predicate OnlyLastRuns(h: seq<Animation>) {
    forall i :: 0 <= i < |h| - 1 ==> !h[i].running
  }

  /** No two animators run at the same time. */
  predicate OneRunning(h: seq<Animation>) {
    forall i, j :: 0 <= i < |h| && 0 <= j < |h| && h[i].running && h[j].running ==> i == j
  }

  /** The animator field is the last animator started, and no earlier one still runs. */
  predicate Inv(st: State) {
    && (st.transAnimator == None <==> |st.history| == 0)
    && (|st.history| > 0 ==> st.transAnimator == Some(st.history[|st.history| - 1]))
    && OnlyLastRuns(st.history)
  }

  lemma OnlyLastRunsIsOneRunning(h: seq<Animation>)
    requires OnlyLastRuns(h)
    ensures OneRunning(h)
  {
  }

  // ---- geometry along the axis ----

  /** The container's size along its axis: the width when horizontal, the height otherwise. */
  function Extent(c: Config, g: Layout): int {
    if IsHorizontal(c.orientation) then g.width else g.height
  }

  function HandleExtent(c: Config, g: Layout): int {
    if IsHorizontal(c.orientation) then g.handleWidth else g.handleHeight
  }

  /** The orientations whose closed drawer sits at a positive translation. */
  predicate ClosesPositive(o: int) {
    o == RIGHT_TO_LEFT || o == BOTTOM_UP
  }

  /**
   * The translation of a closed drawer: the container slides out by its
   * extent less the handle's, so that only the handle stays in view; toward
   * the right or the bottom for right-to-left and bottom-up, the other way for
   * every other orientation.
   */
  function ClosedTarget(c: Config, g: Layout): (t: int)
    ensures ClosesPositive(c.orientation) ==> t == Extent(c, g) - HandleExtent(c, g)
    ensures !ClosesPositive(c.orientation) ==> t == HandleExtent(c, g) - Extent(c, g)
  {
    if IsHorizontal(c.orientation) then
      if c.orientation == RIGHT_TO_LEFT then g.width - g.handleWidth else g.handleWidth - g.width
    else
      if c.orientation == BOTTOM_UP then g.height - g.handleHeight else g.handleHeight - g.height
  }

  /** shouldBounceBack: a release that travelled less than a quarter of the extent (Java's int division). */
  predicate ShouldBounceBack(c: Config, g: Layout, deltaDistance: int) {
    deltaDistance < Quarter(Extent(c, g))
  }

  /** getMotionAxisValue: the raw coordinate along the axis, truncated to an int. */
  function AxisValue(c: Config, ev: Touch): (v: int)
    ensures IsHorizontal(c.orientation) ==> v == Trunc(ev.x)
    ensures !IsHorizontal(c.orientation) ==> v == Trunc(ev.y)
  {
    Trunc(if IsHorizontal(c.orientation) then ev.x else ev.y)
  }

  // ---- transitions ----

  /** setTransPosition: adjustTransPos1pxErr truncates the requested value, which becomes the translation. */
  function TransPositionSet(st: State, position: real): (s: State)
    ensures s == st.(translation := Trunc(position))
    ensures 0.0 <= position ==> s.translation as real <= position < s.translation as real + 1.0
    ensures position < 0.0 ==> position <= s.translation as real < position + 1.0
  {
    st.(translation := Trunc(position))
  }

  /** startTransAnimator: cancel the animator there is, then start a new one toward `target`. */
  function AnimatorStarted(st: State, target: int): (s: State)
    ensures Inv(st) ==> Inv(s) && OneRunning(s.history)
    ensures s.transAnimator == Some(Animation(target, true))
    ensures |s.history| == |st.history| + 1
    ensures Inv(st) ==> forall i :: 0 <= i < |st.history| ==> s.history[i].target == st.history[i].target
    ensures Inv(st) && st.transAnimator.Some? ==> !s.history[|st.history| - 1].running
    ensures s.layout == st.layout && s.expanded == st.expanded && s.translation == st.translation
    ensures s.baseAxisValue == st.baseAxisValue && s.baseTransPosition == st.baseTransPosition
  {
    var h :=
      if st.transAnimator.Some? && |st.history| > 0 then
        st.history[..|st.history| - 1] + [st.transAnimator.value.(running := false)]
      else st.history;
    var a := Animation(target, true);
    assert Inv(st) ==> forall i :: 0 <= i < |h| ==> h[i].target == st.history[i].target;
    var s := st.(transAnimator := Some(a), history := h + [a]);
    assert Inv(st) ==> OneRunning(s.history) by {
      if Inv(st) {
        assert OnlyLastRuns(s.history);
        OnlyLastRunsIsOneRunning(s.history);
      }
    }
    s
  }

  /** setsetDrawerOpen: expanded, heading for translation 0 by animator or at once. */
  function OpenSet(c: Config, st: State, animate: bool): (s: State)
    ensures Inv(st) ==> Inv(s)
    ensures s.expanded
    ensures animate ==> s.transAnimator == Some(Animation(0, true)) && s.translation == st.translation
    ensures !animate ==> s == st.(expanded := true, translation := 0)
    ensures s.layout == st.layout && s.baseAxisValue == st.baseAxisValue && s.baseTransPosition == st.baseTransPosition
  {
    var s1 := st.(expanded := true);
    if animate then AnimatorStarted(s1, 0) else s1.(translation := 0)
  }

  /** setDrawerClosed: collapsed, heading for the closed translation by animator or at once. */
  function ClosedSet(c: Config, st: State, animate: bool): (s: State)
    ensures Inv(st) ==> Inv(s)
    ensures !s.expanded
    ensures animate ==> s.transAnimator == Some(Animation(ClosedTarget(c, st.layout), true)) && s.translation == st.translation
    ensures !animate ==> s == st.(expanded := false, translation := ClosedTarget(c, st.layout))
    ensures s.layout == st.layout && s.baseAxisValue == st.baseAxisValue && s.baseTransPosition == st.baseTransPosition
  {
    var s1 := st.(expanded := false);
    if animate then AnimatorStarted(s1, ClosedTarget(c, st.layout)) else s1.(translation := ClosedTarget(c, st.layout))
  }

  /** The translation the drawer heads for when it is asked to be in state `expanded`. */
  function Target(c: Config, g: Layout, expanded: bool): int {
    if expanded then 0 else ClosedTarget(c, g)
  }

  /** trigglerDrawer: close when expanded, open otherwise. */
  function Triggered(c: Config, st: State, animate: bool): (s: State)
    ensures Inv(st) ==> Inv(s)
    ensures s.expanded == !st.expanded
    ensures animate ==> s.transAnimator == Some(Animation(Target(c, st.layout, s.expanded), true))
    ensures !animate ==> s.translation == Target(c, st.layout, s.expanded)
  {
    if st.expanded then ClosedSet(c, st, animate) else OpenSet(c, st, animate)
  }

  /** onDrawerScrollStarted: remember where the finger and the drawer were. */
  function ScrollStartedAt(st: State, value: int): (s: State)
    ensures s == st.(baseAxisValue := value, baseTransPosition := st.translation)
  {
    st.(baseAxisValue := value, baseTransPosition := st.translation)
  }

  /** onDrawerScroll: the drawer follows the finger's travel since the press, unclamped. */
  function ScrolledTo(st: State, value: int): (s: State)
    ensures s == st.(translation := value - st.baseAxisValue + st.baseTransPosition)
  {
    TruncOfInt(value - st.baseAxisValue + st.baseTransPosition);
    TransPositionSet(st, (value - st.baseAxisValue + st.baseTransPosition) as real)
  }

  /**
   * onDrawerScrollEnded: a short release bounces back to the state the drawer
   * was in, a long one switches state; either way an animator is started.
   */
  function ScrollEndedAt(c: Config, st: State, value: int): (s: State)
    ensures Inv(st) ==> Inv(s)
    ensures
      var travel := if value < st.baseAxisValue then st.baseAxisValue - value else value - st.baseAxisValue;
      s.expanded == (if ShouldBounceBack(c, st.layout, travel) then st.expanded else !st.expanded)
    ensures s.transAnimator == Some(Animation(Target(c, st.layout, s.expanded), true))
    ensures s.translation == st.translation && s.layout == st.layout
  {
    var deltaDistance := if value - st.baseAxisValue < 0 then -(value - st.baseAxisValue) else value - st.baseAxisValue;
    var willBounceBack := ShouldBounceBack(c, st.layout, deltaDistance);
    if st.expanded then
      if willBounceBack then OpenSet(c, st, true) else ClosedSet(c, st, true)
    else
      if willBounceBack then ClosedSet(c, st, true) else OpenSet(c, st, true)
  }

  /** onTouch: dispatch on the action; the event is never consumed, so the result is always false. */
  function Touched(c: Config, st: State, ev: Touch): (r: (bool, State))
    ensures !r.0
    ensures Inv(st) ==> Inv(r.1)
    ensures ev.action == Down ==> r.1 == ScrollStartedAt(st, AxisValue(c, ev))
    ensures ev.action == Move ==> r.1 == ScrolledTo(st, AxisValue(c, ev))
    ensures ev.action == Up || ev.action == Cancel ==> r.1 == ScrollEndedAt(c, st, AxisValue(c, ev))
    ensures ev.action == OtherAction ==> r.1 == st
  {
    match ev.action
    case Down => (false, ScrollStartedAt(st, AxisValue(c, ev)))
    case Move => (false, ScrolledTo(st, AxisValue(c, ev)))
    case Up => (false, ScrollEndedAt(c, st, AxisValue(c, ev)))
    case Cancel => (false, ScrollEndedAt(c, st, AxisValue(c, ev)))
    case OtherAction => (false, st)
  }

  /** isDrawerExpanded: the drawer counts as open exactly when it is not translated. */
  predicate AtRest(st: State) {
    st.translation == 0
  }

  /** onAnimationEnd: the expanded flag is re-read from the translation. */
  function AnimationEnded(st: State): (s: State)
    ensures s.expanded <==> st.translation == 0
    ensures s == st.(expanded := s.expanded)
  {
    if AtRest(st) then st.(expanded := true) else st.(expanded := false)
  }

  /** The running animator writes its end value through setTransPosition and stops. */
  function AnimationFinished(st: State): (s: State)
    ensures Inv(st) ==> Inv(s)
    ensures Inv(st) && st.transAnimator.Some? && st.transAnimator.value.running ==>
      s.translation == st.transAnimator.value.target && s.transAnimator == Some(st.transAnimator.value.(running := false))
    ensures st.transAnimator.None? || !st.transAnimator.value.running ==> s == st
    ensures s.expanded == st.expanded && s.layout == st.layout
  {
    match st.transAnimator
    case Some(a) =>
      if a.running then
        var stopped := a.(running := false);
        TruncOfInt(a.target);
        var s1 := TransPositionSet(st, a.target as real);
        var h := if |st.history| > 0 then st.history[..|st.history| - 1] + [stopped] else st.history;
        s1.(transAnimator := Some(stopped), history := h)
      else st
    case None => st
  }

  /** onLayout: record the new frame and the handle's size, then close the drawer at once. */
  function LaidOut(c: Config, st: State, l: int, t: int, r: int, b: int, handleWidth: int, handleHeight: int)
    : (s: State)
    ensures Inv(st) ==> Inv(s)
    ensures !s.expanded && s.translation == ClosedTarget(c, s.layout)
    ensures s.layout == Layout(l, t, r - l, b - t, handleWidth, handleHeight)
    ensures s.transAnimator == st.transAnimator && s.history == st.history
  {
    ClosedSet(c, st.(layout := Layout(l, t, r - l, b - t, handleWidth, handleHeight)), false)
  }

  /** A click on the handle toggles the drawer, but only when single taps are allowed. */
  function Clicked(c: Config, st: State): (s: State)
    ensures Inv(st) ==> Inv(s)
    ensures c.allowSingleTap ==> s == Triggered(c, st, c.animateOnClick)
    ensures !c.allowSingleTap ==> s == st
  {
    if c.allowSingleTap then Triggered(c, st, c.animateOnClick) else st
  }

  function Initial(): (st: State)
    ensures Inv(st) && !st.expanded && st.transAnimator == None
  {
    State(Layout(0, 0, 0, 0, 0, 0), false, 0, 0, 0, None, [])
  }

  // ---- properties ----

  /** Exactly one of isHorizontal and isVertical holds for the four constants, and neither for any other value. */
  lemma AxisClassification(o: int)
    ensures IsAxisOrientation(o) ==> (IsHorizontal(o) <==> !IsVertical(o))
    ensures !IsAxisOrientation(o) ==> !IsHorizontal(o) && !IsVertical(o)
  {
  }

  /** The animated and the immediate paths of open and close head for the same translation. */
  lemma AnimatedAndImmediateAgree(c: Config, st: State, expanded: bool)
    ensures var animated := if expanded then OpenSet(c, st, true) else ClosedSet(c, st, true);
            var immediate := if expanded then OpenSet(c, st, false) else ClosedSet(c, st, false);
            && animated.expanded == immediate.expanded == expanded
            && animated.transAnimator == Some(Animation(immediate.translation, true))
  {
  }

  /** Two toggles in a row leave the expanded flag as it was. */
  lemma ToggleTwice(c: Config, st: State, animate: bool)
    ensures Triggered(c, Triggered(c, st, animate), animate).expanded == st.expanded
  {
    var s1 := Triggered(c, st, animate);
    assert s1.expanded == !st.expanded;
  }

  /** After a press at `v0`, a move to `v` displaces the drawer by exactly the finger's travel. */
  lemma DragFollowsFinger(st: State, v0: int, v: int)
    ensures ScrolledTo(ScrollStartedAt(st, v0), v).translation == st.translation + (v - v0)
  {
    var s1 := ScrollStartedAt(st, v0);
    assert s1.baseAxisValue == v0 && s1.baseTransPosition == st.translation;
  }

  /** Moves do not accumulate: each one is measured from the press, so only the latest counts. */
  lemma DragIsAbsolute(st: State, v1: int, v2: int)
    ensures ScrolledTo(ScrolledTo(st, v1), v2) == ScrolledTo(st, v2)
  {
    var s1 := ScrolledTo(st, v1);
    assert s1.baseAxisValue == st.baseAxisValue && s1.baseTransPosition == st.baseTransPosition;
  }

  /**
   * A drag that starts and ends at the same place always bounces back when the
   * extent is at least four pixels: the drawer heads back to its own state.
   */
  lemma StillReleaseBouncesBack(c: Config, st: State, v: int)
    requires Extent(c, st.layout) >= 4
    ensures ScrollEndedAt(c, ScrollStartedAt(st, v), v).expanded == st.expanded
  {
    var s1 := ScrollStartedAt(st, v);
    assert s1.expanded == st.expanded && s1.layout == st.layout && s1.baseAxisValue == v;
    assert ShouldBounceBack(c, s1.layout, 0);
  }

  /** A release that travelled a quarter of the extent or more, in either direction, switches state. */
  lemma LongReleaseSwitches(c: Config, st: State, v0: int, v: int)
    requires Quarter(Extent(c, st.layout)) <= v - v0 || Quarter(Extent(c, st.layout)) <= v0 - v
    ensures ScrollEndedAt(c, ScrollStartedAt(st, v0), v).expanded == !st.expanded
  {
    var s1 := ScrollStartedAt(st, v0);
    assert s1.expanded == st.expanded && s1.layout == st.layout && s1.baseAxisValue == v0;
  }

  /**
   * Opening by animation and letting the animator finish leaves the drawer
   * open once onAnimationEnd re-reads the translation; closing leaves it
   * closed unless the closed translation is zero, in which case it too is
   * reported open.
   */
  lemma SettlesWhereRequested(c: Config, st: State, expanded: bool)
    requires Inv(st)
    ensures
      var started := if expanded then OpenSet(c, st, true) else ClosedSet(c, st, true);
      AnimationEnded(AnimationFinished(started)).expanded == (expanded || ClosedTarget(c, st.layout) == 0)
  {
    var started := if expanded then OpenSet(c, st, true) else ClosedSet(c, st, true);
    assert Inv(started);
    var finished := AnimationFinished(started);
    assert finished.translation == Target(c, st.layout, expanded);
  }

  /** A drawer whose handle fills it along the axis is reported open after an animated close. */
  lemma FullHandleReopens(c: Config, st: State)
    requires Inv(st) && Extent(c, st.layout) == HandleExtent(c, st.layout)
    ensures AnimationEnded(AnimationFinished(ClosedSet(c, st, true))).expanded
  {
    SettlesWhereRequested(c, st, false);
  }

  /** The drawer: its frame, its state, and the animator it drives. */
  class SlidingDrawer {
    const cfg: Config

    var layout: Layout
    var expanded: bool
    var translation: int
    var baseAxisValue: int
    var baseTransPosition: int
    var transAnimator: Option<Animation>
    ghost var history: seq<Animation>

    ghost function S(): State
      reads this
    {
      State(layout, expanded, translation, baseAxisValue, baseTransPosition, transAnimator, history)
    }

    ghost predicate Valid()
      reads this
    {
      Inv(S())
    }

    constructor(config: Config, handleId: int, contentId: int)
      requires CheckIds(handleId, contentId) == None
      ensures Valid()
      ensures cfg == config && S() == Initial()
    {
      cfg := config;
      layout := Layout(0, 0, 0, 0, 0, 0);
      expanded := false;
      translation, baseAxisValue, baseTransPosition := 0, 0, 0;
      transAnimator := None;
      history := [];
    }

    method SetTransPosition(position: real)
      modifies this
      ensures S() == TransPositionSet(old(S()), position)
    {
      translation := Trunc(position);
    }

    method StartTransAnimator(target: int)
      modifies this
      ensures S() == AnimatorStarted(old(S()), target)
    {
      if transAnimator.Some? {
        var cancelled := transAnimator.value.(running := false);
        transAnimator := Some(cancelled);
        if |history| > 0 {
          history := history[..|history| - 1] + [cancelled];
        }
      }
      var a := Animation(target, true);
      transAnimator := Some(a);
      history := history + [a];
    }

    method SetDrawerOpen(animate: bool)
      modifies this
      ensures S() == OpenSet(cfg, old(S()), animate)
    {
      expanded := true;
      if animate {
        StartTransAnimator(0);
      } else {
        translation := 0;
      }
    }

    method SetDrawerClosed(animate: bool)
      modifies this
      ensures S() == ClosedSet(cfg, old(S()), animate)
    {
      expanded := false;
      var target;
      if IsHorizontal(cfg.orientation) {
        if cfg.orientation == RIGHT_TO_LEFT {
          target := layout.width - layout.handleWidth;
        } else {
          target := layout.handleWidth - layout.width;
        }
      } else {
        if cfg.orientation == BOTTOM_UP {
          target := layout.height - layout.handleHeight;
        } else {
          target := layout.handleHeight - layout.height;
        }
      }
      if animate {
        StartTransAnimator(target);
      } else {
        translation := target;
      }
    }

    method TriggerDrawer(animate: bool)
      modifies this
      ensures S() == Triggered(cfg, old(S()), animate)
    {
      if expanded {
        SetDrawerClosed(animate);
      } else {
        SetDrawerOpen(animate);
      }
    }

    method OnDrawerScrollStarted(value: int)
      modifies this
      ensures S() == ScrollStartedAt(old(S()), value)
    {
      baseAxisValue := value;
      baseTransPosition := translation;
    }

    method OnDrawerScroll(value: int)
      modifies this
      ensures S() == ScrolledTo(old(S()), value)
    {
      SetTransPosition((value - baseAxisValue + baseTransPosition) as real);
    }

    method OnDrawerScrollEnded(value: int)
      modifies this
      ensures S() == ScrollEndedAt(cfg, old(S()), value)
    {
      var deltaDistance := if value - baseAxisValue < 0 then -(value - baseAxisValue) else value - baseAxisValue;
      var willBounceBack := deltaDistance < Quarter(if IsHorizontal(cfg.orientation) then layout.width else layout.height);
      if expanded {
        if willBounceBack {
          SetDrawerOpen(true);
        } else {
          SetDrawerClosed(true);
        }
      } else {
        if willBounceBack {
          SetDrawerClosed(true);
        } else {
          SetDrawerOpen(true);
        }
      }
    }

    method OnTouch(ev: Touch) returns (consumed: bool)
      modifies this
      ensures (consumed, S()) == Touched(cfg, old(S()), ev)
    {
      var value := Trunc(if IsHorizontal(cfg.orientation) then ev.x else ev.y);
      match ev.action {
        case Down => OnDrawerScrollStarted(value);
        case Move => OnDrawerScroll(value);
        case Up => OnDrawerScrollEnded(value);
        case Cancel => OnDrawerScrollEnded(value);
        case OtherAction =>
      }
      return false;
    }

    method OnAnimationEnd()
      modifies this
      ensures S() == AnimationEnded(old(S()))
    {
      if translation == 0 {
        expanded := true;
      } else {
        expanded := false;
      }
    }

    method FinishAnimation()
      modifies this
      ensures S() == AnimationFinished(old(S()))
    {
      if transAnimator.Some? && transAnimator.value.running {
        var stopped := transAnimator.value.(running := false);
        SetTransPosition(transAnimator.value.target as real);
        transAnimator := Some(stopped);
        if |history| > 0 {
          history := history[..|history| - 1] + [stopped];
        }
      }
    }

    method OnLayout(l: int, t: int, r: int, b: int, handleWidth: int, handleHeight: int)
      modifies this
      ensures S() == LaidOut(cfg, old(S()), l, t, r, b, handleWidth, handleHeight)
    {
      layout := Layout(l, t, r - l, b - t, handleWidth, handleHeight);
      SetDrawerClosed(false);
    }

    method OnHandleClick()
      modifies this
      ensures S() == Clicked(cfg, old(S()))
    {
      if cfg.allowSingleTap {
        TriggerDrawer(cfg.animateOnClick);
      }
    }
  }
}

=== FILE: aosp_drawer.dfy ===
/**
 * The AOSP-derived drawer (v1): a handle dragged along one axis of its
 * container, released into a fling or a tap, and animated by ticks of a
 * message handler until it reaches the open or the closed bound.
 *
 * Each state change of the widget is a function on a `State` record; the
 * class `SlidingDrawer` keeps the same state in fields and proves each of its
 * methods against the corresponding function.  Listener callbacks are
 * recorded in the ghost log `events`, one entry per callback delivered.
 */
module AospDrawer {
  import opened DrawerCommon
  import opened VelocityEstimator
  import opened Kinematics
  import OrientationBits

  /** Attributes fixed at construction; the velocity limits are already scaled by the display density. */
  datatype Config = Config(
    orientation: Int32,
    collapsedOffset: int,
    expandedOffset: int,
    allowSingleTap: bool,
    animateOnClick: bool,
    tapThreshold: nat,
    maxTapVelocity: nat,
    maxMinorVelocity: nat,
    maxMajorVelocity: nat,
    maxAcceleration: nat)
  {
    predicate Vertical() {
      orientation == TOP_DOWN || orientation == BOTTOM_UP
    }
  }

  /** The orientations the constructor's bit-pattern test accepts (OrientationBits.FlagRunValues). */
  const ACCEPTED_ORIENTATIONS: set<int> := {1, 2, 3, 4, 6, 7, 8, 12, 14, 15}

  /** What the constructor accepts. */
  predicate ValidConfig(c: Config) {
    c.orientation in ACCEPTED_ORIENTATIONS && 0 <= c.collapsedOffset && 0 <= c.expandedOffset
  }

  /** The constructor's checks, in the order it makes them; `None` when it does not throw. */
  function Validate(orientation: Int32, collapsedOffset: int, expandedOffset: int, handleId: int, contentId: int)
    : (r: Option<ConfigError>)
    ensures r == None <==>
      OrientationBits.IsFlagRun(orientation) && 0 <= collapsedOffset && 0 <= expandedOffset
      && handleId != 0 && contentId != 0 && handleId != contentId
    ensures r == Some(InvalidOrientation) <==> !OrientationBits.IsFlagRun(orientation)
    ensures r == Some(NegativeCollapsedOffset) <==> OrientationBits.IsFlagRun(orientation) && collapsedOffset < 0
    ensures r == Some(NegativeExpandedOffset) <==>
      OrientationBits.IsFlagRun(orientation) && 0 <= collapsedOffset && expandedOffset < 0
  {
    if !OrientationBits.IsFlagRun(orientation) then Some(InvalidOrientation)
    else if collapsedOffset < 0 then Some(NegativeCollapsedOffset)
    else if expandedOffset < 0 then Some(NegativeExpandedOffset)
    else CheckIds(handleId, contentId)
  }

  /** Everything the widget updates. */
  datatype State = State(
    layout: Layout,
    // the handle's leading edge along the axis: its top when vertical, its left otherwise
    handlePos: int,
    expanded: bool, tracking: bool, animating: bool, locked: bool,
    // the last non-zero step of the handle, and the grab point inside the handle
    touchDelta: int, touchOffset: int,
    anim: Motion, animLastTime: int, currentAnimTime: int,
    // an animation message is queued for currentAnimTime
    tickPending: bool,
    listeners: Listeners,
    events: seq<Event>)

  /** A tick is only queued while the handle animates, and never during a drag. */
  predicate Inv(st: State) {
    st.tickPending ==> st.animating && !st.tracking
  }

  // ---- geometry along the axis ----

  function Extent(c: Config, st: State): int {
    if c.Vertical() then st.layout.height else st.layout.width
  }

  function HandleExtent(c: Config, st: State): int {
    if c.Vertical() then st.layout.handleHeight else st.layout.handleWidth
  }

  /** The bound toward the top or left (moveHandle's upper or left half offset, in absolute terms). */
  function LowBound(c: Config): int {
    if Inverted(c.orientation) then -c.collapsedOffset else c.expandedOffset
  }

  /** The bound toward the bottom or right, for a container of `extent` and a handle of `handleExtent`. */
  function HighBound(c: Config, extent: int, handleExtent: int): int {
    (if Inverted(c.orientation) then -c.expandedOffset else c.collapsedOffset) + extent - handleExtent
  }

  /** Where the handle rests when the drawer is open: the far bound for top-down and left-to-right. */
  function OpenBound(c: Config, extent: int, handleExtent: int): int {
    if Inverted(c.orientation) then HighBound(c, extent, handleExtent) else LowBound(c)
  }

  function ClosedBound(c: Config, extent: int, handleExtent: int): int {
    if Inverted(c.orientation) then LowBound(c) else HighBound(c, extent, handleExtent)
  }

  function HighEdge(c: Config, st: State): int {
    HighBound(c, Extent(c, st), HandleExtent(c, st))
  }

  function OpenEdge(c: Config, st: State): int {
    OpenBound(c, Extent(c, st), HandleExtent(c, st))
  }

  function ClosedEdge(c: Config, st: State): int {
    ClosedBound(c, Extent(c, st), HandleExtent(c, st))
  }

  /** The handle's leading edge that onLayout computes. */
  function LayoutEdge(c: Config, expanded: bool, width: int, height: int, childWidth: int, childHeight: int)
    : (edge: int)
    ensures IsAxisOrientation(c.orientation) ==>
      var extent := if c.Vertical() then height else width;
      var handleExtent := if c.Vertical() then childHeight else childWidth;
      edge == if expanded then OpenBound(c, extent, handleExtent) else ClosedBound(c, extent, handleExtent)
    ensures !IsAxisOrientation(c.orientation) ==> edge == 0
  {
    var o := c.orientation;
    if o == TOP_DOWN then (if expanded then height - childHeight - c.expandedOffset else -c.collapsedOffset)
    else if o == BOTTOM_UP then (if expanded then c.expandedOffset else height - childHeight + c.collapsedOffset)
    else if o == LEFT_TO_RIGHT then (if expanded then width - childWidth - c.expandedOffset else -c.collapsedOffset)
    else if o == RIGHT_TO_LEFT then (if expanded then c.expandedOffset else width - childWidth + c.collapsedOffset)
    else 0
  }

  // ---- transitions ----

  /** onLayout, after the container has been given the frame (l, t, r, b). */
  function LaidOut(c: Config, st: State, l: int, t: int, r: int, b: int, childWidth: int, childHeight: int)
    : (s: State)
    ensures Inv(st) ==> Inv(s)
    ensures s.layout.width == r - l && s.layout.height == b - t
    ensures st.tracking ==> s.handlePos == st.handlePos
    ensures !st.tracking && IsAxisOrientation(c.orientation) ==>
      s.handlePos == (if st.expanded then OpenEdge(c, s) else ClosedEdge(c, s))
  {
    var frame := st.layout.(left := l, top := t, width := r - l, height := b - t);
    if st.tracking then st.(layout := frame)
    else
      st.(layout := frame.(handleWidth := childWidth, handleHeight := childHeight),
          handlePos := LayoutEdge(c, st.expanded, r - l, b - t, childWidth, childHeight))
  }

  /** moveHandle: the sentinels snap to a bound, any other position is a drag step. */
  function Moved(c: Config, st: State, position: int): (s: State)
    ensures s == st.(handlePos := s.handlePos, touchDelta := s.touchDelta)
    ensures position == EXPANDED_FULL_OPEN ==> s.handlePos == OpenEdge(c, st) && s.touchDelta == st.touchDelta
    ensures position == COLLAPSED_FULL_CLOSED ==> s.handlePos == ClosedEdge(c, st) && s.touchDelta == st.touchDelta
    ensures position != EXPANDED_FULL_OPEN && position != COLLAPSED_FULL_CLOSED ==>
      && s.handlePos == DragTarget(position, LowBound(c), HighEdge(c, st))
      && s.touchDelta == (if position != st.handlePos then position - st.handlePos else st.touchDelta)
  {
    var inverted := Inverted(c.orientation);
    var lowOffset := LowBound(c) - st.handlePos;
    var highOffset := HighEdge(c, st) - st.handlePos;
    if position == EXPANDED_FULL_OPEN then
      st.(handlePos := st.handlePos + if inverted then highOffset else lowOffset)
    else if position == COLLAPSED_FULL_CLOSED then
      st.(handlePos := st.handlePos + if inverted then lowOffset else highOffset)
    else
      var delta := position - st.handlePos;
      var step := if position < 0 then lowOffset else if delta > highOffset then highOffset else delta;
      st.(handlePos := st.handlePos + step, touchDelta := if delta != 0 then delta else st.touchDelta)
  }

  /** moveHandle's result: this drag step points against the previous non-zero step. */
  predicate WillBackward(st: State, position: int) {
    var step := position - st.handlePos;
    && position != EXPANDED_FULL_OPEN && position != COLLAPSED_FULL_CLOSED
    && ((st.touchDelta < 0 && 0 < step) || (0 < st.touchDelta && step < 0))
  }

  /** openDrawer: snap open; the open listener hears about it only when the drawer was closed. */
  function Opened(c: Config, st: State): (s: State)
    ensures s == st.(handlePos := OpenEdge(c, st), expanded := true,
                     events := st.events + if st.expanded then [] else Heard(st.listeners.open, DrawerOpened))
  {
    var s1 := Moved(c, st, EXPANDED_FULL_OPEN);
    if s1.expanded then s1
    else s1.(expanded := true, events := s1.events + Heard(s1.listeners.open, DrawerOpened))
  }

  /** closeDrawer: snap closed; the close listener hears about it only when the drawer was open. */
  function Closed(c: Config, st: State): (s: State)
    ensures s == st.(handlePos := ClosedEdge(c, st), expanded := false,
                     events := st.events + if st.expanded then Heard(st.listeners.close, DrawerClosed) else [])
  {
    var s1 := Moved(c, st, COLLAPSED_FULL_CLOSED);
    if !s1.expanded then s1
    else s1.(expanded := false, events := s1.events + Heard(s1.listeners.close, DrawerClosed))
  }

  /** toggle. */
  function Toggled(c: Config, st: State): (s: State)
    ensures s.expanded == !st.expanded
    ensures s.handlePos == if st.expanded then ClosedEdge(c, st) else OpenEdge(c, st)
    ensures Inv(st) ==> Inv(s)
  {
    if !st.expanded then Opened(c, st) else Closed(c, st)
  }

  /** prepareContent: the pre-scroll notification, skipped while an animation runs. */
  function ContentPrepared(st: State): (s: State)
    ensures s == st.(events := s.events)
    ensures s.events == st.events + if st.animating then [] else Heard(st.listeners.scroll, PreScrollStarted)
  {
    if st.animating then st
    else st.(events := st.events + Heard(st.listeners.scroll, PreScrollStarted))
  }

  /** stopTracking. */
  function TrackingStopped(st: State): (s: State)
    ensures s == st.(tracking := false, events := st.events + Heard(st.listeners.scroll, ScrollEnded))
  {
    st.(tracking := false, events := st.events + Heard(st.listeners.scroll, ScrollEnded))
  }

  /**
   * The motion prepareTracking sets up for a closed drawer: full acceleration
   * and the major velocity limit, and the position of the collapsed handle,
   * except that for top-down the offset lands in the acceleration instead.
   */
  function CollapsedMotion(c: Config, m: Motion, g: Layout): (r: Motion)
    ensures r.velocity == c.maxMajorVelocity as real
    ensures c.orientation == TOP_DOWN ==> r.position == m.position && r.acceleration == -c.collapsedOffset as real
    ensures c.orientation != TOP_DOWN ==> r.acceleration == c.maxAcceleration as real
    ensures c.orientation == BOTTOM_UP ==> r.position == (g.height - g.handleHeight + c.collapsedOffset) as real
    ensures c.orientation == RIGHT_TO_LEFT ==> r.position == (g.width - g.handleWidth + c.collapsedOffset) as real
    ensures c.orientation == LEFT_TO_RIGHT ==> r.position == -c.collapsedOffset as real
  {
    var m0 := m.(acceleration := c.maxAcceleration as real, velocity := c.maxMajorVelocity as real);
    var o := c.orientation;
    if o == TOP_DOWN then m0.(acceleration := -c.collapsedOffset as real)
    else if o == BOTTOM_UP then m0.(position := (g.height - g.handleHeight + c.collapsedOffset) as real)
    else if o == LEFT_TO_RIGHT then m0.(position := -c.collapsedOffset as real)
    else if o == RIGHT_TO_LEFT then m0.(position := (g.width - g.handleWidth + c.collapsedOffset) as real)
    else m0
  }

  /** prepareTracking: start a drag from `position`, snapping a closed drawer to its collapsed place first. */
  function TrackingPrepared(c: Config, st: State, position: int, now: int): (s: State)
    ensures s.tracking && s.touchDelta == 0
    ensures (st.tickPending ==> st.animating) ==> !s.tickPending
    ensures s.animating == !st.expanded
    ensures s.expanded == st.expanded && s.events == st.events && s.locked == st.locked
    ensures s.layout == st.layout && s.listeners == st.listeners && s.touchOffset == st.touchOffset
    ensures st.expanded ==> s.anim == st.anim && s.handlePos == Moved(c, st, position).handlePos
    ensures !st.expanded ==>
      && s.anim == CollapsedMotion(c, st.anim, st.layout)
      && s.handlePos == Moved(c, st.(anim := s.anim), Trunc(s.anim.position)).handlePos
      && s.animLastTime == now && s.currentAnimTime == now + FRAME_DURATION
  {
    if !st.expanded then
      var m1 := CollapsedMotion(c, st.anim, st.layout);
      var s1 := Moved(c, st.(anim := m1), Trunc(m1.position));
      s1.(tickPending := false, animLastTime := now, currentAnimTime := now + FRAME_DURATION,
          animating := true, tracking := true, touchDelta := 0)
    else
      var s1 := if st.animating then st.(animating := false, tickPending := false) else st;
      assert Extent(c, s1) == Extent(c, st) && HandleExtent(c, s1) == HandleExtent(c, st);
      assert HighEdge(c, s1) == HighEdge(c, st) && OpenEdge(c, s1) == OpenEdge(c, st);
      assert ClosedEdge(c, s1) == ClosedEdge(c, st);
      Moved(c, s1, position).(tracking := true, touchDelta := 0)
  }

  /** performFling's critical point, in the parent's coordinates as the code compares it. */
  function RollbackPoint(c: Config, expanded: bool, g: Layout): (cp: int)
    ensures IsAxisOrientation(c.orientation) ==>
      var extent := if c.Vertical() then g.height else g.width;
      var start := if c.Vertical() then g.top else g.left;
      var quarter := Quarter(extent);
      // a quarter of the container past the expanded offset from the open side when expanded,
      // a quarter of the container from the closed side when collapsed
      if expanded then
        (if Inverted(c.orientation) then start + extent - cp else cp - start) == c.expandedOffset + quarter
      else
        (if Inverted(c.orientation) then cp - start else start + extent - cp) == quarter
    ensures !IsAxisOrientation(c.orientation) ==> cp == 0
  {
    var quarter := Quarter(if c.Vertical() then g.height else g.width);
    var top, bottom := g.top, g.top + g.height;
    var left, right := g.left, g.left + g.width;
    var o := c.orientation;
    if expanded then
      if o == TOP_DOWN then bottom - c.expandedOffset - quarter
      else if o == BOTTOM_UP then top + c.expandedOffset + quarter
      else if o == LEFT_TO_RIGHT then right - c.expandedOffset - quarter
      else if o == RIGHT_TO_LEFT then left + c.expandedOffset + quarter
      else 0
    else
      if o == TOP_DOWN then top + quarter
      else if o == BOTTOM_UP then bottom - quarter
      else if o == LEFT_TO_RIGHT then left + quarter
      else if o == RIGHT_TO_LEFT then right - quarter
      else 0
  }

  /** The fling heads to the opposite state when it is automatic, fast enough, or past the critical point. */
  predicate FlingCommits(c: Config, expanded: bool, g: Layout, position: int, velocity: real, autoAnimated: bool) {
    || autoAnimated
    || WillOnFling(c.orientation, expanded, velocity, c.maxMajorVelocity)
    || !WillRollback(c.orientation, expanded, position, RollbackPoint(c, expanded, g))
  }

  /**
   * The animation performFling starts from `position`: full acceleration toward
   * the state the fling commits to, and the release velocity unless it points
   * the other way.
   */
  function FlingMotion(c: Config, expanded: bool, g: Layout, position: int, velocity: real, autoAnimated: bool): (m: Motion)
    ensures m.position == position as real
    ensures m.acceleration ==
      Signed(Heading(c.orientation, expanded, FlingCommits(c, expanded, g, position, velocity, autoAnimated)), c.maxAcceleration)
    ensures m.velocity == velocity || m.velocity == 0.0
    ensures Agrees(m) && Abs(m.acceleration) == c.maxAcceleration as real
  {
    var plan := FlingTable(c.orientation, expanded, FlingCommits(c, expanded, g, position, velocity, autoAnimated),
                           velocity, c.maxAcceleration);
    Motion(position as real, plan.1, plan.0)
  }

  /**
   * performFling: the animation starts from `position` with the motion the
   * fling table picks, its first tick is queued one frame from `now`, and the
   * drag ends with the scroll listener told of it.  Nothing else changes.
   */
  function Flung(c: Config, st: State, position: int, velocity: real, autoAnimated: bool, now: int): (s: State)
    ensures s.animating && !s.tracking && s.tickPending && Inv(s)
    ensures s.anim == FlingMotion(c, st.expanded, st.layout, position, velocity, autoAnimated)
    ensures s.animLastTime == now && s.currentAnimTime == now + FRAME_DURATION
    ensures s.events == st.events + Heard(st.listeners.scroll, ScrollEnded)
    ensures s == st.(anim := s.anim, animLastTime := now, currentAnimTime := s.currentAnimTime,
                     animating := true, tickPending := true, tracking := false, events := s.events)
  {
    TrackingStopped(st.(anim := FlingMotion(c, st.expanded, st.layout, position, velocity, autoAnimated),
                        animLastTime := now, currentAnimTime := now + FRAME_DURATION,
                        animating := true, tickPending := true))
  }

  /**
   * The private animateOpen(position): a drag start followed by an automatic
   * fling.  The fling is given full speed toward the open side, but an
   * automatic fling heads for the state opposite the current one, so on an
   * open drawer it closes from rest (AnimateHeadsOpposite).
   */
  function AnimatedOpenAt(c: Config, st: State, position: int, now: int): (s: State)
    ensures Inv(st) ==> Inv(s)
    ensures IsAxisOrientation(c.orientation) ==> s.animLastTime == now && s.currentAnimTime == now + FRAME_DURATION
    ensures IsAxisOrientation(c.orientation) ==>
      && s.anim.position == position as real
      && s.anim.acceleration == Signed(ToggleSign(c.orientation, st.expanded), c.maxAcceleration)
      && s.anim.velocity == if st.expanded then 0.0 else Signed(OpenSign(c.orientation), c.maxAcceleration)
    ensures s.expanded == st.expanded && s.locked == st.locked && s.listeners == st.listeners
    ensures IsAxisOrientation(c.orientation) ==>
      && s.animating && !s.tracking && s.tickPending
      && s.events == st.events + Heard(st.listeners.scroll, ScrollEnded)
    ensures !IsAxisOrientation(c.orientation) ==> s.events == st.events
  {
    var s1 := TrackingPrepared(c, st, position, now);
    var a := c.maxAcceleration as real;
    var o := c.orientation;
    if o == TOP_DOWN then Flung(c, s1, position, a, true, now)
    else if o == BOTTOM_UP then Flung(c, s1, position, -a, true, now)
    else if o == LEFT_TO_RIGHT then Flung(c, s1, position, a, true, now)
    else if o == RIGHT_TO_LEFT then Flung(c, s1, position, -a, true, now)
    else s1
  }

  /** The private animateClose(position). */
  function AnimatedCloseAt(c: Config, st: State, position: int, now: int): (s: State)
    ensures Inv(st) ==> Inv(s)
    ensures IsAxisOrientation(c.orientation) ==> s.animLastTime == now && s.currentAnimTime == now + FRAME_DURATION
    ensures IsAxisOrientation(c.orientation) ==>
      && s.anim.position == position as real
      && s.anim.acceleration == Signed(ToggleSign(c.orientation, st.expanded), c.maxAcceleration)
      && s.anim.velocity == if !st.expanded then 0.0 else Signed(-OpenSign(c.orientation), c.maxAcceleration)
    ensures s.expanded == st.expanded && s.locked == st.locked && s.listeners == st.listeners
    ensures IsAxisOrientation(c.orientation) ==>
      && s.animating && !s.tracking && s.tickPending
      && s.events == st.events + Heard(st.listeners.scroll, ScrollEnded)
    ensures !IsAxisOrientation(c.orientation) ==> s.events == st.events
  {
    var s1 := TrackingPrepared(c, st, position, now);
    var a := c.maxAcceleration as real;
    var o := c.orientation;
    if o == TOP_DOWN then Flung(c, s1, position, -a, true, now)
    else if o == BOTTOM_UP then Flung(c, s1, position, a, true, now)
    else if o == LEFT_TO_RIGHT then Flung(c, s1, position, -a, true, now)
    else if o == RIGHT_TO_LEFT then Flung(c, s1, position, a, true, now)
    else s1
  }

  /** The public animateOpen: pre-scroll, scroll start, the animation, and a second scroll end. */
  function AnimateOpened(c: Config, st: State, now: int): (s: State)
    ensures Inv(st) ==> Inv(s)
    ensures s.expanded == st.expanded
    ensures IsAxisOrientation(c.orientation) ==>
      && s.animating && s.anim.position == st.handlePos as real
      && s.anim.acceleration == Signed(ToggleSign(c.orientation, st.expanded), c.maxAcceleration)
      && s.anim.velocity == if st.expanded then 0.0 else Signed(OpenSign(c.orientation), c.maxAcceleration)
  {
    var s1 := ContentPrepared(st);
    var s2 := s1.(events := s1.events + Heard(s1.listeners.scroll, ScrollStarted));
    var s3 := AnimatedOpenAt(c, s2, s2.handlePos, now);
    s3.(events := s3.events + Heard(s3.listeners.scroll, ScrollEnded))
  }

  /** The public animateClose. */
  function AnimateClosed(c: Config, st: State, now: int): (s: State)
    ensures Inv(st) ==> Inv(s)
    ensures s.expanded == st.expanded
    ensures IsAxisOrientation(c.orientation) ==>
      && s.animating && s.anim.position == st.handlePos as real
      && s.anim.acceleration == Signed(ToggleSign(c.orientation, st.expanded), c.maxAcceleration)
      && s.anim.velocity == if !st.expanded then 0.0 else Signed(-OpenSign(c.orientation), c.maxAcceleration)
  {
    var s1 := ContentPrepared(st);
    var s2 := s1.(events := s1.events + Heard(s1.listeners.scroll, ScrollStarted));
    var s3 := AnimatedCloseAt(c, s2, s2.handlePos, now);
    s3.(events := s3.events + Heard(s3.listeners.scroll, ScrollEnded))
  }

  /** animateToggle. */
  function AnimateToggled(c: Config, st: State, now: int): (s: State)
    ensures Inv(st) ==> Inv(s)
    ensures s.expanded == st.expanded
    ensures IsAxisOrientation(c.orientation) ==>
      && s.animating && s.anim.position == st.handlePos as real
      && s.anim.acceleration == Signed(ToggleSign(c.orientation, st.expanded), c.maxAcceleration)
      && s.anim.velocity == s.anim.acceleration
  {
    if !st.expanded then AnimateOpened(c, st, now) else AnimateClosed(c, st, now)
  }

  /**
   * isSingleTap: the handle is no more than the tap threshold away from where
   * the current state rests it, measured toward the other state; an expanded
   * top-down drawer is the exception (see TopDownExpandedTaps).
   */
  predicate IsSingleTap(c: Config, expanded: bool, handlePos: int, g: Layout): (r: bool)
    ensures r ==> IsAxisOrientation(c.orientation)
    ensures IsAxisOrientation(c.orientation) && !(c.orientation == TOP_DOWN && expanded) ==>
      var extent := if c.Vertical() then g.height else g.width;
      var handleExtent := if c.Vertical() then g.handleHeight else g.handleWidth;
      var rest := if expanded then OpenBound(c, extent, handleExtent) else ClosedBound(c, extent, handleExtent);
      (r <==> (if expanded != Inverted(c.orientation) then handlePos - rest else rest - handlePos) <= c.tapThreshold)
  {
    var width, height := g.width, g.height;
    var handleExtent := if c.Vertical() then g.handleHeight else g.handleWidth;
    var tap := c.tapThreshold;
    var co, eo := c.collapsedOffset, c.expandedOffset;
    var o := c.orientation;
    var near, far := handlePos, handlePos + handleExtent;
    if o == TOP_DOWN then
      // getTop() - getBottom() where the other cases use the container's size
      (expanded && far >= -height - eo - tap) || (!expanded && near + co <= tap)
    else if o == BOTTOM_UP then
      (expanded && near <= tap + eo) || (!expanded && far - co >= height - tap)
    else if o == LEFT_TO_RIGHT then
      (expanded && far >= width - eo - tap) || (!expanded && near + co <= tap)
    else if o == RIGHT_TO_LEFT then
      (expanded && near <= tap + eo) || (!expanded && far - co >= width - tap)
    else false
  }

  predicate SingleTapAt(c: Config, st: State) {
    IsSingleTap(c, st.expanded, st.handlePos, st.layout)
  }

  /**
   * Release of a drag (ACTION_UP or ACTION_CANCEL) with release velocity
   * `velocity`: a tap animates toward the other state, anything else flings;
   * either way the drag ends, the scroll listener hears of it once, and an
   * animation runs with its first tick queued.
   */
  function Released(c: Config, st: State, velocity: real, now: int): (s: State)
    ensures s.animating && !s.tracking && s.tickPending && Inv(s)
    ensures s.anim.position == st.handlePos as real
    ensures s.animLastTime == now && s.currentAnimTime == now + FRAME_DURATION
    ensures !(Abs(velocity) < c.maxTapVelocity as real && SingleTapAt(c, st) && c.allowSingleTap) ==>
      s.anim == FlingMotion(c, st.expanded, st.layout, st.handlePos, velocity, false)
    ensures Abs(velocity) < c.maxTapVelocity as real && SingleTapAt(c, st) && c.allowSingleTap ==>
      && s.anim.acceleration == Signed(ToggleSign(c.orientation, st.expanded), c.maxAcceleration)
      && s.anim.velocity == s.anim.acceleration
    ensures s.events == st.events + Heard(st.listeners.scroll, ScrollEnded)
    ensures s.expanded == st.expanded && s.locked == st.locked && s.listeners == st.listeners
  {
    var position := st.handlePos;
    if Abs(velocity) < c.maxTapVelocity as real && SingleTapAt(c, st) && c.allowSingleTap then
      if st.expanded then AnimatedCloseAt(c, st, position, now) else AnimatedOpenAt(c, st, position, now)
    else Flung(c, st, position, velocity, false, now)
  }

  /** onInterceptTouchEvent: claims the gesture when it starts on the handle or while a drag is on. */
  function Intercepted(c: Config, st: State, ev: Touch, now: int): (r: (bool, State))
    ensures r.0 <==> !st.locked && (st.tracking || ev.hit)
    ensures !r.0 || ev.action != Down ==> r.1 == st
  {
    if st.locked then (false, st)
    else if !st.tracking && !ev.hit then (false, st)
    else if ev.action == Down then
      var s1 := DragBegun(c, st, ev);
      (true, TrackingPrepared(c, s1, s1.handlePos, now))
    else (true, st)
  }

  /**
   * A press the drawer intercepts, up to prepareTracking: tracking starts,
   * the scroll listener hears of it, and the grab point inside the handle is kept.
   */
  function DragBegun(c: Config, st: State, ev: Touch): (s: State)
    ensures s.tracking && s.touchDelta == 0 && s.handlePos == st.handlePos
    ensures s.touchOffset == Trunc(if c.Vertical() then ev.y else ev.x) - st.handlePos
    ensures s.events == st.events + (if st.animating then [] else Heard(st.listeners.scroll, PreScrollStarted))
                                  + Heard(st.listeners.scroll, ScrollStarted)
    ensures s == st.(tracking := true, touchDelta := 0, touchOffset := s.touchOffset, events := s.events)
  {
    var s1 := ContentPrepared(st.(tracking := true));
    var s2 := s1.(events := s1.events + Heard(s1.listeners.scroll, ScrollStarted), touchDelta := 0);
    s2.(touchOffset := Trunc(if c.Vertical() then ev.y else ev.x) - s2.handlePos)
  }

  /** onTouchEvent, given the release velocity and what the base view's handler answers. */
  function Touched(c: Config, st: State, ev: Touch, velocity: real, superHandled: bool, now: int)
    : (r: (bool, State))
    ensures st.locked ==> r == (true, st)
    ensures !st.locked && !st.tracking ==> r == (superHandled || st.animating, st)
    ensures !st.locked && st.tracking && ev.action == Move ==>
      var position := Trunc(if c.Vertical() then ev.y else ev.x) - st.touchOffset;
      && r.0 && r.1.handlePos == Moved(c, st, position).handlePos
      && r.1 == Moved(c, st, position).(events := st.events + Heard(st.listeners.scroll, Scroll(WillBackward(st, position))))
    ensures !st.locked && st.tracking && (ev.action == Up || ev.action == Cancel) ==>
      r == (true, Released(c, st, velocity, now))
    ensures !st.locked && st.tracking && (ev.action == Down || ev.action == OtherAction) ==> r == (true, st)
  {
    if st.locked then (true, st)
    else
      var s :=
        if !st.tracking then st
        else if ev.action == Move then
          var position := Trunc(if c.Vertical() then ev.y else ev.x) - st.touchOffset;
          var s1 := Moved(c, st, position);
          s1.(events := s1.events + Heard(s1.listeners.scroll, Scroll(WillBackward(st, position))))
        else if ev.action == Up || ev.action == Cancel then Released(c, st, velocity, now)
        else st;
      (s.tracking || s.animating || superHandled, s)
  }

  /** The handle's click listener, attached only when animateOnClick is set. */
  function Clicked(c: Config, st: State, now: int): (s: State)
    ensures !c.animateOnClick || st.locked ==> s == st
    ensures c.animateOnClick && !st.locked ==> s == AnimateToggled(c, st, now)
    ensures Inv(st) ==> Inv(s)
  {
    if !c.animateOnClick || st.locked then st
    else AnimateToggled(c, st, now)
  }

  /**
   * doAnimation's arrival tests, on the animation position.  Toward the low
   * end a test fires once the position is past the rest place; toward the
   * high end, once it is a handle's extent less one beyond it.
   */
  predicate WillOpen(c: Config, p: real, g: Layout): (r: bool)
    ensures !IsAxisOrientation(c.orientation) ==> !r
    ensures IsAxisOrientation(c.orientation) ==>
      var extent := if c.Vertical() then g.height else g.width;
      var handleExtent := if c.Vertical() then g.handleHeight else g.handleWidth;
      var rest := OpenBound(c, extent, handleExtent);
      (r <==> if Inverted(c.orientation) then p >= (rest + handleExtent - 1) as real else p < rest as real)
  {
    var width, height := g.width, g.height;
    var o := c.orientation;
    if o == TOP_DOWN then p >= (height - c.expandedOffset - 1) as real
    else if o == BOTTOM_UP then p < c.expandedOffset as real
    else if o == LEFT_TO_RIGHT then p >= (width - c.expandedOffset - 1) as real
    else if o == RIGHT_TO_LEFT then p < c.expandedOffset as real
    else false
  }

  predicate WillClose(c: Config, p: real, g: Layout): (r: bool)
    ensures !IsAxisOrientation(c.orientation) ==> !r
    ensures IsAxisOrientation(c.orientation) ==>
      var extent := if c.Vertical() then g.height else g.width;
      var handleExtent := if c.Vertical() then g.handleHeight else g.handleWidth;
      var rest := ClosedBound(c, extent, handleExtent);
      (r <==> if Inverted(c.orientation) then p < rest as real else p >= (rest + handleExtent - 1) as real)
  {
    var width, height := g.width, g.height;
    var o := c.orientation;
    if o == TOP_DOWN then p < -c.collapsedOffset as real
    else if o == BOTTOM_UP then p >= (height + c.collapsedOffset - 1) as real
    else if o == LEFT_TO_RIGHT then p < -c.collapsedOffset as real
    else if o == RIGHT_TO_LEFT then p >= (width + c.collapsedOffset - 1) as real
    else false
  }

  /** incrementAnimation. */
  function Incremented(st: State, now: int): (s: State)
    ensures s == st.(anim := Advance(st.anim, Seconds(st.animLastTime, now)), animLastTime := now)
  {
    st.(anim := Advance(st.anim, Seconds(st.animLastTime, now)), animLastTime := now)
  }

  /**
   * The animation message is delivered at `now`: advance the motion, then
   * finish open (checked first), finish closed, or move the handle and queue
   * the next tick one frame later.
   */
  function Ticked(c: Config, st: State, now: int): (s: State)
    ensures Inv(st) && st.tickPending ==> Inv(s)
    ensures !st.animating ==> s == st.(tickPending := false)
    ensures st.animating ==>
      var m := Advance(st.anim, Seconds(st.animLastTime, now));
      var opens := WillOpen(c, m.position, st.layout);
      var closes := WillClose(c, m.position, st.layout);
      && s.anim == m && s.animLastTime == now
      && (opens ==>
            && s.expanded && !s.animating && !s.tickPending && s.handlePos == OpenEdge(c, st)
            && s.events == st.events + if st.expanded then [] else Heard(st.listeners.open, DrawerOpened))
      && (!opens && closes ==>
            && !s.expanded && !s.animating && !s.tickPending && s.handlePos == ClosedEdge(c, st)
            && s.events == st.events + if st.expanded then Heard(st.listeners.close, DrawerClosed) else [])
      && (!opens && !closes ==>
            && s.animating && s.tickPending && s.expanded == st.expanded && s.events == st.events
            && s.handlePos == Moved(c, st, Trunc(m.position)).handlePos
            && s.currentAnimTime == st.currentAnimTime + FRAME_DURATION)
  {
    if !st.animating then st.(tickPending := false)
    else
      var s1 := Incremented(st.(tickPending := false), now);
      if WillOpen(c, s1.anim.position, s1.layout) then Opened(c, s1.(animating := false))
      else if WillClose(c, s1.anim.position, s1.layout) then Closed(c, s1.(animating := false))
      else
        Moved(c, s1, Trunc(s1.anim.position)).(currentAnimTime := s1.currentAnimTime + FRAME_DURATION,
                                               tickPending := true)
  }

  /** The drawer after construction: closed, idle, nothing laid out and no listener registered. */
  function Initial(): State {
    State(Layout(0, 0, 0, 0, 0, 0), 0, false, false, false, false, 0, 0, Motion(0.0, 0.0, 0.0), 0, 0, false,
          Listeners(false, false, false), [])
  }

  lemma ProductSign(a: int, b: int)
    ensures a * b < 0 <==> (a < 0 && 0 < b) || (0 < a && b < 0)
  {
    if 0 < a && 0 < b {
      assert 0 < a * b;
    } else if a < 0 && b < 0 {
      assert 0 < (-a) * (-b);
    } else if a < 0 && 0 < b {
      assert 0 < (-a) * b;
    } else if 0 < a && b < 0 {
      assert 0 < a * (-b);
    }
  }

  // ---- properties of the transitions ----

  /** The snap targets of moveHandle are the places onLayout gives the handle in each state. */
  lemma SentinelsMatchLayout(c: Config, st: State)
    requires IsAxisOrientation(c.orientation)
    ensures Moved(c, st, EXPANDED_FULL_OPEN).handlePos
            == LayoutEdge(c, true, st.layout.width, st.layout.height, st.layout.handleWidth, st.layout.handleHeight)
    ensures Moved(c, st, COLLAPSED_FULL_CLOSED).handlePos
            == LayoutEdge(c, false, st.layout.width, st.layout.height, st.layout.handleWidth, st.layout.handleHeight)
  {
  }

  /** An ordinary drag never takes the handle past the high bound, and moves it exactly where asked inside [0, high]. */
  lemma DragWithinBounds(c: Config, st: State, position: int)
    requires position != EXPANDED_FULL_OPEN && position != COLLAPSED_FULL_CLOSED
    requires LowBound(c) <= HighEdge(c, st)
    ensures Moved(c, st, position).handlePos <= HighEdge(c, st)
    ensures 0 <= position <= HighEdge(c, st) ==> Moved(c, st, position).handlePos == position
  {
  }

  /**
   * The drag guard compares with 0 rather than with the low bound: with an
   * expanded offset, bottom-up and right-to-left accept every position between
   * 0 and that offset, beyond the place the open drawer rests at.
   */
  lemma DragPastExpandedOffset(c: Config, st: State, position: int)
    requires c.orientation == BOTTOM_UP || c.orientation == RIGHT_TO_LEFT
    requires 0 <= position < c.expandedOffset && position <= HighEdge(c, st)
    ensures Moved(c, st, position).handlePos == position < OpenEdge(c, st)
  {
  }

  /**
   * The top-down tap test compares with the negated size of the container, so
   * an expanded top-down drawer counts every release whose handle ends inside
   * the container as a tap, however far it was dragged.
   */
  lemma TopDownExpandedTaps(c: Config, g: Layout, handlePos: int)
    requires c.orientation == TOP_DOWN && 0 <= c.expandedOffset && 0 <= g.height
    requires 0 <= handlePos && 0 <= g.handleHeight && handlePos + g.handleHeight <= g.height
    ensures IsSingleTap(c, true, handlePos, g)
  {
  }

  /** The handle of a laid-out drawer at the rest place of its state always counts as a tap. */
  lemma RestingHandleTaps(c: Config, expanded: bool, g: Layout)
    requires IsAxisOrientation(c.orientation) && 0 <= g.height
    ensures
      var extent := if c.Vertical() then g.height else g.width;
      var handleExtent := if c.Vertical() then g.handleHeight else g.handleWidth;
      IsSingleTap(c, expanded, if expanded then OpenBound(c, extent, handleExtent) else ClosedBound(c, extent, handleExtent), g)
  {
  }

  /**
   * The two arrival tests never hold together while the expanded offset is
   * less than the container's extent plus the collapsed offset, so the order
   * in which doAnimation checks them does not matter then.
   */
  lemma ArrivalTestsExclusive(c: Config, p: real, g: Layout)
    requires c.expandedOffset < (if c.Vertical() then g.height else g.width) + c.collapsedOffset
    ensures !(WillOpen(c, p, g) && WillClose(c, p, g))
  {
  }

  /** Opening twice is opening once, and the open listener hears of it only when the drawer was closed. */
  lemma OpenIdempotent(c: Config, st: State)
    ensures Opened(c, Opened(c, st)) == Opened(c, st)
    ensures Count(Opened(c, st).events, DrawerOpened)
            == Count(st.events, DrawerOpened) + (if !st.expanded && st.listeners.open then 1 else 0)
  {
    var added := if st.expanded then [] else Heard(st.listeners.open, DrawerOpened);
    CountAppend(st.events, added, DrawerOpened);
    assert Count([DrawerOpened], DrawerOpened) == 1 by {
      assert [DrawerOpened][..0] == [];
    }
  }

  /** Closing twice is closing once, and the close listener hears of it only when the drawer was open. */
  lemma CloseIdempotent(c: Config, st: State)
    ensures Closed(c, Closed(c, st)) == Closed(c, st)
    ensures Count(Closed(c, st).events, DrawerClosed)
            == Count(st.events, DrawerClosed) + (if st.expanded && st.listeners.close then 1 else 0)
  {
    var added := if st.expanded then Heard(st.listeners.close, DrawerClosed) else [];
    CountAppend(st.events, added, DrawerClosed);
    assert Count([DrawerClosed], DrawerClosed) == 1 by {
      assert [DrawerClosed][..0] == [];
    }
  }

  /** Toggling twice restores the state and leaves the handle at the rest place of that state. */
  lemma ToggleTwice(c: Config, st: State)
    ensures Toggled(c, Toggled(c, st)).expanded == st.expanded
    ensures Toggled(c, Toggled(c, st)).handlePos == if st.expanded then OpenEdge(c, st) else ClosedEdge(c, st)
  {
    var s1 := Toggled(c, st);
    assert s1.layout == st.layout;
    assert OpenEdge(c, s1) == OpenEdge(c, st) && ClosedEdge(c, s1) == ClosedEdge(c, st);
  }

  /** What the scroll listener hears from the public animated open and close, whatever the state they start from. */
  function AnimateEvents(st: State): seq<Event> {
    if st.listeners.scroll then (if st.animating then [] else [PreScrollStarted]) + [ScrollStarted, ScrollEnded, ScrollEnded]
    else []
  }

  /**
   * The fling animateOpen and animateClose start always heads for the state
   * opposite the current one: animateOpen on an open drawer closes it from
   * rest, and animateClose on a closed drawer opens it.
   */
  lemma AnimateHeadsOpposite(c: Config, st: State, now: int)
    requires IsAxisOrientation(c.orientation)
    ensures st.expanded ==>
      && AnimateOpened(c, st, now).anim.acceleration == Signed(-OpenSign(c.orientation), c.maxAcceleration)
      && AnimateOpened(c, st, now).anim.velocity == 0.0
    ensures !st.expanded ==>
      && AnimateClosed(c, st, now).anim.acceleration == Signed(OpenSign(c.orientation), c.maxAcceleration)
      && AnimateClosed(c, st, now).anim.velocity == 0.0
  {
  }

  /** The events animateOpen and animateClose deliver, in order, from any state. */
  lemma AnimateEventsInOrder(c: Config, st: State, now: int)
    requires IsAxisOrientation(c.orientation)
    ensures AnimateOpened(c, st, now).events == st.events + AnimateEvents(st)
    ensures AnimateClosed(c, st, now).events == st.events + AnimateEvents(st)
  {
    var s1 := ContentPrepared(st);
    var s2 := s1.(events := s1.events + Heard(s1.listeners.scroll, ScrollStarted));
    var pre := if st.animating || !st.listeners.scroll then [] else [PreScrollStarted];
    var start := Heard(st.listeners.scroll, ScrollStarted);
    var ended := Heard(st.listeners.scroll, ScrollEnded);
    assert s2.events == st.events + pre + start;
    assert AnimatedOpenAt(c, s2, s2.handlePos, now).events == st.events + pre + start + ended;
    assert AnimatedCloseAt(c, s2, s2.handlePos, now).events == st.events + pre + start + ended;
    assert pre + start + ended + ended == AnimateEvents(st);
  }

  /**
   * The public animated open and close report the end of the scroll twice,
   * once from the fling and once on their own, whichever state they start from.
   */
  lemma AnimateEndsScrollTwice(c: Config, st: State, now: int)
    requires IsAxisOrientation(c.orientation) && st.listeners.scroll
    ensures Count(AnimateOpened(c, st, now).events, ScrollEnded) == Count(st.events, ScrollEnded) + 2
    ensures Count(AnimateClosed(c, st, now).events, ScrollEnded) == Count(st.events, ScrollEnded) + 2
  {
    AnimateEventsInOrder(c, st, now);
    var e0 := st.events + (if st.animating then [] else [PreScrollStarted]);
    if !st.animating {
      CountSnoc(st.events, PreScrollStarted, ScrollEnded);
    } else {
      assert e0 == st.events;
    }
    CountSnoc(e0, ScrollStarted, ScrollEnded);
    CountSnoc(e0 + [ScrollStarted], ScrollEnded, ScrollEnded);
    CountSnoc(e0 + [ScrollStarted] + [ScrollEnded], ScrollEnded, ScrollEnded);
    assert st.events + AnimateEvents(st) == e0 + [ScrollStarted] + [ScrollEnded] + [ScrollEnded];
  }

  /**
   * For a closed top-down drawer prepareTracking stores the negated collapsed
   * offset as the acceleration and leaves the animation position as it was,
   * so the handle is moved to that stale position.
   */
  lemma TopDownPrepareQuirk(c: Config, st: State, position: int, now: int)
    requires c.orientation == TOP_DOWN && !st.expanded
    ensures TrackingPrepared(c, st, position, now).anim.acceleration == -c.collapsedOffset as real
    ensures TrackingPrepared(c, st, position, now).anim.position == st.anim.position
    ensures TrackingPrepared(c, st, position, now).handlePos == Moved(c, st, Trunc(st.anim.position)).handlePos
  {
    var m1 := CollapsedMotion(c, st.anim, st.layout);
    var s0 := st.(anim := m1);
    assert Extent(c, s0) == Extent(c, st) && HandleExtent(c, s0) == HandleExtent(c, st);
    assert HighEdge(c, s0) == HighEdge(c, st) && OpenEdge(c, s0) == OpenEdge(c, st);
    assert ClosedEdge(c, s0) == ClosedEdge(c, st);
  }

  /**
   * For the other orientations prepareTracking snaps a closed drawer's handle
   * to its collapsed place.  The bound on the collapsed offset is needed
   * because left-to-right's collapsed place is -collapsedOffset, which
   * moveHandle would read as one of its two sentinels once the offset reaches
   * 10001 (see SentinelOffsetSnapsOpen).
   */
  lemma CollapsedPrepareSnaps(c: Config, st: State, position: int, now: int)
    requires c.orientation == BOTTOM_UP || c.orientation == LEFT_TO_RIGHT || c.orientation == RIGHT_TO_LEFT
    requires !st.expanded && 0 <= c.collapsedOffset < 10001 && 0 <= HighEdge(c, st)
    ensures TrackingPrepared(c, st, position, now).handlePos == ClosedEdge(c, st)
    ensures TrackingPrepared(c, st, position, now).anim.position == ClosedEdge(c, st) as real
  {
    var m1 := CollapsedMotion(c, st.anim, st.layout);
    var s0 := st.(anim := m1);
    assert Extent(c, s0) == Extent(c, st) && HandleExtent(c, s0) == HandleExtent(c, st);
    assert HighEdge(c, s0) == HighEdge(c, st);
    assert m1.position == ClosedEdge(c, st) as real;
    TruncOfInt(ClosedEdge(c, st));
  }

  /**
   * A left-to-right drawer whose collapsed offset is 10001 rests closed at
   * -10001, the value moveHandle reserves for "fully open": a press on the
   * closed drawer throws the handle to the open edge instead.
   */
  lemma SentinelOffsetSnapsOpen(c: Config, st: State, position: int, now: int)
    requires c.orientation == LEFT_TO_RIGHT && !st.expanded && c.collapsedOffset == -EXPANDED_FULL_OPEN
    ensures ClosedEdge(c, st) == EXPANDED_FULL_OPEN
    ensures TrackingPrepared(c, st, position, now).handlePos == OpenEdge(c, st)
  {
    var m1 := CollapsedMotion(c, st.anim, st.layout);
    var s0 := st.(anim := m1);
    assert Extent(c, s0) == Extent(c, st) && HandleExtent(c, s0) == HandleExtent(c, st);
    assert OpenEdge(c, s0) == OpenEdge(c, st);
    assert m1.position == ClosedEdge(c, st) as real;
    TruncOfInt(ClosedEdge(c, st));
  }

  /**
   * A release that counts as a tap animates toward the other state; any other
   * release flings with performFling's own choice of direction.
   */
  lemma ReleaseHeading(c: Config, st: State, velocity: real, now: int)
    requires IsAxisOrientation(c.orientation)
    ensures
      var s := Released(c, st, velocity, now);
      var tap := Abs(velocity) < c.maxTapVelocity as real && SingleTapAt(c, st) && c.allowSingleTap;
      var commit := tap || FlingCommits(c, st.expanded, st.layout, st.handlePos, velocity, false);
      && s.animating && !s.tracking && s.tickPending && s.expanded == st.expanded
      && s.events == st.events + Heard(st.listeners.scroll, ScrollEnded)
      && s.anim.acceleration == Signed(Heading(c.orientation, st.expanded, commit), c.maxAcceleration)
  {
    var tap := Abs(velocity) < c.maxTapVelocity as real && SingleTapAt(c, st) && c.allowSingleTap;
    if tap {
      var s1 := TrackingPrepared(c, st, st.handlePos, now);
      assert s1.expanded == st.expanded;
    }
  }

  /** The state after ticks delivered at the clock readings `times`. */
  function Ticks(c: Config, st: State, times: seq<int>): State
    decreases |times|
  {
    if |times| == 0 then st else Ticks(c, Ticked(c, st, times[0]), times[1..])
  }

  /** Every tick but the last leaves the animation running. */
  predicate KeepsAnimating(c: Config, st: State, times: seq<int>)
    decreases |times|
  {
    |times| <= 1 || (Ticked(c, st, times[0]).animating && KeepsAnimating(c, Ticked(c, st, times[0]), times[1..]))
  }

  /**
   * However the ticks fall, the animation after the last one is where the
   * closed-form equation of uniformly accelerated motion puts it, measured
   * from the time the fling started.
   */
  lemma {:induction false} TicksFollowClosedForm(c: Config, st: State, times: seq<int>)
    requires |times| > 0 && st.animating && KeepsAnimating(c, st, times)
    ensures Ticks(c, st, times).anim == Advance(st.anim, Seconds(st.animLastTime, times[|times| - 1]))
    decreases |times|
  {
    var s1 := Ticked(c, st, times[0]);
    if |times| > 1 {
      TicksFollowClosedForm(c, s1, times[1..]);
      AdvanceCompose(st.anim, Seconds(st.animLastTime, times[0]), Seconds(times[0], times[|times| - 1]));
      assert Seconds(st.animLastTime, times[0]) + Seconds(times[0], times[|times| - 1])
             == Seconds(st.animLastTime, times[|times| - 1]);
    }
  }

  class SlidingDrawer {
    const cfg: Config

    var layout: Layout
    var handlePos: int
    var expanded: bool
    var tracking: bool
    var animating: bool
    var locked: bool
    var touchDelta: int
    var touchOffset: int
    var anim: Motion
    var animLastTime: int
    var currentAnimTime: int
    var tickPending: bool
    var listeners: Listeners
    ghost var events: seq<Event>

    ghost function S(): State
      reads this
    {
      State(layout, handlePos,
            expanded, tracking, animating, locked, touchDelta, touchOffset,
            anim, animLastTime, currentAnimTime, tickPending,
            listeners, events)
    }

    ghost predicate Valid()
      reads this
    {
      ValidConfig(cfg) && Inv(S())
    }

    constructor(config: Config, handleId: int, contentId: int)
      requires Validate(config.orientation, config.collapsedOffset, config.expandedOffset, handleId, contentId) == None
      ensures Valid()
      ensures cfg == config && S() == Initial()
    {
      OrientationBits.FlagRunValues(config.orientation);
      cfg := config;
      layout := Layout(0, 0, 0, 0, 0, 0);
      handlePos := 0;
      expanded, tracking, animating, locked := false, false, false, false;
      touchDelta, touchOffset := 0, 0;
      anim := Motion(0.0, 0.0, 0.0);
      animLastTime, currentAnimTime, tickPending := 0, 0, false;
      listeners := Listeners(false, false, false);
      events := [];
    }

    method SetOnDrawerOpenListener(registered: bool)
      modifies this
      ensures S() == old(S()).(listeners := old(listeners).(open := registered))
    {
      listeners := listeners.(open := registered);
    }

    method SetOnDrawerCloseListener(registered: bool)
      modifies this
      ensures S() == old(S()).(listeners := old(listeners).(close := registered))
    {
      listeners := listeners.(close := registered);
    }

    method SetOnDrawerScrollListener(registered: bool)
      modifies this
      ensures S() == old(S()).(listeners := old(listeners).(scroll := registered))
    {
      listeners := listeners.(scroll := registered);
    }

    method Lock()
      modifies this
      ensures S() == old(S()).(locked := true)
    {
      locked := true;
    }

    method Unlock()
      modifies this
      ensures S() == old(S()).(locked := false)
    {
      locked := false;
    }

    function IsOpened(): bool
      reads this
    {
      expanded
    }

    function IsMoving(): bool
      reads this
    {
      tracking || animating
    }

    method MoveHandle(position: int) returns (willBackward: bool)
      modifies this
      ensures S() == Moved(cfg, old(S()), position)
      ensures willBackward == WillBackward(old(S()), position)
    {
      willBackward := false;
      var inverted := Inverted(cfg.orientation);
      var extent := if cfg.Vertical() then layout.height else layout.width;
      var handleExtent := if cfg.Vertical() then layout.handleHeight else layout.handleWidth;
      var lowOffset := (if inverted then -cfg.collapsedOffset else cfg.expandedOffset) - handlePos;
      var highOffset := (if inverted then -cfg.expandedOffset else cfg.collapsedOffset)
                        + extent - handleExtent - handlePos;
      if position == EXPANDED_FULL_OPEN {
        handlePos := handlePos + if inverted then highOffset else lowOffset;
      } else if position == COLLAPSED_FULL_CLOSED {
        handlePos := handlePos + if inverted then lowOffset else highOffset;
      } else {
        var delta := position - handlePos;
        willBackward := touchDelta * delta < 0;
        ProductSign(touchDelta, delta);
        if delta != 0 {
          touchDelta := delta;
        }
        if position < 0 {
          delta := lowOffset;
        } else if delta > highOffset {
          delta := highOffset;
        }
        handlePos := handlePos + delta;
      }
    }

    method OpenDrawer()
      modifies this
      ensures S() == Opened(cfg, old(S()))
    {
      var _ := MoveHandle(EXPANDED_FULL_OPEN);
      if expanded {
        return;
      }
      expanded := true;
      events := events + Heard(listeners.open, DrawerOpened);
    }

    method CloseDrawer()
      modifies this
      ensures S() == Closed(cfg, old(S()))
    {
      var _ := MoveHandle(COLLAPSED_FULL_CLOSED);
      if !expanded {
        return;
      }
      expanded := false;
      events := events + Heard(listeners.close, DrawerClosed);
    }

    method Toggle()
      requires Valid()
      modifies this
      ensures Valid()
      ensures S() == Toggled(cfg, old(S()))
    {
      if !expanded {
        OpenDrawer();
      } else {
        CloseDrawer();
      }
    }

    method Open()
      requires Valid()
      modifies this
      ensures Valid()
      ensures S() == Opened(cfg, old(S()))
    {
      OpenDrawer();
    }

    method Close()
      requires Valid()
      modifies this
      ensures Valid()
      ensures S() == Closed(cfg, old(S()))
    {
      CloseDrawer();
    }

    method PrepareContent()
      modifies this
      ensures S() == ContentPrepared(old(S()))
    {
      if animating {
        return;
      }
      events := events + Heard(listeners.scroll, PreScrollStarted);
    }

    method StopTracking()
      modifies this
      ensures S() == TrackingStopped(old(S()))
    {
      tracking := false;
      events := events + Heard(listeners.scroll, ScrollEnded);
    }

    /**
     * The animation clock restarts at `now`: the handle animates, its next
     * frame falls one frame duration later, and a tick is queued or not.
     */
    method ResetFrameTime(now: int, queueTick: bool)
      modifies this
      ensures S() == old(S()).(animLastTime := now, currentAnimTime := now + FRAME_DURATION, animating := true,
                               tickPending := queueTick)
    {
      animLastTime := now;
      currentAnimTime := now + FRAME_DURATION;
      animating := true;
      tickPending := queueTick;
    }

    method PrepareTracking(position: int, now: int)
      modifies this
      ensures S() == TrackingPrepared(cfg, old(S()), position, now)
    {
      ghost var st := S();
      if !expanded {
        anim := CollapsedMotion(cfg, anim, layout);
        var _ := MoveHandle(Trunc(anim.position));
        ResetFrameTime(now, false);
      } else {
        if animating {
          animating := false;
          tickPending := false;
        }
        var _ := MoveHandle(position);
      }
      tracking := true;
      touchDelta := 0;
    }

    method PerformFling(position: int, velocity: real, autoAnimated: bool, now: int)
      modifies this
      ensures S() == Flung(cfg, old(S()), position, velocity, autoAnimated, now)
    {
      ghost var st := S();
      var criticalPoint := RollbackPoint(cfg, expanded, layout);
      var commit := autoAnimated
        || WillOnFling(cfg.orientation, expanded, velocity, cfg.maxMajorVelocity)
        || !WillRollback(cfg.orientation, expanded, position, criticalPoint);
      var plan := FlingTable(cfg.orientation, expanded, commit, velocity, cfg.maxAcceleration);
      anim := Motion(position as real, plan.1, plan.0);
      ResetFrameTime(now, true);
      assert anim == FlingMotion(cfg, st.expanded, st.layout, position, velocity, autoAnimated);
      StopTracking();
    }

    method AnimateOpenAt(position: int, now: int)
      modifies this
      ensures S() == AnimatedOpenAt(cfg, old(S()), position, now)
    {
      PrepareTracking(position, now);
      var a := cfg.maxAcceleration as real;
      var o := cfg.orientation;
      if o == TOP_DOWN {
        PerformFling(position, a, true, now);
      } else if o == BOTTOM_UP {
        PerformFling(position, -a, true, now);
      } else if o == LEFT_TO_RIGHT {
        PerformFling(position, a, true, now);
      } else if o == RIGHT_TO_LEFT {
        PerformFling(position, -a, true, now);
      }
    }

    method AnimateCloseAt(position: int, now: int)
      modifies this
      ensures S() == AnimatedCloseAt(cfg, old(S()), position, now)
    {
      PrepareTracking(position, now);
      var a := cfg.maxAcceleration as real;
      var o := cfg.orientation;
      if o == TOP_DOWN {
        PerformFling(position, -a, true, now);
      } else if o == BOTTOM_UP {
        PerformFling(position, a, true, now);
      } else if o == LEFT_TO_RIGHT {
        PerformFling(position, -a, true, now);
      } else if o == RIGHT_TO_LEFT {
        PerformFling(position, a, true, now);
      }
    }

    method AnimateOpen(now: int)
      requires Valid()
      modifies this
      ensures Valid()
      ensures S() == AnimateOpened(cfg, old(S()), now)
    {
      ghost var s0 := S();
      PrepareContent();
      events := events + Heard(listeners.scroll, ScrollStarted);
      ghost var s2 := S();
      assert s2 == ContentPrepared(s0).(events := ContentPrepared(s0).events + Heard(s0.listeners.scroll, ScrollStarted));
      AnimateOpenAt(handlePos, now);
      assert S() == AnimatedOpenAt(cfg, s2, s2.handlePos, now);
      events := events + Heard(listeners.scroll, ScrollEnded);
    }

    method AnimateClose(now: int)
      requires Valid()
      modifies this
      ensures Valid()
      ensures S() == AnimateClosed(cfg, old(S()), now)
    {
      ghost var s0 := S();
      PrepareContent();
      events := events + Heard(listeners.scroll, ScrollStarted);
      ghost var s2 := S();
      assert s2 == ContentPrepared(s0).(events := ContentPrepared(s0).events + Heard(s0.listeners.scroll, ScrollStarted));
      AnimateCloseAt(handlePos, now);
      assert S() == AnimatedCloseAt(cfg, s2, s2.handlePos, now);
      events := events + Heard(listeners.scroll, ScrollEnded);
    }

    method AnimateToggle(now: int)
      requires Valid()
      modifies this
      ensures Valid()
      ensures S() == AnimateToggled(cfg, old(S()), now)
    {
      if !expanded {
        AnimateOpen(now);
      } else {
        AnimateClose(now);
      }
    }

    method OnLayout(l: int, t: int, r: int, b: int, childWidth: int, childHeight: int)
      requires Valid()
      modifies this
      ensures Valid()
      ensures S() == LaidOut(cfg, old(S()), l, t, r, b, childWidth, childHeight)
    {
      layout := layout.(left := l, top := t, width := r - l, height := b - t);
      if tracking {
        return;
      }
      handlePos := LayoutEdge(cfg, expanded, layout.width, layout.height, childWidth, childHeight);
      layout := layout.(handleWidth := childWidth, handleHeight := childHeight);
    }

    method OnInterceptTouchEvent(ev: Touch, now: int) returns (r: bool)
      requires Valid()
      modifies this
      ensures Valid()
      ensures (r, S()) == Intercepted(cfg, old(S()), ev, now)
    {
      if locked {
        return false;
      }
      if !tracking && !ev.hit {
        return false;
      }
      if ev.action == Down {
        BeginDrag(ev);
        PrepareTracking(handlePos, now);
      }
      return true;
    }

    /** The ACTION_DOWN branch of onInterceptTouchEvent before prepareTracking. */
    method BeginDrag(ev: Touch)
      modifies this
      ensures S() == DragBegun(cfg, old(S()), ev)
    {
      tracking := true;
      PrepareContent();
      events := events + Heard(listeners.scroll, ScrollStarted);
      touchDelta := 0;
      var edge := handlePos;
      touchOffset := Trunc(if cfg.Vertical() then ev.y else ev.x) - edge;
    }

    method OnTouchEvent(ev: Touch, vx: real, vy: real, magnitude: real, superHandled: bool, now: int)
      returns (r: bool)
      requires Valid()
      requires IsHypot(Major(vx, vy, cfg.Vertical()), ClampedMinor(vx, vy, cfg.Vertical(), cfg.maxMinorVelocity), magnitude)
      modifies this
      ensures Valid()
      ensures (r, S()) ==
        Touched(cfg, old(S()), ev, ComputeVelocity(vx, vy, cfg.Vertical(), cfg.maxMinorVelocity, magnitude),
                superHandled, now)
    {
      if locked {
        return true;
      }
      if tracking {
        if ev.action == Move {
          var position := Trunc(if cfg.Vertical() then ev.y else ev.x) - touchOffset;
          var willBackward := MoveHandle(position);
          events := events + Heard(listeners.scroll, Scroll(willBackward));
        } else if ev.action == Up || ev.action == Cancel {
          var velocity := ComputeVelocity(vx, vy, cfg.Vertical(), cfg.maxMinorVelocity, magnitude);
          var position := handlePos;
          if Abs(velocity) < cfg.maxTapVelocity as real && IsSingleTap(cfg, expanded, handlePos, layout)
             && cfg.allowSingleTap {
            if expanded {
              AnimateCloseAt(position, now);
            } else {
              AnimateOpenAt(position, now);
            }
          } else {
            PerformFling(position, velocity, false, now);
          }
        }
      }
      return tracking || animating || superHandled;
    }

    /** The handle's click listener (DrawerToggler). */
    method OnHandleClick(now: int)
      requires Valid()
      modifies this
      ensures Valid()
      ensures S() == Clicked(cfg, old(S()), now)
    {
      if !cfg.animateOnClick || locked {
        return;
      }
      AnimateToggle(now);
    }

    method IncrementAnimation(now: int)
      modifies this
      ensures S() == Incremented(old(S()), now)
    {
      var t := Seconds(animLastTime, now);
      anim := Advance(anim, t);
      animLastTime := now;
    }

    /** The handler delivers the queued animation message at `now` (doAnimation). */
    method HandleAnimationMessage(now: int)
      requires Valid() && tickPending && currentAnimTime <= now && animLastTime <= now
      modifies this
      ensures Valid()
      ensures S() == Ticked(cfg, old(S()), now)
    {
      tickPending := false;
      if animating {
        IncrementAnimation(now);
        if WillOpen(cfg, anim.position, layout) {
          animating := false;
          OpenDrawer();
        } else if WillClose(cfg, anim.position, layout) {
          animating := false;
          CloseDrawer();
        } else {
          var _ := MoveHandle(Trunc(anim.position));
          currentAnimTime := currentAnimTime + FRAME_DURATION;
          tickPending := true;
        }
      }
    }
  }
}

=== FILE: drawer_common.dfy ===
/**
 * Vocabulary shared by the three revisions of the sliding drawer:
 * orientation flags, timing constants, the sentinel positions understood by
 * the handle mover, touch actions, the listener callbacks the drawer issues,
 * and the two integer conversions Java performs implicitly.
 */
module DrawerCommon {

  // Orientation flags (one bit each).
  const TOP_DOWN: int := 1
  const BOTTOM_UP: int := 2
  const LEFT_TO_RIGHT: int := 4
  const RIGHT_TO_LEFT: int := 8

  /** Milliseconds between two animation ticks: 1000 / 60 in integer arithmetic. */
  const FRAME_DURATION: int := 1000 / 60

  // Sentinel positions that ask the handle mover to snap to a bound.
  const EXPANDED_FULL_OPEN: int := -10001
  const COLLAPSED_FULL_CLOSED: int := -10002

  /** The four orientations the switch statements of the drawer name. */
  predicate IsAxisOrientation(o: int) {
    o == TOP_DOWN || o == BOTTOM_UP || o == LEFT_TO_RIGHT || o == RIGHT_TO_LEFT
  }

  /** A Java `int`. */
  type Int32 = x: int | -0x8000_0000 <= x < 0x8000_0000

  datatype Option<T> = None | Some(value: T)

  /** The masked action of a touch event. */
  datatype Action = Down | Move | Up | Cancel | OtherAction

  /** One touch event as the drawer reads it: action, coordinates, and whether it falls in the handle's frame. */
  datatype Touch = Touch(action: Action, x: real, y: real, hit: bool)

  /** Callbacks the drawer delivers to its registered listeners. */
  datatype Event =
    | PreScrollStarted
    | ScrollStarted
    | Scroll(willBackward: bool)
    | ScrollEnded
    | DrawerOpened
    | DrawerClosed

  /** What a callback contributes to the log: nothing when no listener is registered. */
  function Heard(registered: bool, e: Event): (s: seq<Event>)
    ensures registered <==> s == [e]
    ensures !registered <==> s == []
  {
    if registered then [e] else []
  }

  /** How many times `e` was delivered. */
  function Count(log: seq<Event>, e: Event): (n: nat)
    ensures n <= |log|
    ensures n == 0 <==> e !in log
  {
    if |log| == 0 then 0
    else Count(log[..|log| - 1], e) + (if log[|log| - 1] == e then 1 else 0)
  }

  lemma {:induction false} CountAppend(a: seq<Event>, b: seq<Event>, e: Event)
    ensures Count(a + b, e) == Count(a, e) + Count(b, e)
    decreases |b|
  {
    if |b| == 0 {
      assert a + b == a;
    } else {
      var b' := b[..|b| - 1];
      assert (a + b)[..|a + b| - 1] == a + b';
      CountAppend(a, b', e);
    }
  }

  /** One more delivery counts once if it is `e`. */
  lemma CountSnoc(log: seq<Event>, x: Event, e: Event)
    ensures Count(log + [x], e) == Count(log, e) + (if x == e then 1 else 0)
  {
    assert (log + [x])[..|log|] == log;
  }

  /** Java's `(int)` cast of a floating-point value: truncation toward zero. */
  function Trunc(r: real): (t: int)
    ensures 0.0 <= r ==> 0 <= t && t as real <= r < t as real + 1.0
    ensures r < 0.0 ==> t <= 0 && t as real - 1.0 < r <= t as real
  {
    if r >= 0.0 then r.Floor else -((-r).Floor)
  }

  lemma TruncOfInt(n: int)
    ensures Trunc(n as real) == n
  {
  }

  /** Java's `x / 4` on an `int`: truncation toward zero, unlike Dafny's Euclidean division. */
  function Quarter(x: int): (q: int)
    ensures 0 <= x ==> 0 <= q && 4 * q <= x < 4 * q + 4
    ensures x < 0 ==> q <= 0 && 4 * q - 4 < x <= 4 * q
  {
    if x >= 0 then x / 4 else -((-x) / 4)
  }

  /** The container's frame in its parent, and the handle's size, as the last layout pass left them. */
  datatype Layout = Layout(left: int, top: int, width: int, height: int, handleWidth: int, handleHeight: int)

  /** Which of the three listeners are registered. */
  datatype Listeners = Listeners(open: bool, close: bool, scroll: bool)

  /**
   * Where an ordinary move puts the handle's leading edge: a negative request
   * goes to `low`, a request past `high` stops there, anything else is kept.
   */
  function DragTarget(position: int, low: int, high: int): (p: int)
    ensures position < 0 ==> p == low
    ensures 0 <= position ==> p == if position > high then high else position
    ensures 0 <= high ==> (0 <= position ==> 0 <= p) && (low <= high ==> p <= high)
  {
    if position < 0 then low else if position > high then high else position
  }

  /** Why constructing a drawer throws. */
  datatype ConfigError =
    | InvalidOrientation
    | NegativeCollapsedOffset
    | NegativeExpandedOffset
    | MissingHandleId
    | MissingContentId
    | HandleIsContent

  /** The resource-id checks every revision's constructor performs, in source order. */
  function CheckIds(handleId: int, contentId: int): (r: Option<ConfigError>)
    ensures r == None <==> handleId != 0 && contentId != 0 && handleId != contentId
    ensures r == Some(MissingHandleId) <==> handleId == 0
    ensures r == Some(MissingContentId) <==> handleId != 0 && contentId == 0
    ensures r == Some(HandleIsContent) <==> handleId != 0 && contentId != 0 && handleId == contentId
  {
    if handleId == 0 then Some(MissingHandleId)
    else if contentId == 0 then Some(MissingContentId)
    else if handleId == contentId then Some(HandleIsContent)
    else None
  }
}

=== FILE: gesture_drawer.dfy ===
/**
 * The gesture-filtered drawer: the same drag, fling and tick skeleton as the
 * AOSP-derived drawer, restricted to bottom-up, left-to-right and
 * right-to-left without offsets, with a content lock that keeps the closed
 * drawer from taking touches, and a collapse-gesture filter that hands a
 * horizontal scroll over an open drawer to the drag logic.
 *
 * Each state change is a function on `State`; the class `SlidingDrawer`
 * keeps the same state in fields and proves each of its methods against the
 * corresponding function.  The gesture listener's two flags live in the
 * drawer's state (`gesture`), and its callbacks are methods of the drawer.
 */
module GestureDrawer {
  import opened DrawerCommon
  import opened VelocityEstimator
  import opened Kinematics
  import OrientationBits

  /** Attributes fixed at construction; the velocity limits are already scaled by the display density. */
  datatype Config = Config(
    orientation: Int32,
    allowSingleTap: bool,
    animateOnClick: bool,
    tapThreshold: nat,
    maxTapVelocity: nat,
    maxMinorVelocity: nat,
    maxMajorVelocity: nat,
    maxAcceleration: nat)
  {
    /** mVertical: only the two vertical flags count; every other value is treated as horizontal. */
    predicate Vertical() {
      orientation == TOP_DOWN || orientation == BOTTOM_UP
    }
  }

  /** What the constructor accepts: everything but top-down. */
  predicate ValidConfig(c: Config) {
    c.orientation != TOP_DOWN
  }

  /**
   * The constructor's checks in the order it makes them; `None` when it does
   * not throw.  The orientation test throws only for a value that is a run
   * of flags and equals top-down, which is top-down alone.
   */
  function Validate(orientation: Int32, handleId: int, contentId: int): (r: Option<ConfigError>)
    ensures r == None <==> orientation != TOP_DOWN && handleId != 0 && contentId != 0 && handleId != contentId
    ensures r == Some(InvalidOrientation) <==> orientation == TOP_DOWN
    ensures r == Some(MissingHandleId) <==> orientation != TOP_DOWN && handleId == 0
  {
    OrientationBits.BitsOf1();
    if OrientationBits.IsFlagRun(orientation) && orientation == TOP_DOWN then Some(InvalidOrientation)
    else CheckIds(handleId, contentId)
  }

  /** The collapse-gesture listener's flags. */
  datatype ScrollFilter = ScrollFilter(filtered: bool, started: bool)

  /** What the gesture detector calls on the listener for one intercepted event. */
  datatype Gesture =
    | NoGesture                                            // a callback the listener leaves at its default
    | DownGesture                                          // onDown
    | ScrollGesture(e1: Touch, e2: Touch, dx: real, dy: real)  // onScroll, e1 being the gesture's press

  /** How a touch entry point ends: a return value, or the NullPointerException of the pre-scroll call. */
  datatype Outcome = Returned(handled: bool) | NullPointerThrown

  /** Everything the widget and its gesture listener update. */
  datatype State = State(
    layout: Layout,
    // the handle's leading edge along the axis: its top when vertical, its left otherwise
    handlePos: int,
    expanded: bool, tracking: bool, animating: bool, locked: bool, contentLocked: bool,
    // the grab point inside the handle
    touchDelta: int,
    anim: Motion, animLastTime: int, currentAnimTime: int,
    // an animation message is queued for currentAnimTime
    tickPending: bool,
    listeners: Listeners,
    gesture: ScrollFilter,
    events: seq<Event>)

  /** A tick is only queued while the handle animates, and never during a drag. */
  predicate Inv(st: State) {
    st.tickPending ==> st.animating && !st.tracking
  }

  // ---- geometry along the axis ----

  function Extent(c: Config, g: Layout): int {
    if c.Vertical() then g.height else g.width
  }

  function HandleExtent(c: Config, g: Layout): int {
    if c.Vertical() then g.handleHeight else g.handleWidth
  }

  /** The far end of the handle's travel: the container's extent less the handle's. */
  function HighEdge(c: Config, g: Layout): int {
    Extent(c, g) - HandleExtent(c, g)
  }

  /** Where the handle rests when the drawer is open: the far end for left-to-right, the near end otherwise. */
  function OpenEdge(c: Config, g: Layout): int {
    if c.orientation == LEFT_TO_RIGHT then HighEdge(c, g) else 0
  }

  function ClosedEdge(c: Config, g: Layout): int {
    if c.orientation == LEFT_TO_RIGHT then 0 else HighEdge(c, g)
  }

  /** The handle's leading edge that onLayout computes. */
  function LayoutEdge(c: Config, expanded: bool, width: int, height: int, childWidth: int, childHeight: int)
    : (edge: int)
    ensures c.orientation == BOTTOM_UP ==> edge == if expanded then 0 else height - childHeight
    ensures c.orientation == LEFT_TO_RIGHT ==> edge == if expanded then width - childWidth else 0
    ensures c.orientation == RIGHT_TO_LEFT ==> edge == if expanded then 0 else width - childWidth
    ensures c.orientation != BOTTOM_UP && c.orientation != LEFT_TO_RIGHT && c.orientation != RIGHT_TO_LEFT ==>
      edge == 0
  {
    var o := c.orientation;
    if o == BOTTOM_UP then (if expanded then 0 else height - childHeight)
    else if o == LEFT_TO_RIGHT then (if expanded then width - childWidth else 0)
    else if o == RIGHT_TO_LEFT then (if expanded then 0 else width - childWidth)
    else 0
  }

  // ---- transitions ----

  /** onLayout, after the container has been given the frame (l, t, r, b); nothing moves during a drag. */
  function LaidOut(c: Config, st: State, l: int, t: int, r: int, b: int, childWidth: int, childHeight: int)
    : (s: State)
    ensures Inv(st) ==> Inv(s)
    ensures s.layout.width == r - l && s.layout.height == b - t
    ensures st.tracking ==> s.handlePos == st.handlePos
    ensures !st.tracking && (c.orientation == BOTTOM_UP || c.orientation == LEFT_TO_RIGHT || c.orientation == RIGHT_TO_LEFT)
            ==> s.handlePos == (if st.expanded then OpenEdge(c, s.layout) else ClosedEdge(c, s.layout))
  {
    var frame := st.layout.(left := l, top := t, width := r - l, height := b - t);
    if st.tracking then st.(layout := frame)
    else
      st.(layout := frame.(handleWidth := childWidth, handleHeight := childHeight),
          handlePos := LayoutEdge(c, st.expanded, r - l, b - t, childWidth, childHeight))
  }

  /**
   * moveHandle: the sentinels snap to an end (the vertical open sentinel
   * offsets the handle by its own top instead), any other position is a
   * drag step kept inside [0, far end].
   */
  function HandleTarget(c: Config, g: Layout, pos: int, position: int): (p: int)
    ensures position == EXPANDED_FULL_OPEN ==> p == if c.Vertical() then pos + pos else OpenEdge(c, g)
    ensures position == COLLAPSED_FULL_CLOSED ==> p == ClosedEdge(c, g)
    ensures position != EXPANDED_FULL_OPEN && position != COLLAPSED_FULL_CLOSED ==>
      p == DragTarget(position, 0, HighEdge(c, g))
  {
    if c.Vertical() then
      var far := g.height - g.handleHeight;
      if position == EXPANDED_FULL_OPEN then pos + pos
      else if position == COLLAPSED_FULL_CLOSED then pos + (far - pos)
      else
        var deltaY := position - pos;
        var step := if position < 0 then -pos else if deltaY > far - pos then far - pos else deltaY;
        pos + step
    else
      var leftHalfOffset := -pos;
      var rightHalfOffset := g.width - g.handleWidth - pos;
      if position == EXPANDED_FULL_OPEN then
        pos + if c.orientation == LEFT_TO_RIGHT then rightHalfOffset else leftHalfOffset
      else if position == COLLAPSED_FULL_CLOSED then
        pos + if c.orientation == LEFT_TO_RIGHT then leftHalfOffset else rightHalfOffset
      else
        var deltaX := position - pos;
        var step := if position < 0 then leftHalfOffset else if deltaX > rightHalfOffset then rightHalfOffset else deltaX;
        pos + step
  }

  /** moveHandle on the drawer's state: only the handle moves, and unlike the AOSP-derived drawer no step is recorded. */
  function Moved(c: Config, st: State, position: int): (s: State)
    ensures s == st.(handlePos := s.handlePos)
    ensures s.handlePos == HandleTarget(c, st.layout, st.handlePos, position)
  {
    st.(handlePos := HandleTarget(c, st.layout, st.handlePos, position))
  }

  /** openDrawer: snap open; the open listener hears about it only when the drawer was closed. */
  function Opened(c: Config, st: State): (s: State)
    ensures s == st.(handlePos := Moved(c, st, EXPANDED_FULL_OPEN).handlePos, expanded := true,
                     events := st.events + if st.expanded then [] else Heard(st.listeners.open, DrawerOpened))
  {
    var s1 := Moved(c, st, EXPANDED_FULL_OPEN);
    if s1.expanded then s1
    else s1.(expanded := true, events := s1.events + Heard(s1.listeners.open, DrawerOpened))
  }

  /** closeDrawer: snap closed and notify the close listener, whatever the previous state. */
  function Closed(c: Config, st: State): (s: State)
    ensures s == st.(handlePos := ClosedEdge(c, st.layout), expanded := false,
                     events := st.events + Heard(st.listeners.close, DrawerClosed))
  {
    var s1 := Moved(c, st, COLLAPSED_FULL_CLOSED);
    s1.(expanded := false, events := s1.events + Heard(s1.listeners.close, DrawerClosed))
  }

  /** toggle. */
  function Toggled(c: Config, st: State): (s: State)
    ensures s.expanded == !st.expanded
    ensures st.expanded ==> s.handlePos == ClosedEdge(c, st.layout)
    ensures Inv(st) ==> Inv(s)
  {
    if !st.expanded then Opened(c, st) else Closed(c, st)
  }

  /** stopTracking. */
  function TrackingStopped(st: State): (s: State)
    ensures s == st.(tracking := false, events := st.events + Heard(st.listeners.scroll, ScrollEnded))
  {
    st.(tracking := false, events := st.events + Heard(st.listeners.scroll, ScrollEnded))
  }

  /** The motion prepareTracking sets up for a closed drawer: full acceleration, the major velocity limit, the collapsed place. */
  function CollapsedMotion(c: Config, m: Motion, g: Layout): (r: Motion)
    ensures r.velocity == c.maxMajorVelocity as real && r.acceleration == c.maxAcceleration as real
    ensures c.orientation == BOTTOM_UP ==> r.position == (g.height - g.handleHeight) as real
    ensures c.orientation == LEFT_TO_RIGHT ==> r.position == 0.0
    ensures c.orientation == RIGHT_TO_LEFT ==> r.position == (g.width - g.handleWidth) as real
    ensures c.orientation != BOTTOM_UP && c.orientation != LEFT_TO_RIGHT && c.orientation != RIGHT_TO_LEFT ==>
      r.position == m.position
  {
    var m0 := m.(acceleration := c.maxAcceleration as real, velocity := c.maxMajorVelocity as real);
    var o := c.orientation;
    if o == BOTTOM_UP then m0.(position := (g.height - g.handleHeight) as real)
    else if o == LEFT_TO_RIGHT then m0.(position := 0.0)
    else if o == RIGHT_TO_LEFT then m0.(position := (g.width - g.handleWidth) as real)
    else m0
  }

  /** prepareTracking: start a drag from `position`, snapping a closed drawer to its collapsed place first. */
  function TrackingPrepared(c: Config, st: State, position: int, now: int): (s: State)
    ensures s.tracking
    ensures (st.tickPending ==> st.animating) ==> !s.tickPending
    ensures s.animating == !st.expanded
    ensures s.expanded == st.expanded && s.events == st.events && s.locked == st.locked
    ensures s.contentLocked == st.contentLocked && s.gesture == st.gesture
    ensures s.layout == st.layout && s.listeners == st.listeners && s.touchDelta == st.touchDelta
    ensures st.expanded ==> s.anim == st.anim && s.handlePos == HandleTarget(c, st.layout, st.handlePos, position)
    ensures !st.expanded ==>
      && s.anim == CollapsedMotion(c, st.anim, st.layout)
      && s.handlePos == HandleTarget(c, st.layout, st.handlePos, Trunc(s.anim.position))
      && s.animLastTime == now && s.currentAnimTime == now + FRAME_DURATION
  {
    if !st.expanded then
      var m1 := CollapsedMotion(c, st.anim, st.layout);
      var s1 := Moved(c, st.(tracking := true, anim := m1), Trunc(m1.position));
      s1.(tickPending := false, animLastTime := now, currentAnimTime := now + FRAME_DURATION, animating := true)
    else
      var s0 := st.(tracking := true);
      var s1 := if s0.animating then s0.(animating := false, tickPending := false) else s0;
      assert Extent(c, s1.layout) == Extent(c, st.layout) && HandleExtent(c, s1.layout) == HandleExtent(c, st.layout);
      assert HighEdge(c, s1.layout) == HighEdge(c, st.layout);
      Moved(c, s1, position)
  }

  /**
   * performFling's critical point, in the parent's coordinates as the code
   * compares it: a quarter of the container's extent (Java's truncating
   * division) inside the end the handle rests at, the near end when expanded
   * and the far end when collapsed for every orientation but left-to-right,
   * the other way round for left-to-right.
   */
  function RollbackPoint(c: Config, expanded: bool, g: Layout): (cp: int)
    ensures
      var extent := if c.Vertical() then g.height else g.width;
      var start := if c.Vertical() then g.top else g.left;
      var nearSide := expanded != (!c.Vertical() && c.orientation == LEFT_TO_RIGHT);
      (if nearSide then cp - start else start + extent - cp) == Quarter(extent)
  {
    var threshold := Quarter(if c.Vertical() then g.height else g.width);
    var top, bottom := g.top, g.top + g.height;
    var left, right := g.left, g.left + g.width;
    if expanded then
      if c.Vertical() then top + threshold
      else if c.orientation == LEFT_TO_RIGHT then right - threshold
      else left + threshold
    else
      if c.Vertical() then bottom - threshold
      else if c.orientation == LEFT_TO_RIGHT then left + threshold
      else right - threshold
  }

  /** The fling heads to the opposite state when it is automatic, fast enough, or past the critical point. */
  predicate FlingCommits(c: Config, expanded: bool, g: Layout, position: int, velocity: real, autoAnimated: bool) {
    || autoAnimated
    || WillOnFling(c.orientation, expanded, velocity, c.maxMajorVelocity)
    || !WillRollback(c.orientation, expanded, position, RollbackPoint(c, expanded, g))
  }

  /**
   * The animation performFling starts from `position`: full acceleration toward
   * the state the fling commits to, and the release velocity unless it points
   * the other way.
   */
  function FlingMotion(c: Config, expanded: bool, g: Layout, position: int, velocity: real, autoAnimated: bool): (m: Motion)
    ensures m.position == position as real
    ensures m.acceleration ==
      Signed(Heading(c.orientation, expanded, FlingCommits(c, expanded, g, position, velocity, autoAnimated)), c.maxAcceleration)
    ensures m.velocity == velocity || m.velocity == 0.0
    ensures Agrees(m) && Abs(m.acceleration) == c.maxAcceleration as real
  {
    var plan := FlingTable(c.orientation, expanded, FlingCommits(c, expanded, g, position, velocity, autoAnimated),
                           velocity, c.maxAcceleration);
    Motion(position as real, plan.1, plan.0)
  }

  /**
   * performFling: the animation starts from `position` with the motion the
   * fling table picks, its first tick is queued one frame from `now`, and the
   * drag ends with the scroll listener told of it.  Nothing else changes.
   */
  function Flung(c: Config, st: State, position: int, velocity: real, autoAnimated: bool, now: int): (s: State)
    ensures s.animating && !s.tracking && s.tickPending && Inv(s)
    ensures s.anim == FlingMotion(c, st.expanded, st.layout, position, velocity, autoAnimated)
    ensures s.animLastTime == now && s.currentAnimTime == now + FRAME_DURATION
    ensures s.events == st.events + Heard(st.listeners.scroll, ScrollEnded)
    ensures s == st.(anim := s.anim, animLastTime := now, currentAnimTime := s.currentAnimTime,
                     animating := true, tickPending := true, tracking := false, events := s.events)
  {
    TrackingStopped(st.(anim := FlingMotion(c, st.expanded, st.layout, position, velocity, autoAnimated),
                        animLastTime := now, currentAnimTime := now + FRAME_DURATION,
                        animating := true, tickPending := true))
  }

  /** The three orientations the switch statements name. */
  predicate Named(o: int) {
    o == BOTTOM_UP || o == LEFT_TO_RIGHT || o == RIGHT_TO_LEFT
  }

  /** The private animateOpen(position); an orientation none of the cases names is left tracking. */
  function AnimatedOpenAt(c: Config, st: State, position: int, now: int): (s: State)
    ensures Inv(st) ==> Inv(s)
    ensures Named(c.orientation) ==> s.animLastTime == now && s.currentAnimTime == now + FRAME_DURATION
    ensures Named(c.orientation) ==>
      && s.anim.position == position as real
      && s.anim.acceleration == Signed(ToggleSign(c.orientation, st.expanded), c.maxAcceleration)
      && s.anim.velocity == if st.expanded then 0.0 else Signed(OpenSign(c.orientation), c.maxAcceleration)
    ensures s.expanded == st.expanded && s.locked == st.locked && s.listeners == st.listeners
    ensures Named(c.orientation) ==>
      && s.animating && !s.tracking && s.tickPending
      && s.events == st.events + Heard(st.listeners.scroll, ScrollEnded)
    ensures !Named(c.orientation) ==> s.tracking && s.events == st.events
    ensures s.gesture == st.gesture && s.contentLocked == st.contentLocked
  {
    var s1 := TrackingPrepared(c, st, position, now);
    var a := c.maxAcceleration as real;
    var o := c.orientation;
    if o == BOTTOM_UP then Flung(c, s1, position, -a, true, now)
    else if o == LEFT_TO_RIGHT then Flung(c, s1, position, a, true, now)
    else if o == RIGHT_TO_LEFT then Flung(c, s1, position, -a, true, now)
    else s1
  }

  /** The private animateClose(position). */
  function AnimatedCloseAt(c: Config, st: State, position: int, now: int): (s: State)
    ensures Inv(st) ==> Inv(s)
    ensures Named(c.orientation) ==> s.animLastTime == now && s.currentAnimTime == now + FRAME_DURATION
    ensures Named(c.orientation) ==>
      && s.anim.position == position as real
      && s.anim.acceleration == Signed(ToggleSign(c.orientation, st.expanded), c.maxAcceleration)
      && s.anim.velocity == if !st.expanded then 0.0 else Signed(-OpenSign(c.orientation), c.maxAcceleration)
    ensures s.expanded == st.expanded && s.locked == st.locked && s.listeners == st.listeners
    ensures Named(c.orientation) ==>
      && s.animating && !s.tracking && s.tickPending
      && s.events == st.events + Heard(st.listeners.scroll, ScrollEnded)
    ensures !Named(c.orientation) ==> s.tracking && s.events == st.events
    ensures s.gesture == st.gesture && s.contentLocked == st.contentLocked
  {
    var s1 := TrackingPrepared(c, st, position, now);
    var a := c.maxAcceleration as real;
    var o := c.orientation;
    if o == BOTTOM_UP then Flung(c, s1, position, a, true, now)
    else if o == LEFT_TO_RIGHT then Flung(c, s1, position, -a, true, now)
    else if o == RIGHT_TO_LEFT then Flung(c, s1, position, a, true, now)
    else s1
  }

  /** The public animateOpen: scroll start, the animation, and a second scroll end. */
  function AnimateOpened(c: Config, st: State, now: int): (s: State)
    ensures Inv(st) ==> Inv(s)
    ensures s.expanded == st.expanded
    ensures Named(c.orientation) ==>
      && s.animating && s.anim.position == st.handlePos as real
      && s.anim.acceleration == Signed(ToggleSign(c.orientation, st.expanded), c.maxAcceleration)
      && s.anim.velocity == if st.expanded then 0.0 else Signed(OpenSign(c.orientation), c.maxAcceleration)
  {
    var s1 := st.(events := st.events + Heard(st.listeners.scroll, ScrollStarted));
    var s2 := AnimatedOpenAt(c, s1, s1.handlePos, now);
    s2.(events := s2.events + Heard(s2.listeners.scroll, ScrollEnded))
  }

  /** The public animateClose. */
  function AnimateClosed(c: Config, st: State, now: int): (s: State)
    ensures Inv(st) ==> Inv(s)
    ensures s.expanded == st.expanded
    ensures Named(c.orientation) ==>
      && s.animating && s.anim.position == st.handlePos as real
      && s.anim.acceleration == Signed(ToggleSign(c.orientation, st.expanded), c.maxAcceleration)
      && s.anim.velocity == if !st.expanded then 0.0 else Signed(-OpenSign(c.orientation), c.maxAcceleration)
  {
    var s1 := st.(events := st.events + Heard(st.listeners.scroll, ScrollStarted));
    var s2 := AnimatedCloseAt(c, s1, s1.handlePos, now);
    s2.(events := s2.events + Heard(s2.listeners.scroll, ScrollEnded))
  }

  /** animateToggle. */
  function AnimateToggled(c: Config, st: State, now: int): (s: State)
    ensures Inv(st) ==> Inv(s)
    ensures s.expanded == st.expanded
    ensures Named(c.orientation) ==>
      && s.animating && s.anim.position == st.handlePos as real
      && s.anim.acceleration == Signed(ToggleSign(c.orientation, st.expanded), c.maxAcceleration)
      && s.anim.velocity == s.anim.acceleration
  {
    if !st.expanded then AnimateOpened(c, st, now) else AnimateClosed(c, st, now)
  }

  /**
   * isSingleTap: for bottom-up and left-to-right, the handle is less than the
   * tap threshold away from where the current state rests it, measured toward
   * the other state; right-to-left compares the wrong edges
   * (RightToLeftTapQuirk).
   */
  predicate IsSingleTap(c: Config, expanded: bool, handlePos: int, g: Layout): (r: bool)
    ensures r ==> Named(c.orientation)
    ensures c.orientation == BOTTOM_UP || c.orientation == LEFT_TO_RIGHT ==>
      var rest := if expanded then OpenEdge(c, g) else ClosedEdge(c, g);
      (r <==> (if expanded != (c.orientation == LEFT_TO_RIGHT) then handlePos - rest else rest - handlePos) < c.tapThreshold)
  {
    var tap := c.tapThreshold;
    var o := c.orientation;
    if o == BOTTOM_UP then
      (expanded && handlePos < tap) || (!expanded && handlePos + g.handleHeight > g.height - tap)
    else if o == LEFT_TO_RIGHT then
      (expanded && handlePos + g.handleWidth > g.width - tap) || (!expanded && handlePos < tap)
    else if o == RIGHT_TO_LEFT then
      (expanded && handlePos + g.handleWidth > tap) || (!expanded && handlePos < g.width - tap)
    else false
  }

  predicate SingleTapAt(c: Config, st: State) {
    IsSingleTap(c, st.expanded, st.handlePos, st.layout)
  }

  /**
   * Release of a drag (ACTION_UP or ACTION_CANCEL) with release velocity
   * `velocity`: a tap animates toward the other state, anything else flings;
   * either way the drag ends, the scroll listener hears of it once, and an
   * animation runs with its first tick queued.
   */
  function Released(c: Config, st: State, velocity: real, now: int): (s: State)
    ensures s.animating && !s.tracking && s.tickPending && Inv(s)
    ensures s.anim.position == st.handlePos as real
    ensures s.animLastTime == now && s.currentAnimTime == now + FRAME_DURATION
    ensures !(Abs(velocity) < c.maxTapVelocity as real && SingleTapAt(c, st) && c.allowSingleTap) ==>
      s.anim == FlingMotion(c, st.expanded, st.layout, st.handlePos, velocity, false)
    ensures Abs(velocity) < c.maxTapVelocity as real && SingleTapAt(c, st) && c.allowSingleTap ==>
      && s.anim.acceleration == Signed(ToggleSign(c.orientation, st.expanded), c.maxAcceleration)
      && s.anim.velocity == s.anim.acceleration
    ensures s.events == st.events + Heard(st.listeners.scroll, ScrollEnded)
    ensures s.expanded == st.expanded && s.locked == st.locked && s.contentLocked == st.contentLocked
    ensures s.listeners == st.listeners && s.gesture == st.gesture
  {
    var position := st.handlePos;
    if Abs(velocity) < c.maxTapVelocity as real && SingleTapAt(c, st) && c.allowSingleTap then
      if st.expanded then AnimatedCloseAt(c, st, position, now) else AnimatedOpenAt(c, st, position, now)
    else Flung(c, st, position, velocity, false, now)
  }

  /** What the scroll listener hears on a press: the pre-scroll call when a close listener is registered, then the start. */
  function StartEvents(l: Listeners): (r: seq<Event>)
    ensures PreScrollStarted in r <==> l.close
    ensures ScrollStarted in r <==> l.scroll
    ensures l.close && l.scroll ==> r == [PreScrollStarted, ScrollStarted]
  {
    (if l.close then [PreScrollStarted] else []) + Heard(l.scroll, ScrollStarted)
  }

  /** The press coordinate along the sliding axis, cast to `int`. */
  function GrabPoint(c: Config, ev: Touch): int {
    Trunc(if c.Vertical() then ev.y else ev.x)
  }

  /**
   * The press before prepareTracking runs: tracking, the start events heard,
   * and the grab point `grab` recorded relative to the handle.
   */
  function Grabbed(st: State, grab: int): State {
    st.(tracking := true,
        events := st.events + StartEvents(st.listeners),
        touchDelta := grab - st.handlePos)
  }

  /**
   * The ACTION_DOWN branch of onTouchEvent past the hit test: tracking starts,
   * a registered close listener triggers the pre-scroll call on the scroll
   * listener (which throws when no scroll listener is registered), the scroll
   * listener hears of the start, and prepareTracking runs from the handle's
   * place.  `r.0` is whether the call threw.
   */
  function Pressed(c: Config, st: State, ev: Touch, now: int): (r: (bool, State))
    ensures r.0 <==> st.listeners.close && !st.listeners.scroll
    ensures r.0 ==> r.1 == st.(tracking := true)
    ensures !r.0 ==>
      && r.1.tracking && r.1.expanded == st.expanded && r.1.animating == !st.expanded
      && ((st.tickPending ==> st.animating) ==> !r.1.tickPending)
      && r.1.events == st.events + (if st.listeners.close then [PreScrollStarted] else [])
                                 + Heard(st.listeners.scroll, ScrollStarted)
      && r.1.touchDelta == Trunc(if c.Vertical() then ev.y else ev.x) - st.handlePos
      && (st.expanded ==> r.1.handlePos == HandleTarget(c, st.layout, st.handlePos, st.handlePos))
    ensures r.1.gesture == st.gesture && r.1.locked == st.locked && r.1.contentLocked == st.contentLocked
    ensures r.1.listeners == st.listeners && r.1.layout == st.layout
  {
    if st.listeners.close && !st.listeners.scroll then (true, st.(tracking := true))
    else (false, TrackingPrepared(c, Grabbed(st, GrabPoint(c, ev)), st.handlePos, now))
  }

  /** The end of onTouchEvent: handled while moving or open and unlocked, otherwise the drawer is closed. */
  function Finished(c: Config, st: State): (r: (Outcome, State))
    ensures r.0 == Returned(true) <==> st.tracking || st.animating || (!st.contentLocked && st.expanded)
    ensures r.0 != Returned(true) ==> r == (Returned(false), Closed(c, st))
    ensures r.0 == Returned(true) ==> r.1 == st
  {
    if st.tracking || st.animating || (!st.contentLocked && st.expanded) then (Returned(true), st)
    else (Returned(false), Closed(c, st))
  }

  /** A press that the drawer lets through to whatever is behind it. */
  predicate IgnoresPress(st: State, ev: Touch) {
    !st.tracking && (st.contentLocked || !st.expanded) && !ev.hit
  }

  /** onTouchEvent, given the release velocity. */
  function Touched(c: Config, st: State, ev: Touch, velocity: real, now: int): (r: (Outcome, State))
    ensures st.locked ==> r == (Returned(true), st)
    ensures !st.locked && ev.action == Down ==>
      && (r.0 == Returned(false) <==> IgnoresPress(st, ev))
      && (IgnoresPress(st, ev) ==> r.1 == st)
      && (r.0 == NullPointerThrown <==> !IgnoresPress(st, ev) && st.listeners.close && !st.listeners.scroll)
    ensures !st.locked && ev.action != Down && !st.tracking ==> r == Finished(c, st)
    ensures !st.locked && st.tracking && ev.action == Move ==>
      r == (Returned(true), Moved(c, st, Trunc(if c.Vertical() then ev.y else ev.x) - st.touchDelta))
    ensures !st.locked && st.tracking && (ev.action == Up || ev.action == Cancel) ==>
      r == (Returned(true), Released(c, st, velocity, now))
    ensures !st.locked && st.tracking && ev.action == OtherAction ==> r == (Returned(true), st)
    ensures !st.locked && ev.action == Down && !IgnoresPress(st, ev) && !(st.listeners.close && !st.listeners.scroll) ==>
      r == (Returned(true), Pressed(c, st, ev, now).1)
    ensures r.0 != NullPointerThrown && Inv(st) ==> Inv(r.1)
    ensures r.1.gesture == st.gesture
  {
    if st.locked then (Returned(true), st)
    else if ev.action == Down then
      if IgnoresPress(st, ev) then (Returned(false), st)
      else
        var p := Pressed(c, st, ev, now);
        if p.0 then (NullPointerThrown, p.1) else Finished(c, p.1)
    else if !st.tracking then Finished(c, st)
    else if ev.action == Move then
      Finished(c, Moved(c, st, Trunc(if c.Vertical() then ev.y else ev.x) - st.touchDelta))
    else if ev.action == Up || ev.action == Cancel then Finished(c, Released(c, st, velocity, now))
    else Finished(c, st)
  }

  /** onScroll treats a scroll as horizontal unless four times its vertical distance exceeds the horizontal one. */
  predicate Horizontal(dx: real, dy: real) {
    !(Abs(dy * 4.0) > Abs(dx))
  }

  /**
   * The collapse-gesture listener's decision on one onScroll call: whether it
   * forwards the press and the current event to onTouchEvent, and its new flags.
   */
  function FilterStep(f: ScrollFilter, dx: real, dy: real): (r: (bool, ScrollFilter))
    ensures r.0 <==> Horizontal(dx, dy) && !f.started && !f.filtered && dx > 0.0
    ensures !Horizontal(dx, dy) ==> r.1 == f
    ensures Horizontal(dx, dy) ==> r.1.started || r.1.filtered
    ensures f.started ==> r.1.started
    ensures f.filtered ==> r.1.filtered
  {
    if !Horizontal(dx, dy) then (false, f)
    else if !f.started && dx > 0.0 then (!f.filtered, f.(started := true))
    else (false, f.(filtered := true))
  }

  /** The forwarded press and current event, in that order; an exception in the first ends the call. */
  function Forwarded(c: Config, st: State, e1: Touch, e2: Touch, velocity: real, now: int): (r: (Outcome, State))
    ensures r.1.gesture == st.gesture
    ensures r.0 != NullPointerThrown && Inv(st) ==> Inv(r.1)
  {
    var t1 := Touched(c, st, e1, velocity, now);
    if t1.0 == NullPointerThrown then t1 else Touched(c, t1.1, e2, velocity, now)
  }

  /** onScroll: the filter step, then the forwarded events when it lets them through. */
  function Scrolled(c: Config, st: State, e1: Touch, e2: Touch, dx: real, dy: real, velocity: real, now: int)
    : (r: (Outcome, State))
    ensures !FilterStep(st.gesture, dx, dy).0 ==> r == (Returned(false), st.(gesture := FilterStep(st.gesture, dx, dy).1))
    ensures r.1.gesture == FilterStep(st.gesture, dx, dy).1
    ensures r.0 != NullPointerThrown && Inv(st) ==> Inv(r.1)
  {
    var step := FilterStep(st.gesture, dx, dy);
    var s1 := st.(gesture := step.1);
    if !step.0 then (Returned(false), s1)
    else Forwarded(c, s1, e1, e2, velocity, now)
  }

  /** onInterceptTouchEvent: the gesture listener is consulted only while the drawer is open and unlocked. */
  function Intercepted(c: Config, st: State, g: Gesture, velocity: real, now: int): (r: (Outcome, State))
    ensures st.locked || !st.expanded ==> r == (Returned(false), st)
    ensures r.0 == Returned(true) ==> g.ScrollGesture? && FilterStep(st.gesture, g.dx, g.dy).0
    ensures !st.locked && st.expanded && g == DownGesture ==> r == (Returned(false), st.(gesture := ScrollFilter(false, false)))
    ensures r.0 != NullPointerThrown && Inv(st) ==> Inv(r.1)
  {
    if st.locked || !st.expanded then (Returned(false), st)
    else
      match g
      case NoGesture => (Returned(false), st)
      case DownGesture => (Returned(false), st.(gesture := ScrollFilter(false, false)))
      case ScrollGesture(e1, e2, dx, dy) => Scrolled(c, st, e1, e2, dx, dy, velocity, now)
  }

  /**
   * A click on the handle.  onFinishInflate attaches the click listener only
   * when animateOnClick is set, so without it a click changes nothing, and the
   * listener's own plain-toggle branch is never reached.
   */
  function Clicked(c: Config, st: State, now: int): (s: State)
    ensures !c.animateOnClick || st.locked ==> s == st
    ensures c.animateOnClick && !st.locked ==> s == AnimateToggled(c, st, now)
    ensures Inv(st) ==> Inv(s)
  {
    if !c.animateOnClick || st.locked then st
    else AnimateToggled(c, st, now)
  }

  /**
   * doAnimation's arrival tests, on the animation position.  Toward the near
   * end a test fires once the position is past the rest place; toward the far
   * end, once it is within one of the container's end.
   */
  predicate WillOpen(c: Config, p: real, g: Layout): (r: bool)
    ensures !Named(c.orientation) ==> !r
    ensures Named(c.orientation) ==>
      (r <==> if c.orientation == LEFT_TO_RIGHT then p >= (OpenEdge(c, g) + g.handleWidth - 1) as real
              else p < OpenEdge(c, g) as real)
  {
    var o := c.orientation;
    if o == BOTTOM_UP then p < 0.0
    else if o == LEFT_TO_RIGHT then p >= (g.width - 1) as real
    else if o == RIGHT_TO_LEFT then p < 0.0
    else false
  }

  predicate WillClose(c: Config, p: real, g: Layout): (r: bool)
    ensures !Named(c.orientation) ==> !r
    ensures Named(c.orientation) ==>
      (r <==> if c.orientation == LEFT_TO_RIGHT then p < ClosedEdge(c, g) as real
              else p >= (ClosedEdge(c, g) + HandleExtent(c, g) - 1) as real)
  {
    var o := c.orientation;
    if o == BOTTOM_UP then p >= (g.height - 1) as real
    else if o == LEFT_TO_RIGHT then p < 0.0
    else if o == RIGHT_TO_LEFT then p >= (g.width - 1) as real
    else false
  }

  /** incrementAnimation. */
  function Incremented(st: State, now: int): (s: State)
    ensures s == st.(anim := Advance(st.anim, Seconds(st.animLastTime, now)), animLastTime := now)
  {
    st.(anim := Advance(st.anim, Seconds(st.animLastTime, now)), animLastTime := now)
  }

  /**
   * The animation message is delivered at `now`: advance the motion, then
   * finish open (checked first), finish closed, or move the handle and queue
   * the next tick one frame later.
   */
  function Ticked(c: Config, st: State, now: int): (s: State)
    ensures Inv(st) && st.tickPending ==> Inv(s)
    ensures !st.animating ==> s == st.(tickPending := false)
    ensures st.animating ==>
      var m := Advance(st.anim, Seconds(st.animLastTime, now));
      var opens := WillOpen(c, m.position, st.layout);
      var closes := WillClose(c, m.position, st.layout);
      && s.anim == m && s.animLastTime == now
      && (opens ==>
            && s.expanded && !s.animating && !s.tickPending
            && s.handlePos == HandleTarget(c, st.layout, st.handlePos, EXPANDED_FULL_OPEN)
            && s.events == st.events + if st.expanded then [] else Heard(st.listeners.open, DrawerOpened))
      && (!opens && closes ==>
            !s.expanded && !s.animating && !s.tickPending && s.handlePos == ClosedEdge(c, st.layout)
            && s.events == st.events + Heard(st.listeners.close, DrawerClosed))
      && (!opens && !closes ==>
            && s.animating && s.tickPending && s.expanded == st.expanded && s.events == st.events
            && s.handlePos == HandleTarget(c, st.layout, st.handlePos, Trunc(m.position))
            && s.currentAnimTime == st.currentAnimTime + FRAME_DURATION)
  {
    if !st.animating then st.(tickPending := false)
    else
      var s1 := Incremented(st.(tickPending := false), now);
      if WillOpen(c, s1.anim.position, s1.layout) then Opened(c, s1.(animating := false))
      else if WillClose(c, s1.anim.position, s1.layout) then Closed(c, s1.(animating := false))
      else
        Moved(c, s1, Trunc(s1.anim.position)).(currentAnimTime := s1.currentAnimTime + FRAME_DURATION,
                                               tickPending := true)
  }

  /** The drawer after construction: closed, idle, unlocked, nothing laid out and no listener registered. */
  function Initial(): State {
    State(Layout(0, 0, 0, 0, 0, 0), 0, false, false, false, false, false, 0, Motion(0.0, 0.0, 0.0), 0, 0, false,
          Listeners(false, false, false), ScrollFilter(false, false), [])
  }

  // ---- properties of the transitions ----

  /** Except for the vertical open sentinel, the snap targets of moveHandle are where onLayout puts the handle. */
  lemma SentinelsMatchLayout(c: Config, st: State)
    requires Named(c.orientation)
    ensures Moved(c, st, COLLAPSED_FULL_CLOSED).handlePos
            == LayoutEdge(c, false, st.layout.width, st.layout.height, st.layout.handleWidth, st.layout.handleHeight)
    ensures !c.Vertical() ==>
      Moved(c, st, EXPANDED_FULL_OPEN).handlePos
      == LayoutEdge(c, true, st.layout.width, st.layout.height, st.layout.handleWidth, st.layout.handleHeight)
  {
  }

  /**
   * The vertical open sentinel offsets the handle by its own top: it reaches
   * the open place (0) only from there, and from the collapsed place it
   * lands at twice the handle's travel.
   */
  lemma VerticalOpenDoublesTop(c: Config, st: State)
    requires c.orientation == BOTTOM_UP
    ensures Moved(c, st, EXPANDED_FULL_OPEN).handlePos == OpenEdge(c, st.layout) <==> st.handlePos == 0
    ensures st.handlePos == ClosedEdge(c, st.layout) ==> Moved(c, st, EXPANDED_FULL_OPEN).handlePos == 2 * HighEdge(c, st.layout)
  {
  }

  /** An ordinary drag keeps the handle inside [0, far end] whenever the handle fits in the container. */
  lemma DragWithinBounds(c: Config, st: State, position: int)
    requires position != EXPANDED_FULL_OPEN && position != COLLAPSED_FULL_CLOSED
    requires 0 <= HighEdge(c, st.layout)
    ensures 0 <= Moved(c, st, position).handlePos <= HighEdge(c, st.layout)
    ensures 0 <= position <= HighEdge(c, st.layout) ==> Moved(c, st, position).handlePos == position
  {
  }

  /** A press on a closed drawer snaps the handle and the animation position to the collapsed place. */
  lemma CollapsedPrepareSnaps(c: Config, st: State, position: int, now: int)
    requires Named(c.orientation) && !st.expanded && 0 <= HighEdge(c, st.layout)
    ensures TrackingPrepared(c, st, position, now).handlePos == ClosedEdge(c, st.layout)
    ensures TrackingPrepared(c, st, position, now).anim.position == ClosedEdge(c, st.layout) as real
  {
    var m1 := CollapsedMotion(c, st.anim, st.layout);
    assert m1.position == ClosedEdge(c, st.layout) as real;
    TruncOfInt(ClosedEdge(c, st.layout));
  }

  /**
   * The right-to-left tap test compares the handle's right edge with the
   * threshold when expanded and its left edge with the container's far end
   * less the threshold when collapsed, so a handle dragged all the way to the
   * other state's rest place still counts as a tap.
   */
  lemma RightToLeftTapQuirk(c: Config, g: Layout)
    requires c.orientation == RIGHT_TO_LEFT && c.tapThreshold < g.width
    ensures IsSingleTap(c, true, ClosedEdge(c, g), g)
    ensures IsSingleTap(c, false, OpenEdge(c, g), g)
  {
  }

  /** What the scroll listener hears from the public animated open and close, whatever the state they start from. */
  function AnimateEvents(c: Config, st: State): seq<Event> {
    if st.listeners.scroll then [ScrollStarted, ScrollEnded] + (if Named(c.orientation) then [ScrollEnded] else [])
    else []
  }

  /**
   * The fling animateOpen and animateClose start always heads for the state
   * opposite the current one: animateOpen on an open drawer closes it from
   * rest, and animateClose on a closed drawer opens it.
   */
  lemma AnimateHeadsOpposite(c: Config, st: State, now: int)
    requires Named(c.orientation)
    ensures st.expanded ==>
      && AnimateOpened(c, st, now).anim.acceleration == Signed(-OpenSign(c.orientation), c.maxAcceleration)
      && AnimateOpened(c, st, now).anim.velocity == 0.0
    ensures !st.expanded ==>
      && AnimateClosed(c, st, now).anim.acceleration == Signed(OpenSign(c.orientation), c.maxAcceleration)
      && AnimateClosed(c, st, now).anim.velocity == 0.0
  {
  }

  /**
   * The events animateOpen and animateClose deliver, in order, from any state:
   * no pre-scroll call, the scroll start, the fling's scroll end (none for an
   * orientation the switch statements do not name) and their own scroll end.
   */
  lemma AnimateEventsInOrder(c: Config, st: State, now: int)
    ensures AnimateOpened(c, st, now).events == st.events + AnimateEvents(c, st)
    ensures AnimateClosed(c, st, now).events == st.events + AnimateEvents(c, st)
  {
    var s1 := st.(events := st.events + Heard(st.listeners.scroll, ScrollStarted));
    var start := Heard(st.listeners.scroll, ScrollStarted);
    var ended := Heard(st.listeners.scroll, ScrollEnded);
    var fling := if Named(c.orientation) then ended else [];
    assert AnimatedOpenAt(c, s1, s1.handlePos, now).events == st.events + start + fling;
    assert AnimatedCloseAt(c, s1, s1.handlePos, now).events == st.events + start + fling;
    assert start + fling + ended == AnimateEvents(c, st);
  }

  /** For the three named orientations the public animated open and close report the end of the scroll twice. */
  lemma AnimateEndsScrollTwice(c: Config, st: State, now: int)
    requires Named(c.orientation) && st.listeners.scroll
    ensures Count(AnimateOpened(c, st, now).events, ScrollEnded) == Count(st.events, ScrollEnded) + 2
    ensures Count(AnimateClosed(c, st, now).events, ScrollEnded) == Count(st.events, ScrollEnded) + 2
  {
    AnimateEventsInOrder(c, st, now);
    CountSnoc(st.events, ScrollStarted, ScrollEnded);
    CountSnoc(st.events + [ScrollStarted], ScrollEnded, ScrollEnded);
    CountSnoc(st.events + [ScrollStarted] + [ScrollEnded], ScrollEnded, ScrollEnded);
    assert st.events + AnimateEvents(c, st) == st.events + [ScrollStarted] + [ScrollEnded] + [ScrollEnded];
  }

  /** The arrival tests never hold together once the container is longer than one. */
  lemma ArrivalTestsExclusive(c: Config, p: real, g: Layout)
    requires 1 <= Extent(c, g)
    ensures !(WillOpen(c, p, g) && WillClose(c, p, g))
  {
  }

  /** Opening twice is opening once for a horizontal drawer; the open listener hears only of a real change. */
  lemma OpenIdempotent(c: Config, st: State)
    requires !c.Vertical()
    ensures Opened(c, Opened(c, st)) == Opened(c, st)
    ensures Count(Opened(c, st).events, DrawerOpened)
            == Count(st.events, DrawerOpened) + (if !st.expanded && st.listeners.open then 1 else 0)
  {
    var added := if st.expanded then [] else Heard(st.listeners.open, DrawerOpened);
    CountAppend(st.events, added, DrawerOpened);
    assert Count([DrawerOpened], DrawerOpened) == 1 by {
      assert [DrawerOpened][..0] == [];
    }
  }

  /** Closing is not idempotent in its notifications: every close reaches a registered close listener. */
  lemma CloseAlwaysNotifies(c: Config, st: State)
    requires st.listeners.close
    ensures Closed(c, Closed(c, st)).handlePos == Closed(c, st).handlePos
    ensures Count(Closed(c, Closed(c, st)).events, DrawerClosed) == Count(st.events, DrawerClosed) + 2
  {
    var s1 := Closed(c, st);
    assert s1.layout == st.layout;
    var once := [DrawerClosed];
    assert Heard(st.listeners.close, DrawerClosed) == once;
    assert s1.events == st.events + once;
    assert Closed(c, s1).events == s1.events + once;
    assert Count(once, DrawerClosed) == 1 by {
      assert once[..0] == [];
    }
    CountAppend(st.events, once, DrawerClosed);
    CountAppend(s1.events, once, DrawerClosed);
  }

  /**
   * A press with a close listener but no scroll listener throws after
   * tracking has been switched on, so a tick queued by a running animation
   * is left pending during a drag.
   */
  lemma PressWithoutScrollListenerThrows(c: Config, st: State, ev: Touch, velocity: real, now: int)
    requires !st.locked && ev.action == Down && !IgnoresPress(st, ev)
    requires st.listeners.close && !st.listeners.scroll
    ensures Touched(c, st, ev, velocity, now) == (NullPointerThrown, st.(tracking := true))
    ensures st.tickPending ==> !Inv(Touched(c, st, ev, velocity, now).1)
  {
  }

  /** A touch that is not a press, on a drawer that is not being dragged, closes it unless it is open and unlocked. */
  lemma IdleTouchCloses(c: Config, st: State, ev: Touch, velocity: real, now: int)
    requires !st.locked && ev.action != Down && !st.tracking && !st.animating
    requires st.contentLocked || !st.expanded
    requires st.listeners.close
    ensures Touched(c, st, ev, velocity, now).0 == Returned(false)
    ensures Count(Touched(c, st, ev, velocity, now).1.events, DrawerClosed) == Count(st.events, DrawerClosed) + 1
  {
    assert Count([DrawerClosed], DrawerClosed) == 1 by {
      assert [DrawerClosed][..0] == [];
    }
    CountAppend(st.events, [DrawerClosed], DrawerClosed);
  }

  /**
   * A release that counts as a tap animates toward the other state; any other
   * release flings with performFling's own choice of direction.
   */
  lemma ReleaseHeading(c: Config, st: State, velocity: real, now: int)
    requires Named(c.orientation)
    ensures
      var s := Released(c, st, velocity, now);
      var tap := Abs(velocity) < c.maxTapVelocity as real && SingleTapAt(c, st) && c.allowSingleTap;
      var commit := tap || FlingCommits(c, st.expanded, st.layout, st.handlePos, velocity, false);
      && s.animating && !s.tracking && s.tickPending && s.expanded == st.expanded
      && s.events == st.events + Heard(st.listeners.scroll, ScrollEnded)
      && s.anim.acceleration == Signed(Heading(c.orientation, st.expanded, commit), c.maxAcceleration)
  {
    var tap := Abs(velocity) < c.maxTapVelocity as real && SingleTapAt(c, st) && c.allowSingleTap;
    if tap {
      var s1 := TrackingPrepared(c, st, st.handlePos, now);
      assert s1.expanded == st.expanded;
    }
  }

  /** How many of the onScroll calls with distances `moves` forward events, starting from flags `f`. */
  function Forwards(f: ScrollFilter, moves: seq<(real, real)>): nat
    decreases |moves|
  {
    if |moves| == 0 then 0
    else
      var step := FilterStep(f, moves[0].0, moves[0].1);
      (if step.0 then 1 else 0) + Forwards(step.1, moves[1..])
  }

  /** The first scroll that counts as horizontal, if any. */
  function FirstHorizontal(moves: seq<(real, real)>): Option<(real, real)>
    decreases |moves|
  {
    if |moves| == 0 then None
    else if Horizontal(moves[0].0, moves[0].1) then Some(moves[0])
    else FirstHorizontal(moves[1..])
  }

  /** Once either flag is up, nothing more is forwarded until the next onDown. */
  lemma {:induction false} SettledFilterForwardsNothing(f: ScrollFilter, moves: seq<(real, real)>)
    requires f.started || f.filtered
    ensures Forwards(f, moves) == 0
    decreases |moves|
  {
    if |moves| > 0 {
      SettledFilterForwardsNothing(FilterStep(f, moves[0].0, moves[0].1).1, moves[1..]);
    }
  }

  /**
   * After onDown clears the flags, a gesture is forwarded at most once, and
   * it is forwarded exactly when its first horizontal scroll moves with a
   * positive horizontal distance.
   */
  lemma {:induction false} ForwardedAtMostOnce(moves: seq<(real, real)>)
    ensures Forwards(ScrollFilter(false, false), moves) <= 1
    ensures Forwards(ScrollFilter(false, false), moves) == 1 <==>
      FirstHorizontal(moves).Some? && FirstHorizontal(moves).value.0 > 0.0
    decreases |moves|
  {
    if |moves| > 0 {
      var step := FilterStep(ScrollFilter(false, false), moves[0].0, moves[0].1);
      if Horizontal(moves[0].0, moves[0].1) {
        SettledFilterForwardsNothing(step.1, moves[1..]);
      } else {
        ForwardedAtMostOnce(moves[1..]);
      }
    }
  }

  class SlidingDrawer {
    const cfg: Config

    var layout: Layout
    var handlePos: int
    var expanded: bool
    var tracking: bool
    var animating: bool
    var locked: bool
    var contentLocked: bool
    var touchDelta: int
    var anim: Motion
    var animLastTime: int
    var currentAnimTime: int
    var tickPending: bool
    var listeners: Listeners
    var gesture: ScrollFilter
    ghost var events: seq<Event>

    ghost function S(): State
      reads this
    {
      State(layout, handlePos, expanded, tracking, animating, locked, contentLocked, touchDelta,
            anim, animLastTime, currentAnimTime, tickPending, listeners, gesture, events)
    }

    ghost predicate Valid()
      reads this
    {
      ValidConfig(cfg) && Inv(S())
    }

    constructor(config: Config, handleId: int, contentId: int)
      requires Validate(config.orientation, handleId, contentId) == None
      ensures Valid()
      ensures cfg == config && S() == Initial()
    {
      cfg := config;
      layout := Layout(0, 0, 0, 0, 0, 0);
      handlePos := 0;
      expanded, tracking, animating, locked, contentLocked := false, false, false, false, false;
      touchDelta := 0;
      anim := Motion(0.0, 0.0, 0.0);
      animLastTime, currentAnimTime, tickPending := 0, 0, false;
      listeners := Listeners(false, false, false);
      gesture := ScrollFilter(false, false);
      events := [];
    }

    method SetOnDrawerOpenListener(registered: bool)
      modifies this
      ensures S() == old(S()).(listeners := old(listeners).(open := registered))
    {
      listeners := listeners.(open := registered);
    }

    method SetOnDrawerCloseListener(registered: bool)
      modifies this
      ensures S() == old(S()).(listeners := old(listeners).(close := registered))
    {
      listeners := listeners.(close := registered);
    }

    method SetOnDrawerScrollListener(registered: bool)
      modifies this
      ensures S() == old(S()).(listeners := old(listeners).(scroll := registered))
    {
      listeners := listeners.(scroll := registered);
    }

    method Unlock()
      modifies this
      ensures S() == old(S()).(locked := false)
    {
      locked := false;
    }

    method Lock()
      modifies this
      ensures S() == old(S()).(locked := true)
    {
      locked := true;
    }

    method LockContent()
      modifies this
      ensures S() == old(S()).(contentLocked := true)
    {
      contentLocked := true;
    }

    method UnlockContent()
      modifies this
      ensures S() == old(S()).(contentLocked := false)
    {
      contentLocked := false;
    }

    function IsOpened(): bool
      reads this
    {
      expanded
    }

    function IsMoving(): bool
      reads this
    {
      tracking || animating
    }

    method MoveHandle(position: int)
      modifies this
      ensures S() == Moved(cfg, old(S()), position)
    {
      if cfg.Vertical() {
        var top := handlePos;
        if position == EXPANDED_FULL_OPEN {
          handlePos := handlePos + top;
        } else if position == COLLAPSED_FULL_CLOSED {
          handlePos := handlePos + (layout.height - layout.handleHeight - top);
        } else {
          var deltaY := position - top;
          if position < 0 {
            deltaY := -top;
          } else if deltaY > layout.height - layout.handleHeight - top {
            deltaY := layout.height - layout.handleHeight - top;
          }
          handlePos := handlePos + deltaY;
        }
      } else {
        var leftHalfOffset := -handlePos;
        var rightHalfOffset := layout.width - layout.handleWidth - handlePos;
        if position == EXPANDED_FULL_OPEN {
          handlePos := handlePos + if cfg.orientation == LEFT_TO_RIGHT then rightHalfOffset else leftHalfOffset;
        } else if position == COLLAPSED_FULL_CLOSED {
          handlePos := handlePos + if cfg.orientation == LEFT_TO_RIGHT then leftHalfOffset else rightHalfOffset;
        } else {
          var deltaX := position - handlePos;
          if position < 0 {
            deltaX := leftHalfOffset;
          } else if deltaX > rightHalfOffset {
            deltaX := rightHalfOffset;
          }
          handlePos := handlePos + deltaX;
        }
      }
    }

    method CloseDrawer()
      modifies this
      ensures S() == Closed(cfg, old(S()))
    {
      MoveHandle(COLLAPSED_FULL_CLOSED);
      expanded := false;
      events := events + Heard(listeners.close, DrawerClosed);
    }

    method OpenDrawer()
      modifies this
      ensures S() == Opened(cfg, old(S()))
    {
      MoveHandle(EXPANDED_FULL_OPEN);
      if expanded {
        return;
      }
      expanded := true;
      events := events + Heard(listeners.open, DrawerOpened);
    }

    method Toggle()
      requires Valid()
      modifies this
      ensures Valid()
      ensures S() == Toggled(cfg, old(S()))
    {
      if !expanded {
        OpenDrawer();
      } else {
        CloseDrawer();
      }
    }

    method Open()
      requires Valid()
      modifies this
      ensures Valid()
      ensures S() == Opened(cfg, old(S()))
    {
      OpenDrawer();
    }

    method Close()
      requires Valid()
      modifies this
      ensures Valid()
      ensures S() == Closed(cfg, old(S()))
    {
      CloseDrawer();
    }

    method StopTracking()
      modifies this
      ensures S() == TrackingStopped(old(S()))
    {
      tracking := false;
      events := events + Heard(listeners.scroll, ScrollEnded);
    }

    /**
     * The animation clock restarts at `now`: the handle animates, its next
     * frame falls one frame duration later, and a tick is queued or not.
     */
    method ResetFrameTime(now: int, queueTick: bool)
      modifies this
      ensures S() == old(S()).(animLastTime := now, currentAnimTime := now + FRAME_DURATION, animating := true,
                               tickPending := queueTick)
    {
      animLastTime := now;
      currentAnimTime := now + FRAME_DURATION;
      animating := true;
      tickPending := queueTick;
    }

    method PrepareTracking(position: int, now: int)
      modifies this
      ensures S() == TrackingPrepared(cfg, old(S()), position, now)
    {
      ghost var st := S();
      tracking := true;
      if !expanded {
        anim := CollapsedMotion(cfg, anim, layout);
        ghost var s0 := S();
        assert s0 == st.(tracking := true, anim := CollapsedMotion(cfg, st.anim, st.layout));
        MoveHandle(Trunc(anim.position));
        ResetFrameTime(now, false);
      } else {
        if animating {
          animating := false;
          tickPending := false;
        }
        assert S() == if st.animating then st.(tracking := true, animating := false, tickPending := false)
                      else st.(tracking := true);
        MoveHandle(position);
      }
    }

    method PerformFling(position: int, velocity: real, autoAnimated: bool, now: int)
      modifies this
      ensures S() == Flung(cfg, old(S()), position, velocity, autoAnimated, now)
    {
      ghost var st := S();
      var criticalPoint := RollbackPoint(cfg, expanded, layout);
      var commit := autoAnimated
        || WillOnFling(cfg.orientation, expanded, velocity, cfg.maxMajorVelocity)
        || !WillRollback(cfg.orientation, expanded, position, criticalPoint);
      var plan := FlingTable(cfg.orientation, expanded, commit, velocity, cfg.maxAcceleration);
      anim := Motion(position as real, plan.1, plan.0);
      ResetFrameTime(now, true);
      assert anim == FlingMotion(cfg, st.expanded, st.layout, position, velocity, autoAnimated);
      StopTracking();
    }

    method AnimateCloseAt(position: int, now: int)
      modifies this
      ensures S() == AnimatedCloseAt(cfg, old(S()), position, now)
    {
      PrepareTracking(position, now);
      var a := cfg.maxAcceleration as real;
      var o := cfg.orientation;
      if o == BOTTOM_UP {
        PerformFling(position, a, true, now);
      } else if o == LEFT_TO_RIGHT {
        PerformFling(position, -a, true, now);
      } else if o == RIGHT_TO_LEFT {
        PerformFling(position, a, true, now);
      }
    }

    method AnimateOpenAt(position: int, now: int)
      modifies this
      ensures S() == AnimatedOpenAt(cfg, old(S()), position, now)
    {
      PrepareTracking(position, now);
      var a := cfg.maxAcceleration as real;
      var o := cfg.orientation;
      if o == BOTTOM_UP {
        PerformFling(position, -a, true, now);
      } else if o == LEFT_TO_RIGHT {
        PerformFling(position, a, true, now);
      } else if o == RIGHT_TO_LEFT {
        PerformFling(position, -a, true, now);
      }
    }

    method AnimateClose(now: int)
      requires Valid()
      modifies this
      ensures Valid()
      ensures S() == AnimateClosed(cfg, old(S()), now)
    {
      ghost var s0 := S();
      var scrollListener := listeners.scroll;
      events := events + Heard(scrollListener, ScrollStarted);
      ghost var s1 := S();
      assert s1 == s0.(events := s0.events + Heard(s0.listeners.scroll, ScrollStarted));
      AnimateCloseAt(handlePos, now);
      assert S() == AnimatedCloseAt(cfg, s1, s1.handlePos, now);
      events := events + Heard(scrollListener, ScrollEnded);
    }

    method AnimateOpen(now: int)
      requires Valid()
      modifies this
      ensures Valid()
      ensures S() == AnimateOpened(cfg, old(S()), now)
    {
      ghost var s0 := S();
      var scrollListener := listeners.scroll;
      events := events + Heard(scrollListener, ScrollStarted);
      ghost var s1 := S();
      assert s1 == s0.(events := s0.events + Heard(s0.listeners.scroll, ScrollStarted));
      AnimateOpenAt(handlePos, now);
      assert S() == AnimatedOpenAt(cfg, s1, s1.handlePos, now);
      events := events + Heard(scrollListener, ScrollEnded);
    }

    method AnimateToggle(now: int)
      requires Valid()
      modifies this
      ensures Valid()
      ensures S() == AnimateToggled(cfg, old(S()), now)
    {
      if !expanded {
        AnimateOpen(now);
      } else {
        AnimateClose(now);
      }
    }

    method OnLayout(l: int, t: int, r: int, b: int, childWidth: int, childHeight: int)
      requires Valid()
      modifies this
      ensures Valid()
      ensures S() == LaidOut(cfg, old(S()), l, t, r, b, childWidth, childHeight)
    {
      layout := layout.(left := l, top := t, width := r - l, height := b - t);
      if tracking {
        return;
      }
      handlePos := LayoutEdge(cfg, expanded, layout.width, layout.height, childWidth, childHeight);
      layout := layout.(handleWidth := childWidth, handleHeight := childHeight);
    }

    /**
     * The part of a press before prepareTracking: the drawer starts tracking,
     * the listeners hear of the start, and the grab point is recorded.  With a
     * close listener but no scroll listener the call throws first.
     */
    method Grab(grab: int) returns (thrown: bool)
      modifies this
      ensures thrown <==> old(listeners.close) && !old(listeners.scroll)
      ensures thrown ==> S() == old(S()).(tracking := true)
      ensures !thrown ==> S() == Grabbed(old(S()), grab)
    {
      tracking := true;
      if listeners.close && !listeners.scroll {
        return true;
      }
      events := events + StartEvents(listeners);
      touchDelta := grab - handlePos;
      return false;
    }

    /** The ACTION_DOWN branch of onTouchEvent past the hit test; `thrown` reports the pre-scroll call's exception. */
    method Press(ev: Touch, now: int) returns (thrown: bool)
      modifies this
      ensures (thrown, S()) == Pressed(cfg, old(S()), ev, now)
    {
      thrown := Grab(GrabPoint(cfg, ev));
      if !thrown {
        PrepareTracking(handlePos, now);
      }
    }

    /** The end of onTouchEvent. */
    method Finish() returns (r: Outcome)
      modifies this
      ensures (r, S()) == Finished(cfg, old(S()))
    {
      if tracking || animating || (!contentLocked && expanded) {
        return Returned(true);
      }
      CloseDrawer();
      return Returned(false);
    }

    method OnTouchEvent(ev: Touch, vx: real, vy: real, magnitude: real, now: int) returns (r: Outcome)
      requires Valid()
      requires IsHypot(Major(vx, vy, cfg.Vertical()), ClampedMinor(vx, vy, cfg.Vertical(), cfg.maxMinorVelocity), magnitude)
      modifies this
      ensures r != NullPointerThrown ==> Valid()
      ensures (r, S()) ==
        Touched(cfg, old(S()), ev, ComputeVelocity(vx, vy, cfg.Vertical(), cfg.maxMinorVelocity, magnitude), now)
    {
      if locked {
        return Returned(true);
      }
      if ev.action == Down {
        if !tracking && (contentLocked || !expanded) && !ev.hit {
          return Returned(false);
        }
        var thrown := Press(ev, now);
        if thrown {
          return NullPointerThrown;
        }
      } else if tracking {
        if ev.action == Move {
          MoveHandle(Trunc(if cfg.Vertical() then ev.y else ev.x) - touchDelta);
        } else if ev.action == Up || ev.action == Cancel {
          var velocity := ComputeVelocity(vx, vy, cfg.Vertical(), cfg.maxMinorVelocity, magnitude);
          var position := handlePos;
          if Abs(velocity) < cfg.maxTapVelocity as real && IsSingleTap(cfg, expanded, handlePos, layout)
             && cfg.allowSingleTap {
            if expanded {
              AnimateCloseAt(position, now);
            } else {
              AnimateOpenAt(position, now);
            }
          } else {
            PerformFling(position, velocity, false, now);
          }
        }
      }
      r := Finish();
    }

    /** The collapse-gesture listener's onDown. */
    method OnDown() returns (r: bool)
      modifies this
      ensures !r && S() == old(S()).(gesture := ScrollFilter(false, false))
    {
      gesture := gesture.(filtered := false, started := false);
      return false;
    }

    /** The collapse-gesture listener's onScroll, forwarding to onTouchEvent. */
    method OnScroll(e1: Touch, e2: Touch, dx: real, dy: real, vx: real, vy: real, magnitude: real, now: int)
      returns (r: Outcome)
      requires Valid()
      requires IsHypot(Major(vx, vy, cfg.Vertical()), ClampedMinor(vx, vy, cfg.Vertical(), cfg.maxMinorVelocity), magnitude)
      modifies this
      ensures r != NullPointerThrown ==> Valid()
      ensures (r, S()) ==
        Scrolled(cfg, old(S()), e1, e2, dx, dy, ComputeVelocity(vx, vy, cfg.Vertical(), cfg.maxMinorVelocity, magnitude), now)
    {
      if Abs(dy * 4.0) > Abs(dx) {
        return Returned(false);
      }
      if !gesture.started && dx > 0.0 {
        gesture := gesture.(started := true);
        if !gesture.filtered {
          var first := OnTouchEvent(e1, vx, vy, magnitude, now);
          if first == NullPointerThrown {
            return NullPointerThrown;
          }
        }
      } else {
        gesture := gesture.(filtered := true);
      }
      if !gesture.filtered && gesture.started {
        r := OnTouchEvent(e2, vx, vy, magnitude, now);
      } else {
        r := Returned(false);
      }
    }

    /** onInterceptTouchEvent, given the callback the gesture detector makes for this event. */
    method OnInterceptTouchEvent(g: Gesture, vx: real, vy: real, magnitude: real, now: int) returns (r: Outcome)
      requires Valid()
      requires IsHypot(Major(vx, vy, cfg.Vertical()), ClampedMinor(vx, vy, cfg.Vertical(), cfg.maxMinorVelocity), magnitude)
      modifies this
      ensures r != NullPointerThrown ==> Valid()
      ensures (r, S()) ==
        Intercepted(cfg, old(S()), g, ComputeVelocity(vx, vy, cfg.Vertical(), cfg.maxMinorVelocity, magnitude), now)
    {
      if locked {
        return Returned(false);
      }
      if expanded {
        match g {
          case NoGesture =>
          case DownGesture =>
            var _ := OnDown();
          case ScrollGesture(e1, e2, dx, dy) =>
            var handled := OnScroll(e1, e2, dx, dy, vx, vy, magnitude, now);
            if handled != Returned(false) {
              return handled;
            }
        }
      }
      return Returned(false);
    }

    /** A click on the handle: DrawerToggler, when onFinishInflate attached it. */
    method OnHandleClick(now: int)
      requires Valid()
      modifies this
      ensures Valid()
      ensures S() == Clicked(cfg, old(S()), now)
    {
      if !cfg.animateOnClick || locked {
        return;
      }
      AnimateToggle(now);
    }

    method IncrementAnimation(now: int)
      modifies this
      ensures S() == Incremented(old(S()), now)
    {
      var t := Seconds(animLastTime, now);
      anim := Advance(anim, t);
      animLastTime := now;
    }

    /** The handler delivers the queued animation message at `now` (doAnimation). */
    method HandleAnimationMessage(now: int)
      requires Valid() && tickPending && currentAnimTime <= now && animLastTime <= now
      modifies this
      ensures Valid()
      ensures S() == Ticked(cfg, old(S()), now)
    {
      tickPending := false;
      if animating {
        IncrementAnimation(now);
        if WillOpen(cfg, anim.position, layout) {
          animating := false;
          OpenDrawer();
        } else if WillClose(cfg, anim.position, layout) {
          animating := false;
          CloseDrawer();
        } else {
          MoveHandle(Trunc(anim.position));
          currentAnimTime := currentAnimTime + FRAME_DURATION;
          tickPending := true;
        }
      }
    }
  }
}

=== FILE: kinematics.dfy ===
/**
 * The handle animation shared by the AOSP-derived and the gesture-filtered
 * drawers: constant-acceleration motion advanced once per tick
 * (incrementAnimation), and the decision performFling takes about where the
 * animation heads and how it starts.
 */
module Kinematics {
  import opened DrawerCommon

  /** Animation position (pixels), velocity (pixels/s) and acceleration (pixels/s²). */
  datatype Motion = Motion(position: real, velocity: real, acceleration: real)

  /** Seconds between two clock readings in milliseconds. */
  function Seconds(from: int, to: int): (s: real)
    ensures from <= to ==> 0.0 <= s
  {
    (to - from) as real / 1000.0
  }

  /** One step of incrementAnimation: uniformly accelerated motion over `t` seconds. */
  function Advance(m: Motion, t: real): (r: Motion)
    ensures r.acceleration == m.acceleration
  {
    Motion(m.position + m.velocity * t + m.acceleration * t * t / 2.0,
           m.velocity + m.acceleration * t,
           m.acceleration)
  }

  /** The velocity does not point against the acceleration. */
  predicate Agrees(m: Motion) {
    (0.0 <= m.velocity && 0.0 <= m.acceleration) || (m.velocity <= 0.0 && m.acceleration <= 0.0)
  }

  lemma NonNegativeProduct(a: real, b: real)
    requires 0.0 <= a && 0.0 <= b
    ensures 0.0 <= a * b
  {
  }

  /**
   * Once the velocity agrees with the acceleration, every later step keeps it
   * so, and the handle moves monotonically in the direction of the acceleration.
   */
  lemma AdvanceMonotone(m: Motion, t: real)
    requires 0.0 <= t && Agrees(m)
    ensures Agrees(Advance(m, t))
    ensures 0.0 < m.acceleration ==> m.position <= Advance(m, t).position
    ensures m.acceleration < 0.0 ==> Advance(m, t).position <= m.position
  {
    var v, a := m.velocity, m.acceleration;
    if 0.0 <= v && 0.0 <= a {
      NonNegativeProduct(v, t);
      NonNegativeProduct(a, t);
      NonNegativeProduct(a * t, t);
    }
    if v <= 0.0 && a <= 0.0 {
      NonNegativeProduct(-v, t);
      NonNegativeProduct(-a, t);
      NonNegativeProduct(-a * t, t);
      assert (-v) * t == -(v * t);
      assert (-a) * t == -(a * t);
      assert (-a) * t * t == -(a * t * t);
    }
  }

  lemma PositionSum(p: real, v: real, a: real, t1: real, t2: real)
    ensures (p + v * t1 + a * t1 * t1 / 2.0) + (v + a * t1) * t2 + a * t2 * t2 / 2.0
            == p + v * (t1 + t2) + a * (t1 + t2) * (t1 + t2) / 2.0
  {
  }

  lemma VelocitySum(v: real, a: real, t1: real, t2: real)
    ensures (v + a * t1) + a * t2 == v + a * (t1 + t2)
  {
  }

  /** Two steps land where one step over the summed interval lands. */
  lemma AdvanceCompose(m: Motion, t1: real, t2: real)
    ensures Advance(Advance(m, t1), t2) == Advance(m, t1 + t2)
  {
    var p, v, a := m.position, m.velocity, m.acceleration;
    var m1 := Advance(m, t1);
    assert m1 == Motion(p + v * t1 + a * t1 * t1 / 2.0, v + a * t1, a);
    var m2 := Advance(m1, t2);
    assert m2.position == (p + v * t1 + a * t1 * t1 / 2.0) + (v + a * t1) * t2 + a * t2 * t2 / 2.0;
    assert m2.velocity == (v + a * t1) + a * t2;
    PositionSum(p, v, a, t1, t2);
    VelocitySum(v, a, t1, t2);
  }

  /** The motion after ticks at the clock readings `times`, the previous tick having been at `last`. */
  function Run(m: Motion, last: int, times: seq<int>): Motion
    decreases |times|
  {
    if |times| == 0 then m
    else Run(Advance(m, Seconds(last, times[0])), times[0], times[1..])
  }

  /**
   * However the ticks fall, the animation is where the closed-form equation
   * of uniformly accelerated motion puts it at the time of the last tick.
   */
  lemma {:induction false} RunIsClosedForm(m: Motion, last: int, times: seq<int>)
    requires |times| > 0
    ensures Run(m, last, times) == Advance(m, Seconds(last, times[|times| - 1]))
    decreases |times|
  {
    var m1 := Advance(m, Seconds(last, times[0]));
    if |times| > 1 {
      RunIsClosedForm(m1, times[0], times[1..]);
      AdvanceCompose(m, Seconds(last, times[0]), Seconds(times[0], times[|times| - 1]));
      assert Seconds(last, times[0]) + Seconds(times[0], times[|times| - 1]) == Seconds(last, times[|times| - 1]);
    }
  }

  // ---- performFling's decision ----

  /** The orientations whose coordinate grows while the drawer opens. */
  predicate Inverted(o: int) {
    o == LEFT_TO_RIGHT || o == TOP_DOWN
  }

  /** +1 when opening increases the handle coordinate, -1 otherwise. */
  function OpenSign(o: int): int {
    if Inverted(o) then 1 else -1
  }

  /** The sign of motion toward the state opposite to the current one. */
  function ToggleSign(o: int, expanded: bool): int {
    if expanded then -OpenSign(o) else OpenSign(o)
  }

  /** `magnitude` pointed in the direction of `sign`. */
  function Signed(sign: int, magnitude: nat): real {
    if sign < 0 then -(magnitude as real) else magnitude as real
  }

  /** A release fast enough, in the direction of the opposite state, to count as a fling. */
  function WillOnFling(o: int, expanded: bool, velocity: real, maxMajor: nat): (r: bool)
    ensures r <==> if ToggleSign(o, expanded) > 0 then velocity > maxMajor as real else velocity < -(maxMajor as real)
  {
    var inverted := Inverted(o);
    if expanded then
      if inverted then velocity < -(maxMajor as real) else velocity > maxMajor as real
    else
      if !inverted then velocity < -(maxMajor as real) else velocity > maxMajor as real
  }

  /** The handle has not yet passed the critical point on its way to the opposite state. */
  function WillRollback(o: int, expanded: bool, position: int, criticalPoint: int): (r: bool)
    ensures r <==> if ToggleSign(o, expanded) > 0 then position < criticalPoint else position > criticalPoint
  {
    var inverted := Inverted(o);
    if expanded then
      if inverted then position > criticalPoint else position < criticalPoint
    else
      if !inverted then position > criticalPoint else position < criticalPoint
  }

  /** The sign of the acceleration: toward the opposite state when the fling commits, back otherwise. */
  function Heading(o: int, expanded: bool, commit: bool): (sign: int)
    ensures sign == 1 || sign == -1
  {
    if commit then ToggleSign(o, expanded) else -ToggleSign(o, expanded)
  }

  /**
   * The acceleration and initial velocity performFling sets: full acceleration
   * toward the chosen state, and a release velocity that is kept unless it
   * points the other way, in which case the animation starts from rest.
   */
  function FlingTable(o: int, expanded: bool, commit: bool, velocity: real, maxAcceleration: nat): (r: (real, real))
    ensures r.0 == Signed(Heading(o, expanded, commit), maxAcceleration)
    ensures r.1 == if (Heading(o, expanded, commit) > 0 && velocity < 0.0) || (Heading(o, expanded, commit) < 0 && velocity > 0.0)
                   then 0.0 else velocity
    ensures Agrees(Motion(0.0, r.1, r.0))
  {
    var inverted := Inverted(o);
    var maxAcc := maxAcceleration as real;
    var (acceleration, zeroWhenPositive) :=
      if expanded then
        if commit then (if inverted then (-maxAcc, true) else (maxAcc, false))
        else (if inverted then (maxAcc, false) else (-maxAcc, true))
      else
        if commit then (if !inverted then (-maxAcc, true) else (maxAcc, false))
        else (if !inverted then (maxAcc, false) else (-maxAcc, true));
    var start :=
      if zeroWhenPositive then (if velocity > 0.0 then 0.0 else velocity)
      else (if velocity < 0.0 then 0.0 else velocity);
    (acceleration, start)
  }
}

=== FILE: orientation_bits.dfy ===
/**
 * The orientation attribute test, as the drawers compute it: print the value
 * with Integer.toBinaryString, reject anything longer than four digits, and
 * accept when String.split on "0" leaves exactly one piece.  Java's split
 * drops trailing empty pieces, so a value passes exactly when its binary form
 * is a run of ones followed by a run of zeros.
 */
module OrientationBits {
  import opened DrawerCommon

  /** The number a string of binary digits denotes, most significant first. */
  function Value(s: string): nat
    decreases |s|
  {
    if |s| == 0 then 0 else 2 * Value(s[..|s| - 1]) + (if s[|s| - 1] == '1' then 1 else 0)
  }

  /** A non-empty string of binary digits with no leading zero other than "0" itself. */
  predicate IsBinaryNumeral(s: string) {
    && |s| >= 1
    && (forall i :: 0 <= i < |s| ==> s[i] == '0' || s[i] == '1')
    && (s[0] == '0' ==> s == "0")
  }

  /** Binary digits of `n`, most significant first, with no leading zero ("0" for zero). */
  function Binary(n: nat): (s: string)
    ensures |s| >= 1
    decreases n
  {
    if n < 2 then [if n == 0 then '0' else '1']
    else Binary(n / 2) + [if n % 2 == 0 then '0' else '1']
  }

  /** Binary(n) is a numeral with no leading zero, and it denotes n. */
  lemma {:induction false} BinaryDenotes(n: nat)
    ensures IsBinaryNumeral(Binary(n)) && Value(Binary(n)) == n
    decreases n
  {
    if n >= 2 {
      BinaryDenotes(n / 2);
      var front := Binary(n / 2);
      var digit := if n % 2 == 0 then '0' else '1';
      var s := Binary(n);
      assert s == front + [digit];
      assert s[..|s| - 1] == front;
      assert Value(s) == 2 * (n / 2) + n % 2;
      assert forall i :: 0 <= i < |front| ==> s[i] == front[i];
    }
  }

  /** Integer.toBinaryString: a negative value is printed as its 32-bit two's complement. */
  function ToBinaryString(o: Int32): (s: string)
    ensures |s| >= 1
  {
    if o >= 0 then Binary(o) else Binary(o + 0x1_0000_0000)
  }

  /** The digits Integer.toBinaryString prints denote the value's 32-bit pattern. */
  lemma ToBinaryStringDenotes(o: Int32)
    ensures IsBinaryNumeral(ToBinaryString(o))
    ensures Value(ToBinaryString(o)) == if o >= 0 then o as int else o as int + 0x1_0000_0000
  {
    BinaryDenotes(if o >= 0 then o as int else o as int + 0x1_0000_0000);
  }

  /** The pieces with `sep` put back between each two neighbours. */
  function Join(parts: seq<string>, sep: char): string
    requires |parts| >= 1
    decreases |parts|
  {
    if |parts| == 1 then parts[0] else parts[0] + [sep] + Join(parts[1..], sep)
  }

  /** Every piece between occurrences of `sep`, empty pieces included. */
  function SplitAll(s: string, sep: char): (parts: seq<string>)
    ensures |parts| >= 1
    decreases |s|
  {
    if |s| == 0 then [""]
    else
      var rest := SplitAll(s[1..], sep);
      if s[0] == sep then [""] + rest
      else [[s[0]] + rest[0]] + rest[1..]
  }

  /** The pieces contain no separator, and joined back with it they give the string split. */
  lemma {:induction false} SplitRejoins(s: string, sep: char)
    ensures Join(SplitAll(s, sep), sep) == s
    ensures forall i :: 0 <= i < |SplitAll(s, sep)| ==> sep !in SplitAll(s, sep)[i]
    decreases |s|
  {
    if |s| > 0 {
      var rest := SplitAll(s[1..], sep);
      SplitRejoins(s[1..], sep);
      var parts := SplitAll(s, sep);
      if s[0] == sep {
        assert parts == [""] + rest;
        assert parts[1..] == rest;
      } else {
        assert parts == [[s[0]] + rest[0]] + rest[1..];
        assert parts[1..] == rest[1..];
        assert |rest| > 1 ==> Join(rest, sep) == rest[0] + [sep] + Join(rest[1..], sep);
        assert s == [s[0]] + s[1..];
      }
    }
  }

  /** String.split with limit zero removes the empty pieces at the end. */
  function DropTrailingEmpty(parts: seq<string>): (r: seq<string>)
    ensures |r| <= |parts| && r == parts[..|r|]
    ensures forall i :: |r| <= i < |parts| ==> parts[i] == ""
    ensures |r| > 0 ==> r[|r| - 1] != ""
    decreases |parts|
  {
    if |parts| == 0 then []
    else if parts[|parts| - 1] == "" then DropTrailingEmpty(parts[..|parts| - 1])
    else parts
  }

  /** The acceptance test both drawers compute before deciding whether to throw. */
  predicate IsFlagRun(o: Int32) {
    var bits := ToBinaryString(o);
    |bits| <= 4 && |DropTrailingEmpty(SplitAll(bits, '0'))| == 1
  }

  function Pow2(k: nat): (p: nat)
    ensures p >= 1
  {
    if k == 0 then 1 else 2 * Pow2(k - 1)
  }

  lemma {:induction false} BinaryLength(n: nat, k: nat)
    requires n >= Pow2(k)
    ensures |Binary(n)| > k
    decreases k
  {
    if k > 0 {
      BinaryLength(n / 2, k - 1);
    }
  }

  lemma SplitOne(c: char, t: string)
    ensures SplitAll([c] + t, '0') ==
      var rest := SplitAll(t, '0');
      if c == '0' then [""] + rest else [[c] + rest[0]] + rest[1..]
  {
    assert ([c] + t)[1..] == t;
  }

  lemma SplitSingle(c: char)
    ensures SplitAll([c], '0') == if c == '0' then ["", ""] else [[c]]
  {
    SplitOne(c, "");
    assert [c] + "" == [c];
    var rest := SplitAll("", '0');
    assert rest[1..] == [];
  }

  lemma BitsOf0()
    ensures !IsFlagRun(0)
  {
    assert Binary(0) == "0";
    SplitSingle('0');
    assert SplitAll("0", '0') == ["", ""];
    assert ["", ""][..1] == [""];
  }

  lemma BitsOf1()
    ensures IsFlagRun(1)
  {
    assert ['1'] + "" == "1";
    assert Binary(1) == "1";
    SplitSingle('1');
    assert SplitAll("1", '0') == ["1"];
  }

  lemma BitsOf2()
    ensures IsFlagRun(2)
  {
    assert ['1'] + "" == "1";
    assert Binary(2) == "10";
    SplitSingle('0');
    SplitOne('1', "0");
    assert SplitAll("10", '0') == ["1", ""];
    assert ["1", ""][..1] == ["1"];
  }

  lemma BitsOf3()
    ensures IsFlagRun(3)
  {
    assert ['1'] + "" == "1";
    assert ['1'] + "1" == "11";
    assert Binary(3) == "11";
    SplitSingle('1');
    SplitOne('1', "1");
    assert SplitAll("11", '0') == ["11"];
  }

  lemma BitsOf4()
    ensures IsFlagRun(4)
  {
    assert ['1'] + "" == "1";
    assert Binary(4) == "100";
    SplitSingle('0');
    SplitOne('0', "0");
    SplitOne('1', "00");
    assert SplitAll("100", '0') == ["1", "", ""];
    assert ["1", "", ""][..2] == ["1", ""];
    assert ["1", ""][..1] == ["1"];
  }

  lemma BitsOf5()
    ensures !IsFlagRun(5)
  {
    assert ['1'] + "" == "1";
    assert Binary(5) == "101";
    SplitSingle('1');
    SplitOne('0', "1");
    SplitOne('1', "01");
    assert SplitAll("101", '0') == ["1", "1"];
  }

  lemma BitsOf6()
    ensures IsFlagRun(6)
  {
    assert ['1'] + "" == "1";
    assert ['1'] + "1" == "11";
    assert Binary(6) == "110";
    SplitSingle('0');
    SplitOne('1', "0");
    SplitOne('1', "10");
    assert SplitAll("110", '0') == ["11", ""];
    assert ["11", ""][..1] == ["11"];
  }

  lemma BitsOf7()
    ensures IsFlagRun(7)
  {
    assert ['1'] + "" == "1";
    assert ['1'] + "1" == "11";
    assert ['1'] + "11" == "111";
    assert Binary(7) == "111";
    SplitSingle('1');
    SplitOne('1', "1");
    SplitOne('1', "11");
    assert SplitAll("111", '0') == ["111"];
  }

  lemma BitsOf8()
    ensures IsFlagRun(8)
  {
    assert ['1'] + "" == "1";
    assert Binary(8) == "1000";
    SplitSingle('0');
    SplitOne('0', "0");
    SplitOne('0', "00");
    SplitOne('1', "000");
    assert SplitAll("1000", '0') == ["1", "", "", ""];
    assert ["1", "", "", ""][..3] == ["1", "", ""];
    assert ["1", "", ""][..2] == ["1", ""];
    assert ["1", ""][..1] == ["1"];
  }

  lemma BitsOf9()
    ensures !IsFlagRun(9)
  {
    assert ['1'] + "" == "1";
    assert Binary(9) == "1001";
    SplitSingle('1');
    SplitOne('0', "1");
    SplitOne('0', "01");
    SplitOne('1', "001");
    assert SplitAll("1001", '0') == ["1", "", "1"];
  }

  lemma BitsOf10()
    ensures !IsFlagRun(10)
  {
    assert ['1'] + "" == "1";
    assert Binary(10) == "1010";
    SplitSingle('0');
    SplitOne('1', "0");
    SplitOne('0', "10");
    SplitOne('1', "010");
    assert SplitAll("1010", '0') == ["1", "1", ""];
    assert ["1", "1", ""][..2] == ["1", "1"];
  }

  lemma BitsOf11()
    ensures !IsFlagRun(11)
  {
    assert ['1'] + "" == "1";
    assert ['1'] + "1" == "11";
    assert Binary(11) == "1011";
    SplitSingle('1');
    SplitOne('1', "1");
    SplitOne('0', "11");
    SplitOne('1', "011");
    assert SplitAll("1011", '0') == ["1", "11"];
  }

  lemma BitsOf12()
    ensures IsFlagRun(12)
  {
    assert ['1'] + "" == "1";
    assert ['1'] + "1" == "11";
    assert Binary(12) == "1100";
    SplitSingle('0');
    SplitOne('0', "0");
    SplitOne('1', "00");
    SplitOne('1', "100");
    assert SplitAll("1100", '0') == ["11", "", ""];
    assert ["11", "", ""][..2] == ["11", ""];
    assert ["11", ""][..1] == ["11"];
  }

  lemma BitsOf13()
    ensures !IsFlagRun(13)
  {
    assert ['1'] + "" == "1";
    assert ['1'] + "1" == "11";
    assert Binary(13) == "1101";
    SplitSingle('1');
    SplitOne('0', "1");
    SplitOne('1', "01");
    SplitOne('1', "101");
    assert SplitAll("1101", '0') == ["11", "1"];
  }

  lemma BitsOf14()
    ensures IsFlagRun(14)
  {
    assert ['1'] + "" == "1";
    assert ['1'] + "1" == "11";
    assert ['1'] + "11" == "111";
    assert Binary(14) == "1110";
    SplitSingle('0');
    SplitOne('1', "0");
    SplitOne('1', "10");
    SplitOne('1', "110");
    assert SplitAll("1110", '0') == ["111", ""];
    assert ["111", ""][..1] == ["111"];
  }

  lemma BitsOf15()
    ensures IsFlagRun(15)
  {
    assert ['1'] + "" == "1";
    assert ['1'] + "1" == "11";
    assert ['1'] + "11" == "111";
    assert ['1'] + "111" == "1111";
    assert Binary(15) == "1111";
    SplitSingle('1');
    SplitOne('1', "1");
    SplitOne('1', "11");
    SplitOne('1', "111");
    assert SplitAll("1111", '0') == ["1111"];
  }

  /** The values the test accepts: exactly those whose binary form is ones followed by zeros, within four digits. */
  lemma FlagRunValues(o: Int32)
    ensures IsFlagRun(o) <==> o in {1, 2, 3, 4, 6, 7, 8, 12, 14, 15}
  {
    if o < 0 {
      BinaryLength(o + 0x1_0000_0000, 4);
    } else if o >= 16 {
      BinaryLength(o, 4);
    } else if o == 0 {
      BitsOf0();
    } else if o == 1 {
      BitsOf1();
    } else if o == 2 {
      BitsOf2();
    } else if o == 3 {
      BitsOf3();
    } else if o == 4 {
      BitsOf4();
    } else if o == 5 {
      BitsOf5();
    } else if o == 6 {
      BitsOf6();
    } else if o == 7 {
      BitsOf7();
    } else if o == 8 {
      BitsOf8();
    } else if o == 9 {
      BitsOf9();
    } else if o == 10 {
      BitsOf10();
    } else if o == 11 {
      BitsOf11();
    } else if o == 12 {
      BitsOf12();
    } else if o == 13 {
      BitsOf13();
    } else if o == 14 {
      BitsOf14();
    } else {
      BitsOf15();
    }
  }
}

=== FILE: velocity.dfy ===
/**
 * The release velocity of a drag (computeVelocity in the AOSP-derived and the
 * gesture-filtered drawers): the reading on the sliding axis keeps its sign,
 * the cross-axis reading contributes its magnitude capped at the minor
 * velocity limit, and the result is the Euclidean norm of the two, negated
 * when the axis reading is negative.
 *
 * Math.hypot is a library routine; the model receives its value as a
 * parameter constrained by what the routine guarantees (IsHypot).
 */
module VelocityEstimator {

  function Abs(r: real): (a: real)
    ensures 0.0 <= a
    ensures a == r || a == -r
  {
    if r < 0.0 then -r else r
  }

  /** The tracker reading along the axis the drawer slides on. */
  function Major(vx: real, vy: real, vertical: bool): real {
    if vertical then vy else vx
  }

  /** The cross-axis reading, made non-negative and capped at `maxMinor`. */
  function ClampedMinor(vx: real, vy: real, vertical: bool, maxMinor: nat): (m: real)
    ensures 0.0 <= m <= maxMinor as real
    ensures m <= Abs(if vertical then vx else vy)
    ensures m == Abs(if vertical then vx else vy) || m == maxMinor as real
  {
    var minor := if vertical then vx else vy;
    var magnitude := if minor < 0.0 then -minor else minor;
    if magnitude > maxMinor as real then maxMinor as real else magnitude
  }

  /**
   * `h` is Math.hypot(a, b): the defining identity, together with the bounds
   * the Euclidean norm satisfies (no smaller than either reading, no larger
   * than their sum).
   */
  predicate IsHypot(a: real, b: real, h: real) {
    && 0.0 <= h
    && h * h == a * a + b * b
    && Abs(a) <= h && Abs(b) <= h
    && h <= Abs(a) + Abs(b)
  }

  function ComputeVelocity(vx: real, vy: real, vertical: bool, maxMinor: nat, magnitude: real): (v: real)
    requires IsHypot(Major(vx, vy, vertical), ClampedMinor(vx, vy, vertical, maxMinor), magnitude)
    ensures v < 0.0 <==> Major(vx, vy, vertical) < 0.0
    ensures Abs(v) == magnitude
    ensures Abs(Major(vx, vy, vertical)) <= Abs(v) <= Abs(Major(vx, vy, vertical)) + maxMinor as real
  {
    if Major(vx, vy, vertical) < 0.0 then -magnitude else magnitude
  }
}
